=== FILE: README.md ===
# Movement common libraries — a Dafny model

This project models the core of the Movement common libraries (IPCommon and KolymaCommon):

- **The slash-command engine**, in both of its copies:
  - the grammar compiler (`CSlashCommandInfo.Initialize`);
  - the command registry (`Initialize_Assembly_Commands`, `Initialize_Groups`);
  - the resolver (`Find_Matching_Type`, `Try_Parse`);
  - the parameter parser (`CSlashCommandInstance.Parse`, `Parse_Parameters`, `Parse_Parameter`);
  - the help lookup (`Get_Help_String`, `Handle_Help_Request`).
- **Smaller components:**
  - the generic handler table (`CGenericHandlerManager`);
  - the binary min-heap (`THeap`);
  - the packed virtual process id (`SVirtualProcessID`);
  - the list-building helpers of `CCommonUtils`;
  - the two resource managers (`CResourceManager`).

The engine is written once, over the group-key type `G`. A `Variant` value (`IpCommon` or `Kolyma(prefix)`) selects where the two copies differ:

- how a name and shortcut are looked up;
- which text keys are used;
- how a group joins the group index;
- how help input is matched.

Text lookup is a `Localizer` parameter. It says whether a key names a text id, and what text (if any) the id has.

Modules, one per file:

| file | module | models |
|---|---|---|
| base.dfy | `Base` | `Option`, `Result` |
| text.dfy | `Text` | ASCII `ToUpper`, `Int32.TryParse`-style integer parsing, trimming |
| string_list.dfy | `StringList` | `Build_String_List` overloads, `Apply`, `Duplicate_As_List` |
| localization.dfy | `Localization` | the text-lookup collaborator, text-key prefixes |
| grammar.dfy | `SlashGrammar` | the grammar compiler, usage and help text |
| matcher.dfy | `LineMatcher` | the compiled pattern as a clause matcher, `Command`, `Parse` |
| coercion.dfy | `ParamParsing` | `Parse_Parameter`, `Parse_Parameters`, `Enum.Parse`, `Boolean.Parse` |
| registry.dfy | `SlashRegistry` | registration, validation, groups, `Initialize_Groups` |
| resolver.dfy | `SlashResolver` | `Find_Matching_Type`, `Try_Parse`, help lookup |
| handlers.dfy | `GenericHandlers` | `Register_Handler`, `Try_Handle`, `Find_Handlers` |
| heap.dfy | `BinaryHeap` | `THeap` |
| process_id.dfy | `VirtualProcessIds` | `SVirtualProcessID` on `bv64` |
| escapes.dfy | `Escapes` | the `\n`/`\r`/`\t` substitution both resource managers apply |
| resources_ip.dfy | `IpResources` | IPCommon's resource manager |
| resources_kolyma.dfy | `KolymaResources` | Kolyma's resource manager |

How the model represents the source:

- **Exceptions.** A thrown exception is the `Failure` of a `Result`.
- **Reflection.** What reflection reads is given as data: command declarations, properties, methods and enum members.
- **The regular expression.** The pattern the compiler builds is a list of clauses. A small backtracking matcher tries alternatives in the .NET engine's priority order.
- **The resource loaders.** They fold over the resource entries and return the table reached together with the exception that stopped the load. An exception in the middle of a load leaves the earlier entries stored, and the model keeps them.

Two behaviours of the code worth noting:

- **Consume-all clause.** A Required consume-all parameter compiles to `[^\r\n]*` with no leading white space. Its capture therefore starts right after the command word and includes the separating blanks (`LineMatcher.RestOfLineRoundTrip`).
- **Missing-parameter error.** The missing-parameter branch of `Parse_Parameters` cannot fire. `Parse` already rejects a line with a required capture absent (`ParamParsing.ParseParametersOutcome`).

## Model

| member | source | states |
|---|---|---|
| Text.ToUpperIsUpper | Movement/IPCommon/Source/SlashCommand/SlashCommandParser.cs:59-60 | an upper-cased name or shortcut is upper case, and upper-casing it again changes nothing |
| Text.ParseIntegerRoundTrip | Movement/IPCommon/Source/SlashCommand/SlashCommandParser.cs:284-307 | every in-range integer, written in decimal, is read back as itself |
| Text.ParseIntegerLayout | Movement/IPCommon/Source/SlashCommand/SlashCommandParser.cs:284-307 | any text of the form blanks, optional sign, digits, blanks (leading zeros, `+` and `-0` included) reads as the signed value of its digits, accepted exactly when that value is in range |
| Text.ParseIntegerAccepted | Movement/IPCommon/Source/SlashCommand/SlashCommandParser.cs:284-307 | every accepted text has that form, and the result is the signed value of its digits |
| Text.WordWithLetterIsNotInt32 | Movement/IPCommon/Source/SlashCommand/SlashCommandParser.cs:66-71 | a name containing a letter or underscore is never rejected as numeric |
| StringList.BuildStringList | Movement/KolymaCommon/Source/LinqUtils.cs:30-50 | the result is the elements' texts in order joined by ", "; an empty list gives "" |
| StringList.BuildStringListAnnotated | Movement/KolymaCommon/Source/LinqUtils.cs:59-95 | the result joins, in order, each element's transformer text (or `ToString()` when there is no transformer) followed by its annotation |
| StringList.BuildStringListWith | Movement/KolymaCommon/Source/LinqUtils.cs:54-57 | the two-argument overload equals the three-argument one with a null annotater |
| StringList.JoinSnoc | Movement/KolymaCommon/Source/LinqUtils.cs:35-47 | one more element adds exactly one separator and that element at the end |
| StringList.JoinLength | Movement/KolymaCommon/Source/LinqUtils.cs:35-47 | n parts give their total length plus n-1 separators |
| StringList.JoinEnds | Movement/KolymaCommon/Source/LinqUtils.cs:35-47 | the list starts with its first part and ends with its last one, with no leading or trailing separator |
| StringList.PlainIsAnnotatedWithoutDelegates | Movement/KolymaCommon/Source/LinqUtils.cs:75-82 | the plain overload renders each element as the annotated one does with neither delegate |
| StringList.NullAnnotationAddsNothing | Movement/KolymaCommon/Source/LinqUtils.cs:84-91 | a null annotation adds nothing after its element |
| StringList.Apply | Movement/KolymaCommon/Source/LinqUtils.cs:97-103 | the action runs once per element, in order |
| StringList.DuplicateAsList | Movement/KolymaCommon/Source/LinqUtils.cs:115-120 | the copy is the same sequence in the same order |
| SlashGrammar.Compile | Movement/IPCommon/Source/SlashCommand/SlashCommand.cs:189-314 | initialisation succeeds exactly when nothing attributed follows a consume-all parameter and no Required parameter follows an Optional one; it then yields one clause and one parameter per kept property, the Optional count, the usage text (the name, then one piece per parameter) and the help text |
| SlashGrammar.CompileFromSpec | Movement/IPCommon/Source/SlashCommand/SlashCommand.cs:211-292 | the property loop fails exactly when an ordering rule is broken; otherwise it appends one clause, one parameter and one usage piece per attributed, non-Ignore property, in declaration order |
| SlashGrammar.CompiledShape | Movement/IPCommon/Source/SlashCommand/SlashCommand.cs:241-261 | optional clauses come last; a rest-of-line clause can only be the final one; `RequiredParamCount` counts the Required parameters, which are exactly the first ones |
| SlashGrammar.OptionalSuffix | Movement/IPCommon/Source/SlashCommand/SlashCommand.cs:241-260 | in a well-ordered parameter list the Optional parameters are exactly the last `OptionalParamCount` ones |
| SlashGrammar.KeptConsumeAllIsLast | Movement/IPCommon/Source/SlashCommand/SlashCommand.cs:219-236 | a kept consume-all parameter is the last parameter |
| SlashGrammar.IgnoreContributesNothing | Movement/IPCommon/Source/SlashCommand/SlashCommand.cs:224-229 | inserting an Ignore parameter changes no clause, parameter, group number, usage or help |
| SlashGrammar.OrderingErrors | Movement/IPCommon/Source/SlashCommand/SlashCommand.cs:219-246 | any attributed parameter after a consume-all one (even an Ignore one) makes initialisation throw; so does a Required parameter after an Optional one |
| SlashGrammar.CommandHelpText | Movement/KolymaCommon/Source/SlashCommand/SlashCommand.cs:242-259 | the no-help message is stored exactly when the usage format text is missing (both variants) or, on Kolyma, the help text id does not exist; otherwise the help is the looked-up blurb with the usage |
| SlashGrammar.CompiledHelpShowsUsage | Movement/IPCommon/Source/SlashCommand/SlashCommand.cs:298-311 | a compiled command's help quotes its own usage line, which starts with its name, exactly when the help texts exist; otherwise it is the no-help message |
| LineMatcher.CommandWord | Movement/IPCommon/Source/SlashCommand/SlashCommand.cs:374-388 | the command word is a non-empty run of word characters; it is absent exactly when no `/` is followed by a word character |
| LineMatcher.Parse | Movement/IPCommon/Source/SlashCommand/SlashCommand.cs:350-371 | no match fails and appends nothing; otherwise the captures are appended in order up to the first absent one, and the verdict is whether enough were found |
| LineMatcher.ParseHasRequired | Movement/IPCommon/Source/SlashCommand/SlashCommand.cs:350-371 | `Parse` succeeds exactly when the line matched and at least the required number of captures were appended |
| LineMatcher.LongestWordLength | Movement/IPCommon/Source/SlashCommand/SlashCommand.cs:194 | the greedy `\w+` command word gives back characters one at a time: the chosen length is the longest one after which the parameters match, and 0 only when no length does |
| LineMatcher.MatchCapturesMandatory | Movement/IPCommon/Source/SlashCommand/SlashCommand.cs:248-260 | a successful match has one capture per clause, and every mandatory clause captured something |
| LineMatcher.RestOfLineRoundTrip | Movement/IPCommon/Source/SlashCommand/SlashCommand.cs:248-251 | worked case, a grammar of one Required consume-all clause: everything after the command word is captured verbatim, leading blanks included |
| LineMatcher.BarewordCapture | Movement/IPCommon/Source/SlashCommand/SlashCommand.cs:252-255 | worked case, a grammar of one Required word clause: a bareword after the command word is captured, and text after it is ignored because the pattern has no end anchor |
| LineMatcher.QuotedCapture | Movement/IPCommon/Source/SlashCommand/SlashCommand.cs:252-255 | worked case, a grammar of one Required word clause: a quoted argument is captured without its quotes, blanks and symbols included |
| LineMatcher.OptionalAbsent | Movement/IPCommon/Source/SlashCommand/SlashCommand.cs:257-260 | worked case, a grammar of one Optional word clause: the line with no argument still matches, with no capture |
| LineMatcher.RequiredMissing | Movement/IPCommon/Source/SlashCommand/SlashCommand.cs:252-255 | worked case, a grammar of one Required word clause: the line with no argument fails to match |
| ParamParsing.FindMember | Movement/IPCommon/Source/SlashCommand/SlashCommandParser.cs:276-279 | finds the first enum member whose name equals the text ignoring case; none exactly when no member does |
| ParamParsing.Coerce | Movement/IPCommon/Source/SlashCommand/SlashCommandParser.cs:270-320 | strings pass verbatim, unsupported types give null, integer values lie in their type's range, enums and booleans give values of their kind |
| ParamParsing.AssignFrom | Movement/IPCommon/Source/SlashCommand/SlashCommandParser.cs:234-265 | the loop fails only on a value that did not coerce, or on a missing parameter when fewer captures than required parameters exist |
| ParamParsing.AssignFromSuccess | Movement/IPCommon/Source/SlashCommand/SlashCommandParser.cs:234-265 | a successful loop assigns, in order, exactly the parameters that have a capture, each to its coerced value |
| ParamParsing.AssignFromFailure | Movement/IPCommon/Source/SlashCommand/SlashCommandParser.cs:234-265 | a value error names the first capture that did not coerce, with its text, property, index, type and command; a missing-parameter error comes only after every capture coerced; enough coercible captures always succeed |
| ParamParsing.ParseParameters | Movement/IPCommon/Source/SlashCommand/SlashCommandParser.cs:225-268 | the unable-to-parse error happens exactly when `Parse` rejects the line |
| ParamParsing.ParseParametersOutcome | Movement/IPCommon/Source/SlashCommand/SlashCommandParser.cs:237-246 | the missing-parameter error never happens; success assigns one value per capture, in order, each the coercion of its capture |
| ParamParsing.QuotedStringParameter | Movement/IPCommon/Source/SlashCommand/SlashCommandParser.cs:280-283 | a quoted string argument is assigned verbatim to a string parameter |
| ParamParsing.EnumNameRoundTrip | Movement/IPCommon/Source/SlashCommand/SlashCommandParser.cs:276-279 | a member name typed in any case parses to that member's value |
| ParamParsing.EnumNumberRoundTrip | Movement/IPCommon/Source/SlashCommand/SlashCommandParser.cs:276-279 | every 32-bit integer written in decimal reads back as that number from an enum parameter, whether or not a member has it |
| ParamParsing.IntegerRoundTrip | Movement/IPCommon/Source/SlashCommand/SlashCommandParser.cs:284-307 | each integer property type reads back any in-range integer written in decimal |
| ParamParsing.BooleanRoundTrip | Movement/IPCommon/Source/SlashCommand/SlashCommandParser.cs:308-311 | both boolean values read back from their names in any case |
| SlashRegistry.Validate | Movement/IPCommon/Source/SlashCommand/SlashCommandParser.cs:62-110 | validation passes exactly when the name is non-empty, non-numeric, not its own shortcut and not taken, and the shortcut is empty or else non-numeric and not taken; a clash names the type holding the name |
| SlashRegistry.JoinGroup | Movement/KolymaCommon/Source/SlashCommand/SlashCommandManager.cs:150-178 | the first command of a group creates it, appends its label (after ", " only when the list is not empty) and, on Kolyma, indexes it by upper-case label; later commands are appended to its list; nothing else changes |
| SlashRegistry.NamesFromTexts | Movement/IPCommon/Source/SlashCommand/SlashCommandParser.cs:50-59 | in both variants (Kolyma: SlashCommandManager.cs:51-85) a command is named by its localized text when it has one and by its suffix when it has none, and a non-empty shortcut is the upper-cased shortcut text |
| SlashRegistry.RegisterNamed | Movement/IPCommon/Source/SlashCommand/SlashCommandParser.cs:62-117 | an unacceptable name or shortcut fails before compilation; a compile failure means an ill-ordered parameter list |
| SlashRegistry.RegisterIndexes | Movement/IPCommon/Source/SlashCommand/SlashCommandParser.cs:118-124 | a registered command is indexed under its upper-case name, and under its shortcut exactly when it has one |
| SlashRegistry.IpGroupKey | Movement/IPCommon/Source/SlashCommand/SlashCommand.cs:54 | IPCommon's group key is the group name upper-cased, and there is none for an empty name |
| SlashRegistry.EmptyIsValid | Movement/IPCommon/Source/SlashCommand/SlashCommandParser.cs:397-404 | the empty registry satisfies the registry invariant |
| SlashRegistry.RegisterPreservesValid | Movement/IPCommon/Source/SlashCommand/SlashCommandParser.cs:40-151 | registration keeps the invariant: indexes point at registered commands, keys are non-empty, upper-case and non-numeric, no key is both a name and a shortcut, groups are distinct, and the group list holds their labels |
| SlashRegistry.RegisterAllPreservesValid | Movement/IPCommon/Source/SlashCommand/SlashCommandParser.cs:40-151 | a whole `Initialize_Assembly_Commands` run that throws nothing leaves the registry satisfying the invariant, one declaration after another |
| SlashRegistry.ShortcutIsUpper | Movement/IPCommon/Source/SlashCommand/SlashCommandParser.cs:60 | a looked-up shortcut is upper case |
| SlashRegistry.BuildLabelsIsJoin | Movement/IPCommon/Source/SlashCommand/SlashCommandParser.cs:138-147 | when every label is non-empty the group list is the labels joined by ", " |
| SlashRegistry.GroupListIsJoin | Movement/IPCommon/Source/SlashCommand/SlashCommandParser.cs:138-147 | in a valid registry with non-empty labels the group list is the labels of the groups, in creation order, joined by ", " |
| SlashRegistry.InitGroupsFrom | Movement/KolymaCommon/Source/SlashCommand/SlashCommandManager.cs:189-194 | building group help changes only the groups; it fails only at a group, with the missing command-list format text (both variants) or an unknown help text id (Kolyma) |
| SlashRegistry.InitGroupsFromSpec | Movement/KolymaCommon/Source/SlashCommand/SlashCommandManager.cs:189-194 | the help loop succeeds exactly when, if any group remains, the command-list format text exists and (on Kolyma) every group's help text id exists; it gives each group the help that `Initialize_Help_String` (KolymaCommon SlashCommand.cs:74-84) builds from its own commands |
| SlashRegistry.InitializeGroups | Movement/KolymaCommon/Source/SlashCommand/SlashCommandManager.cs:182-195 | a first call without the "Help" format text throws; otherwise the general help is taken from the group list the first time only, and nothing but the groups and the general help changes |
| SlashRegistry.InitializeGroupsSucceeds | Movement/IPCommon/Source/SlashCommand/SlashCommandParser.cs:153-165 | `Initialize_Groups` succeeds exactly when the general help is already set or its format text exists, and the texts every group's help needs exist |
| SlashRegistry.InitializeGroupsRebuilds | Movement/IPCommon/Source/SlashCommand/SlashCommandParser.cs:153-165 | a successful `Initialize_Groups` keeps every group and its commands, gives each group its built help, sets the general help, and changes nothing else |
| SlashRegistry.InitializeGroupsBuildsHelp | Movement/IPCommon/Source/SlashCommand/SlashCommandParser.cs:153-165 | after `Initialize_Groups` every group has the help built from its commands and the invariant still holds |
| SlashRegistry.RebuildChangesNothing | Movement/IPCommon/Source/SlashCommand/SlashCommandParser.cs:153-165 | rebuilding help that is already built changes nothing |
| SlashRegistry.InitializeGroupsIdempotent | Movement/KolymaCommon/Source/SlashCommand/SlashCommandManager.cs:182-195 | a second `Initialize_Groups` changes nothing, so the general help stays as first computed |
| SlashResolver.Resolve | Movement/IPCommon/Source/SlashCommand/SlashCommandParser.cs:322-358 | a resolved type comes from an exact shortcut, from a name the word is a prefix of, or from the numeric fallback to "#"; the word is ambiguous exactly when it is no shortcut and two or more names start with it |
| SlashResolver.ResolveIsRegistered | Movement/IPCommon/Source/SlashCommand/SlashCommandParser.cs:322-358 | a resolved command is a registered command |
| SlashResolver.ShortcutWins | Movement/IPCommon/Source/SlashCommand/SlashCommandParser.cs:324-329 | an exact shortcut wins whatever names the word is a prefix of |
| SlashResolver.UniquePrefix | Movement/IPCommon/Source/SlashCommand/SlashCommandParser.cs:331-340 | otherwise the one name the word is a prefix of decides |
| SlashResolver.AmbiguousEvenIfExact | Movement/IPCommon/Source/SlashCommand/SlashCommandParser.cs:331-357 | two names starting with the word make it ambiguous, even when one equals the word |
| SlashResolver.NumericFallback | Movement/IPCommon/Source/SlashCommand/SlashCommandParser.cs:341-348 | a number that starts no name resolves to the command named "#", and fails when there is none |
| SlashResolver.UnknownToken | Movement/IPCommon/Source/SlashCommand/SlashCommandParser.cs:349-353 | a word that is no shortcut, no name prefix and no number is unknown |
| SlashResolver.FullNameResolves | Movement/IPCommon/Source/SlashCommand/SlashCommandParser.cs:331-340 | in a valid registry a full name resolves to its command unless it is a prefix of another name |
| SlashResolver.TryParse | Movement/IPCommon/Source/SlashCommand/SlashCommandParser.cs:167-196 | success means the upper-cased command word resolved and the parameters parsed; the empty error happens exactly when there is no command word |
| SlashResolver.TryParseFailures | Movement/IPCommon/Source/SlashCommand/SlashCommandParser.cs:178-192 | a resolution failure or a parameter failure is reported, in that order |
| SlashResolver.HelpIpIgnoresCase | Movement/IPCommon/Source/SlashCommand/SlashCommandParser.cs:200-215 | IPCommon's help lookup ignores case |
| SlashResolver.HelpIpGroupFirst | Movement/IPCommon/Source/SlashCommand/SlashCommandParser.cs:204-208 | a group key that is also a command name gives the group's help |
| SlashResolver.HelpKolymaIsCaseSensitive | Movement/KolymaCommon/Source/SlashCommand/SlashCommandManager.cs:228-251 | Kolyma's own lookup is case-sensitive, but the help command's upper-casing finds the command |
| SlashResolver.HelpFindsGroupByCaption | Movement/KolymaCommon/Source/SlashCommand/SlashCommandManager.cs:422-430 | through the help command a group is found by its label typed in any case |
| GenericHandlers.RegisterHandler | Movement/IPCommon/Source/GenericHandler.cs:153-163 | registering an already handled type throws; otherwise exactly one entry, for that type, is added and the others are kept |
| GenericHandlers.RegisterThenHandle | Movement/IPCommon/Source/GenericHandler.cs:153-177 | a registered handler is the one invoked for its type, and registration changes nothing for other types |
| GenericHandlers.SubclassNotHandled | Movement/IPCommon/Source/GenericHandler.cs:167-176 | an object of a subclass of a handled type is not handled |
| GenericHandlers.ScanMethodOutcome | Movement/IPCommon/Source/GenericHandler.cs:72-148 | a scanned method adds a handler only for a new handleable parameter type and otherwise leaves the table alone |
| GenericHandlers.ArityCheckedFirst | Movement/IPCommon/Source/GenericHandler.cs:78-83 | a tagged method without exactly one parameter throws, whatever its parameters |
| GenericHandlers.DuplicateFound | Movement/IPCommon/Source/GenericHandler.cs:93-97 | a second handler for a handled type throws |
| GenericHandlers.InstanceNeedsSingleton | Movement/IPCommon/Source/GenericHandler.cs:117-128 | an instance handler in a type with neither `Instance` nor `BaseInstance` throws |
| GenericHandlers.ScanMethods | Movement/IPCommon/Source/GenericHandler.cs:69-149 | scanning a type's methods keeps every entry and adds only handleable types |
| GenericHandlers.FindHandlers | Movement/IPCommon/Source/GenericHandler.cs:60-151 | a full scan keeps every entry and adds only handleable types |
| GenericHandlers.ScanMethodsComplete | Movement/IPCommon/Source/GenericHandler.cs:69-149 | after a successful scan every handler method of the type has a handler |
| GenericHandlers.FindHandlersComplete | Movement/IPCommon/Source/GenericHandler.cs:60-151 | after a successful scan every handler method of every type has a handler |
| BinaryHeap.NewHeap | Movement/IPCommon/Source/Heap.cs:40-44 | a new heap holds only the dummy, is empty and has size 0 |
| BinaryHeap.RootIsLeast | Movement/IPCommon/Source/Heap.cs:48-56 | in an ordered heap slot 1 holds the least element |
| BinaryHeap.PeekTop | Movement/IPCommon/Source/Heap.cs:48-56 | peeking throws exactly on an empty heap and otherwise returns the least element |
| BinaryHeap.SiftUp | Movement/IPCommon/Source/Heap.cs:79-95 | the sift-up loop restores parent ≤ child everywhere and keeps the elements |
| BinaryHeap.SwapKeepsElements | Movement/IPCommon/Source/Heap.cs:90-92 | swapping two slots keeps the elements |
| BinaryHeap.Add | Movement/IPCommon/Source/Heap.cs:77-96 | adding grows the size by one, adds exactly the element and keeps the heap order |
| BinaryHeap.Heapify | Movement/IPCommon/Source/Heap.cs:99-129 | when only one slot breaks the order, sifting it down restores the order and keeps the elements |
| BinaryHeap.HeapifyDone | Movement/IPCommon/Source/Heap.cs:118-121 | when no child is smaller, the order is whole |
| BinaryHeap.HeapifyStep | Movement/IPCommon/Source/Heap.cs:104-127 | swapping with the smaller child moves the violation down to that child |
| BinaryHeap.LastToRoot | Movement/IPCommon/Source/Heap.cs:65-67 | moving the last element to the root loses exactly the old root and breaks the order at most at the root |
| BinaryHeap.PopTop | Movement/IPCommon/Source/Heap.cs:58-75 | popping throws exactly on an empty heap and otherwise returns the least element, shrinks the size by one and removes exactly that element |
| BinaryHeap.Drain | Movement/IPCommonTests/HeapTests.cs:144-159 | repeated peek and pop yields every element, in ascending order |
| VirtualProcessIds.MakeId | Movement/KolymaCommon/Source/Concurrency/VirtualProcessID.cs:41-57 | construction fails exactly when the subject does not fit 16 bits |
| VirtualProcessIds.PackedValue | Movement/KolymaCommon/Source/Concurrency/VirtualProcessID.cs:48-56 | the id reads, in base 65536, minor, major, primary, subject |
| VirtualProcessIds.UnpackPacked | Movement/KolymaCommon/Source/Concurrency/VirtualProcessID.cs:48-56 | each 16-bit field of a packed id is the value packed there |
| VirtualProcessIds.MakeThenGet | Movement/KolymaCommon/Source/Concurrency/VirtualProcessID.cs:41-96 | each getter returns the value given to the constructor |
| VirtualProcessIds.PrimaryRoundTrip | Movement/KolymaCommon/Source/Concurrency/VirtualProcessID.cs:65-77 | writing bits 16-31 and reading them back gives the value written, and leaves the other fields alone |
| VirtualProcessIds.MajorRoundTrip | Movement/KolymaCommon/Source/Concurrency/VirtualProcessID.cs:79-91 | writing bits 32-47 and reading them back gives the value written, and leaves the other fields alone |
| VirtualProcessIds.MinorRoundTrip | Movement/KolymaCommon/Source/Concurrency/VirtualProcessID.cs:93-105 | writing bits 48-63 and reading them back gives the value written, and leaves the other fields alone |
| VirtualProcessIds.SetThenGet | Movement/KolymaCommon/Source/Concurrency/VirtualProcessID.cs:65-105 | each setter followed by its getter returns the value set, and the subject and the other two sub-ids are unchanged |
| VirtualProcessIds.SetCurrentIsIdentity | Movement/KolymaCommon/Source/Concurrency/VirtualProcessID.cs:70-105 | setting a field to its current value changes nothing |
| VirtualProcessIds.NeedsAllocationIffInvalid | Movement/KolymaCommon/Source/Concurrency/VirtualProcessID.cs:112-120 | an id needs sub-id allocation exactly when it is not valid |
| VirtualProcessIds.DefaultAndFirst | Movement/KolymaCommon/Source/Concurrency/VirtualProcessID.cs:36-57 | the default id has every sub-id Invalid and needs allocation; an id built with the default sub-ids is valid |
| Escapes.ReplacePairNoBackslash | Movement/IPCommon/Source/Resources/ResourceManager.cs:94-96 | a substitution pass changes nothing in text without a backslash |
| Escapes.ReplacePairRemovesPairs | Movement/IPCommon/Source/Resources/ResourceManager.cs:94-96 | after a pass no backslash-c pair is left |
| Escapes.ReplacePairUndoesEscape | Movement/IPCommon/Source/Resources/ResourceManager.cs:94-96 | a pass undoes writing its character as backslash-c |
| Escapes.UnescapeEscape | Movement/IPCommon/Source/Resources/ResourceManager.cs:93-96 | a text without backslashes, with its newlines, returns and tabs written as escapes, loads back as itself |
| Escapes.UnescapePlain | Movement/KolymaCommon/Source/Resources/ResourceManager.cs:64-68 | a text without backslashes loads unchanged |
| Escapes.UnescapeRemovesTabEscapes | Movement/IPCommon/Source/Resources/ResourceManager.cs:96 | a loaded text has no backslash-t pair left |
| IpResources.PrefixOf | Movement/IPCommon/Source/Resources/ResourceManager.cs:61-73 | every type except Invalid has a prefix, which is its name upper-cased |
| IpResources.TypeFromNameCases | Movement/IPCommon/Source/Resources/ResourceManager.cs:198-210 | a name is Text when it starts with "TEXT" in any case, Image when it instead starts with "IMAGE", Invalid otherwise, and throws when shorter than the prefix being compared |
| IpResources.CreateAndAddResource | Movement/IPCommon/Source/Resources/ResourceManager.cs:155-165 | adding throws exactly when the upper-cased name is already a key; otherwise the value is stored under it and nothing else changes |
| IpResources.KeysStayUpper | Movement/IPCommon/Source/Resources/ResourceManager.cs:155-164 | every stored key is upper case |
| IpResources.LoadedEntriesStored | Movement/IPCommon/Source/Resources/ResourceManager.cs:79-106 | a load that throws nothing stored every entry as Text, under its upper-cased name, with its escapes substituted |
| IpResources.LoadingOnlyAdds | Movement/IPCommon/Source/Resources/ResourceManager.cs:79-106 | loading keeps every entry stored before, even when it throws |
| IpResources.DuplicateIgnoringCaseThrows | Movement/IPCommon/Source/Resources/ResourceManager.cs:157-162 | a second name equal to the first ignoring case throws the duplicate-key error |
| IpResources.EnumName | Movement/IPCommon/Source/Resources/ResourceManager.cs:193-196 | the enum name is that of a member with the value, and is missing exactly when no member has it |
| IpResources.LoadThenGetText | Movement/IPCommon/Source/Resources/ResourceManager.cs:141-152 | after a clean load, a resource named "Text_" + name is found by that name in any case |
| IpResources.LoadThenGetTextById | Movement/IPCommon/Source/Resources/ResourceManager.cs:128-152 | after a clean load, the resource named "Text_" + member is found by that member's id, provided no other member has the same value |
| IpResources.StringKeyedWrapperThrows | Movement/IPCommon/Source/Resources/Resource.cs:82-85 | a string-keyed `CCommonResource.Get_Text` call throws even for a key the string overload `Get_Text( string )` finds after a clean load |
| IpResources.EmptyManagerFindsNothing | Movement/IPCommon/Source/Resources/ResourceManager.cs:141-152 | nothing is found before loading |
| IpResources.VerifyResourceEnumSpec | Movement/IPCommon/Source/Resources/ResourceManager.cs:167-186 | an enum passes exactly when every entry not named Invalid or None has a resource; otherwise the first missing entry is reported |
| IpResources.VerifyResourceEnumsSpec | Movement/IPCommon/Source/Resources/ResourceManager.cs:108-126 | the corrected scan passes exactly when every attributed enum is covered |
| IpResources.UnattributedEnumHidesTheRest | Movement/IPCommon/Source/Resources/ResourceManager.cs:117-121 | as written, an enum without the attribute ends the scan and hides a later uncovered enum |
| KolymaResources.LineHead | Movement/KolymaCommon/Source/Resources/ResourceManager.cs:44 | what `.+` can take is the text up to the first newline |
| KolymaResources.Captured | Movement/KolymaCommon/Source/Resources/ResourceManager.cs:98-102 | a name matches exactly when it starts, case-sensitively, with the prefix followed by a character other than a newline |
| KolymaResources.CapturedPlainName | Movement/KolymaCommon/Source/Resources/ResourceManager.cs:98-109 | the capture of a name without newlines is everything after the prefix |
| KolymaResources.NumericResourceIndex | Movement/KolymaCommon/Source/Resources/ResourceManager.cs:107-123 | a numeric resource suffix is taken as the index even when no member has it, and a negative one fails the unsigned conversion |
| KolymaResources.AddResource | Movement/KolymaCommon/Source/Resources/ResourceManager.cs:94-138 | an unmatched name is skipped; a matched name either fails (bad index or duplicate index) or stores the value under a new index in its enum's table |
| KolymaResources.AddThenGet | Movement/KolymaCommon/Source/Resources/ResourceManager.cs:125-137 | after an add, the text is found under its index, and other enums' lookups are unchanged |
| KolymaResources.DuplicateKeepsExisting | Movement/KolymaCommon/Source/Resources/ResourceManager.cs:132-137 | a second resource for an index throws, and the stored text is kept |
| KolymaResources.PatternIsCaseSensitive | Movement/KolymaCommon/Source/Resources/ResourceManager.cs:44 | "TEXT_..." does not match the Text pattern and is skipped |
| KolymaResources.LoadingOnlyAdds | Movement/KolymaCommon/Source/Resources/ResourceManager.cs:60-71 | loading keeps every stored text, even when it throws |
| KolymaResources.LoadedEntriesStored | Movement/KolymaCommon/Source/Resources/ResourceManager.cs:60-71 | a load that throws nothing stored every matching resource under its index, with its escapes substituted |
| KolymaResources.LoadThenGetText | Movement/KolymaCommon/Source/Resources/ResourceManager.cs:53-91 | after a clean load, a resource named "<Type>_" + member is found by that member's id |
| KolymaResources.EmptyManagerFindsNothing | Movement/KolymaCommon/Source/Resources/ResourceManager.cs:78-82 | nothing is found before loading |

## Left out

- **Reflection.** `Assembly.GetTypes`, attribute lookup, `Activator.CreateInstance`, `PropertyInfo.SetValue` and delegate composition (`Cast_And_Call`) are left out. The declarations are given as data, a property assignment is recorded as an `Assignment`, and a handler is a tag.
- **Ordering assumptions.** An enum's members are supplied in the order `Enum.GetNames` and `Enum.GetValues` return them: ascending by the value read as unsigned. That is not declaration order: `{ Invalid = -1, A, B }` lists `Invalid` last, in the usage text and in the resource-enum verification. Properties and methods are taken in declaration order. `Dictionary` iteration order is taken to be insertion order (`groupOrder`, and the prefix table of IPCommon's resources).
- **Message text.** Localized messages and `String.Format` rendering are left out. Each error is a constructor carrying the message's arguments. The general help is recorded as the group list it is formatted from.
- **Text output.** `Output_Text*` and `CSharedResource` are left out.
- **Localizer.** The slash-command engine's text lookups are the `Localizer` parameter. For IPCommon, string-keyed `CCommonResource.Get_Text` calls are taken to reach `CResourceManager.Get_Text( string )`. As written they throw (see "## Findings"), so IPCommon registration would throw at its first command. The model follows the evidently intended lookup.
- **The regular expression engine.** The .NET engine is not modelled in general. Only the patterns the compiler builds are matched, by the clause matcher.
- **Character classes.** `\w`, `\s` and `\p{S}` are ASCII approximations.
- **Text.ToUpper:** ASCII letters only, and culture-independent. Likewise, case-insensitive comparison is ASCII.
- **Floating point.** `float.Parse` and `double.Parse` are the `RealParsers` parameter.
- **Integer and boolean parsing.** Integers are read as `[blanks][sign]digits[blanks]` under the invariant culture. Thousands separators, hex and culture-specific signs are left out.
- **IpResources.EnumName:** when several members share a value, `Enum.GetName` promises only some member with it. The model picks the first in `Enum.GetNames` order. `LoadThenGetTextById` requires the member's value to be unique, so it does not rest on that choice.
- **ParamParsing.ParseEnum:** comma-separated flag lists of `Enum.Parse` are left out. Enums are taken to have `int` as their underlying type: a numeric argument is range-checked as an `Int32`.
- **KolymaResources.ResourceIndex:** a numeric suffix outside the 32-bit range is reported as the cast failure, not as the overflow message.
- **Nulls.** A `null` input string (to `Get_Help_String`, a command line or a resource value) is left out. So is a resource value that is not a string.
- **Partial state after an exception.** It is kept for resource loading (`Loaded`). Registration, `Find_Handlers` and Kolyma's `Initialize_Groups` return `Failure` and drop the half-updated tables. In `Initialize_Groups` that means the general help string, set before the loop, and the help texts of the groups handled before the one whose help id does not exist; the model promises nothing about the registry after such a failure.
- **GenericHandlers.FindHandlers:** the `generic_handler == null` check is left out. It depends on delegate creation, which is not modelled. So is a null singleton returned by the `Instance` property.
- **VirtualProcessIds.MakeId:** the check that `T` is an enum is left out. The subject is given as its integer value.
- **Get_PID.** `Get_PID` is the `pid` field itself.
- **BinaryHeap:** elements are integers compared with `<`. They stand for `IComparable<T>`, and `new T()` is the dummy 0.
- **Out of scope.**
  - `ConcurrentQueue`, `[ThreadStatic]` instances and the singletons are left out: an explicit value replaces each.
  - The heap tests' indexable-heap API is left out.
  - `ShallowCopy` and `Duplicate` are left out; they are not part of the core.

## Findings

| source | as written | input that shows it | evidently intended | confidence | as-written member | corrected member |
|---|---|---|---|---|---|---|
| Movement/IPCommon/Source/Resources/ResourceManager.cs:118-121 | an enum without `[Resource]` ends `Verify_Resource_Enums` with `return` | an assembly holding an unattributed enum `EPlain` followed by an attributed `ETextID` whose entry `Greeting` has no resource: the scan passes | the unattributed enum is skipped (`continue`, as for non-enum types), so `ETextID` is checked and the missing resource reported | medium, not executed | IpResources.UnattributedEnumHidesTheRest | IpResources.VerifyResourceEnumsSpec |
| Movement/IPCommon/Source/Resources/Resource.cs:82-85 | `CCommonResource` has only the generic `Get_Text< T >` overloads, so a string key binds `T = string`, and `Build_Resource_Key< T >` (ResourceManager.cs:193-196) calls `Enum.GetName( typeof( string ), … )`, which throws `ArgumentException` | `Initialize_Assembly_Commands` reaching `CCommonResource.Get_Text( command_name_text_id_name )` at SlashCommandParser.cs:53 for any attributed command; `StringKeyedWrapperThrows` shows a loaded text the wrapper cannot reach | a string overload forwarding to `CResourceManager.Get_Text( string )` (ResourceManager.cs:141), so the lookup finds the loaded text | high, not executed | IpResources.StringKeyedWrapperThrows | IpResources.LoadThenGetText |

=== FILE: base.dfy ===
/** Failure-carrying wrappers shared by every module of the model.
    `Option` stands for a C# reference that may be null, `Result` for an
    operation that either returns a value or throws. */
module Base {

  datatype Option<+T> = None | Some(value: T) {
    function GetOr(default: T): T {
      match this
      case Some(v) => v
      case None => default
    }
  }

  datatype Result<+T, +E> = Success(value: T) | Failure(error: E) {
    predicate IsFailure() {
      Failure?
    }

    function PropagateFailure<U>(): Result<U, E>
      requires Failure?
    {
      Failure(error)
    }

    function Extract(): T
      requires Success?
    {
      value
    }
  }
}

=== FILE: coercion.dfy ===
/** `Parse_Parameters` and `Parse_Parameter` of both parsers
    (IPCommon/Source/SlashCommand/SlashCommandParser.cs and
    KolymaCommon/Source/SlashCommand/SlashCommandManager.cs, which agree
    line for line): match the line, read the captures, and coerce each one
    to its property's type, in declaration order.

    Setting the property by reflection is modelled as the list of
    assignments made, in order; properties left unassigned keep their
    defaults. */
module ParamParsing {
  import opened Base
  import opened Text
  import opened SlashGrammar
  import opened LineMatcher

  /** A coerced parameter value.  All integer widths share `IntValue`; the
      width is enforced by the range the text is parsed against. */
  datatype Value =
    | EnumValue(number: int)
    | StringValue(text: string)
    | IntValue(number: int)
    | RealValue(approx: real)
    | BoolValue(flag: bool)

  /** `float.Parse` and `double.Parse`: floating point is not modelled, so
      the two culture-dependent parsers are given, `None` where they throw. */
  datatype RealParsers = RealParsers(single: string -> Option<real>, double: string -> Option<real>)

  datatype Assignment = Assignment(property: string, value: Value)

  /** Why `Parse_Parameters` returns false.  `BadValue` carries the five
      arguments of the unable-to-parse-parameter message: the text, the
      property name, its index, its type name and the command type. */
  datatype ParseError =
    | UnableToParseLine
    | MissingParameter
    | BadValue(value: string, property: string, index: nat, typeName: string, commandType: string)

  const UInt32Max: int := 0xFFFF_FFFF
  const Int64Min: int := -0x8000_0000_0000_0000
  const Int64Max: int := 0x7FFF_FFFF_FFFF_FFFF
  const UInt64Max: int := 0xFFFF_FFFF_FFFF_FFFF

  /** `PropertyType.Name`. */
  function TypeName(t: ValueType): string {
    match t
    case EnumType(name, _) => name
    case StringType => "String"
    case Int32Type => "Int32"
    case UInt32Type => "UInt32"
    case SingleType => "Single"
    case DoubleType => "Double"
    case Int64Type => "Int64"
    case UInt64Type => "UInt64"
    case BooleanType => "Boolean"
    case OtherType(name) => name
  }

  // ---------------------------------------------------------------------
  // Enum.Parse( type, text, true )

  /** The index of the first member whose name equals `t` ignoring case. */
  function FindMember(members: seq<EnumMember>, t: string): (r: Option<nat>)
    ensures r.None? <==> forall j :: 0 <= j < |members| ==> !EqualsIgnoreCase(members[j].name, t)
    ensures r.Some? ==>
      && r.value < |members| && EqualsIgnoreCase(members[r.value].name, t)
      && forall j :: 0 <= j < r.value ==> !EqualsIgnoreCase(members[j].name, t)
  {
    if members == [] then None
    else if EqualsIgnoreCase(members[0].name, t) then Some(0)
    else
      var r := FindMember(members[1..], t);
      assert forall j :: 1 <= j < |members| ==> members[j] == members[1..][j - 1];
      match r
      case None => None
      case Some(i) => Some(i + 1)
  }

  /** A text that `Enum.Parse` reads as a number: it starts with a digit or
      a sign once white space is trimmed. */
  predicate LooksNumeric(t: string) {
    t != [] && (IsDigit(t[0]) || t[0] == '-' || t[0] == '+')
  }

  /** `Enum.Parse` with `ignoreCase`: surrounding white space is trimmed; a
      numeric text gives that number even if no member has it (the enums
      are `int`-based, so it must fit 32 bits); otherwise the first member
      whose name matches ignoring case. */
  function ParseEnum(members: seq<EnumMember>, s: string): (r: Option<int>)
    ensures Trim(s, IsSpaceChar) == [] ==> r.None?
    ensures Trim(s, IsSpaceChar) != [] && !LooksNumeric(Trim(s, IsSpaceChar)) ==>
      var i := FindMember(members, Trim(s, IsSpaceChar));
      (r.Some? <==> i.Some?) && (i.Some? ==> r.value == members[i.value].value)
    ensures LooksNumeric(Trim(s, IsSpaceChar)) ==> r == ParseInt32(Trim(s, IsSpaceChar))
  {
    var t := Trim(s, IsSpaceChar);
    if t == [] then None
    else if LooksNumeric(t) then ParseInt32(t)
    else
      match FindMember(members, t)
      case Some(i) => Some(members[i].value)
      case None => None
  }

  // ---------------------------------------------------------------------
  // Boolean.Parse

  predicate IsSpaceOrNull(c: char) {
    IsSpaceChar(c) || c == '\0'
  }

  /** `Boolean.Parse`: "True" or "False" ignoring case, after trimming
      white space and NUL characters. */
  function ParseBoolean(s: string): (r: Option<bool>)
    ensures r == Some(true) <==> EqualsIgnoreCase(Trim(s, IsSpaceOrNull), "True")
    ensures r == Some(false) <==> EqualsIgnoreCase(Trim(s, IsSpaceOrNull), "False")
  {
    var t := Trim(s, IsSpaceOrNull);
    if EqualsIgnoreCase(t, "True") then Some(true)
    else if EqualsIgnoreCase(t, "False") then Some(false)
    else None
  }

  // ---------------------------------------------------------------------
  // Parse_Parameter

  /** `Parse_Parameter`: the value of text `s` for a property of type `t`,
      `None` (null) when the parser throws or the type is not supported. */
  function Coerce(t: ValueType, s: string, reals: RealParsers): (r: Option<Value>)
    ensures t.StringType? ==> r == Some(StringValue(s))
    ensures t.OtherType? ==> r.None?
    ensures r.Some? && t.Int32Type? ==> r.value.IntValue? && Int32Min <= r.value.number <= Int32Max
    ensures r.Some? && t.UInt32Type? ==> r.value.IntValue? && 0 <= r.value.number <= UInt32Max
    ensures r.Some? && t.Int64Type? ==> r.value.IntValue? && Int64Min <= r.value.number <= Int64Max
    ensures r.Some? && t.UInt64Type? ==> r.value.IntValue? && 0 <= r.value.number <= UInt64Max
    ensures r.Some? && t.EnumType? ==> r.value.EnumValue?
    ensures r.Some? && t.BooleanType? ==> r.value.BoolValue?
  {
    match t
    case EnumType(_, members) =>
      (match ParseEnum(members, s) case Some(n) => Some(EnumValue(n)) case None => None)
    case StringType => Some(StringValue(s))
    case Int32Type => IntOf(ParseInteger(s, Int32Min, Int32Max))
    case UInt32Type => IntOf(ParseInteger(s, 0, UInt32Max))
    case SingleType => (match reals.single(s) case Some(x) => Some(RealValue(x)) case None => None)
    case DoubleType => (match reals.double(s) case Some(x) => Some(RealValue(x)) case None => None)
    case Int64Type => IntOf(ParseInteger(s, Int64Min, Int64Max))
    case UInt64Type => IntOf(ParseInteger(s, 0, UInt64Max))
    case BooleanType => (match ParseBoolean(s) case Some(b) => Some(BoolValue(b)) case None => None)
    case OtherType(_) => None
  }

  function IntOf(n: Option<int>): (r: Option<Value>)
    ensures r.Some? <==> n.Some?
    ensures r.Some? ==> r.value == IntValue(n.value)
  {
    match n
    case Some(v) => Some(IntValue(v))
    case None => None
  }

  // ---------------------------------------------------------------------
  // Parse_Parameters

  /** Each capture coerced to its parameter's type (`Parse_Parameter`);
      captures beyond the parameters get nothing. */
  function CoerceAll(info: CommandInfo, values: seq<string>, reals: RealParsers): (r: seq<Option<Value>>)
    ensures |r| == |values|
    ensures forall k :: 0 <= k < |values| && k < |info.params| ==>
      r[k] == Coerce(info.params[k].property.valueType, values[k], reals)
  {
    seq(|values|, k requires 0 <= k < |values| =>
      if k < |info.params| then Coerce(info.params[k].property.valueType, values[k], reals) else None)
  }

  /** The loop over `Params` from index `i`, given the captures and their
      coerced values: each is assigned in turn; the first that did not
      coerce aborts with its message; when the captures run out the loop
      stops, complaining only if a required parameter is still missing. */
  function AssignFrom(info: CommandInfo, values: seq<string>, coerced: seq<Option<Value>>, i: nat)
    : (r: Result<seq<Assignment>, ParseError>)
    requires i <= |info.params| && |coerced| == |values|
    ensures r.Failure? ==> r.error.BadValue? || (r.error.MissingParameter? && |values| < info.RequiredCount())
    decreases |info.params| - i
  {
    if i == |info.params| then Success([])
    else if i >= |values| then
      if i < info.RequiredCount() then Failure(MissingParameter) else Success([])
    else
      var p := info.params[i].property;
      if coerced[i].None? then Failure(BadValue(values[i], p.name, i, TypeName(p.valueType), info.commandType))
      else
        var rest := AssignFrom(info, values, coerced, i + 1);
        if rest.Failure? then rest
        else Success([Assignment(p.name, coerced[i].value)] + rest.value)
  }

  /** A successful loop assigns, in order, every parameter that has a
      capture, each to its capture's coerced value. */
  lemma {:induction false} AssignFromSuccess(info: CommandInfo, values: seq<string>, coerced: seq<Option<Value>>, i: nat)
    requires i <= |info.params| && |coerced| == |values|
    ensures var r := AssignFrom(info, values, coerced, i);
      r.Success? ==>
        && |r.value| == (if |values| <= i then 0 else Min(|values|, |info.params|) - i)
        && forall k :: i <= k < i + |r.value| ==>
             k < |values| && k < |info.params| && coerced[k].Some?
             && r.value[k - i] == Assignment(info.params[k].property.name, coerced[k].value)
    decreases |info.params| - i
  {
    if i < |info.params| && i < |values| && coerced[i].Some? {
      AssignFromSuccess(info, values, coerced, i + 1);
    }
  }

  /** How the loop fails: at the first capture that does not coerce, with
      a message naming it, its property, its index, its type and the
      command; or, once every capture coerced, for a missing required
      parameter only; with enough captures that all coerce it succeeds. */
  lemma {:induction false} AssignFromFailure(info: CommandInfo, values: seq<string>, coerced: seq<Option<Value>>, i: nat)
    requires i <= |info.params| && |coerced| == |values|
    ensures var r := AssignFrom(info, values, coerced, i);
      r.Failure? && r.error.BadValue? ==>
        var k := r.error.index;
        && i <= k < |values| && k < |info.params|
        && coerced[k].None?
        && r.error == BadValue(values[k], info.params[k].property.name, k,
                               TypeName(info.params[k].property.valueType), info.commandType)
        && forall j :: i <= j < k ==> coerced[j].Some?
    ensures var r := AssignFrom(info, values, coerced, i);
      r.Failure? && r.error.MissingParameter? ==>
        forall j :: i <= j < |values| && j < |info.params| ==> coerced[j].Some?
    ensures ((forall j :: i <= j < |values| && j < |info.params| ==> coerced[j].Some?)
             && |values| >= info.RequiredCount()) ==> AssignFrom(info, values, coerced, i).Success?
    decreases |info.params| - i
  {
    if i < |info.params| && i < |values| && coerced[i].Some? {
      AssignFromFailure(info, values, coerced, i + 1);
    }
  }

  function Min(a: int, b: int): int {
    if a <= b then a else b
  }

  /** `Parse_Parameters`: the unable-to-parse error when the line does not
      match the grammar (or a required capture is absent), otherwise the
      assignments of the captured parameters in order. */
  function ParseParameters(info: CommandInfo, line: string, reals: RealParsers)
    : (r: Result<seq<Assignment>, ParseError>)
    ensures r == Failure(UnableToParseLine) <==> !Parse(MatchLine(info.grammar, line), info.RequiredCount(), |info.params|).ok
  {
    AssignMatch(info, MatchLine(info.grammar, line), reals)
  }

  /** The body of `Parse_Parameters` once the line has been matched. */
  function AssignMatch(info: CommandInfo, m: Option<seq<Option<string>>>, reals: RealParsers)
    : (r: Result<seq<Assignment>, ParseError>)
    ensures r == Failure(UnableToParseLine) <==> !Parse(m, info.RequiredCount(), |info.params|).ok
  {
    var c := Parse(m, info.RequiredCount(), info.RequiredCount() + info.optionalCount);
    if !c.ok then Failure(UnableToParseLine)
    else AssignFrom(info, c.params, CoerceAll(info, c.params, reals), 0)
  }

  // ---------------------------------------------------------------------
  // Properties

  /** The missing-parameter branch is dead code: `Parse` already fails when
      a required capture is absent, so once it succeeds there are at least
      `RequiredParamCount` captures, and a successful parse assigns exactly
      the captured parameters, in order, with their coerced values. */
  lemma ParseParametersOutcome(info: CommandInfo, line: string, reals: RealParsers)
    ensures ParseParameters(info, line, reals) != Failure(MissingParameter)
    ensures var c := Parse(MatchLine(info.grammar, line), info.RequiredCount(), |info.params|);
      var r := ParseParameters(info, line, reals);
      r.Success? ==>
        && c.ok
        && |r.value| == |c.params|
        && forall k :: 0 <= k < |r.value| ==>
             && r.value[k].property == info.params[k].property.name
             && Coerce(info.params[k].property.valueType, c.params[k], reals) == Some(r.value[k].value)
  {
    AssignMatchOutcome(info, MatchLine(info.grammar, line), reals);
  }

  lemma AssignMatchOutcome(info: CommandInfo, m: Option<seq<Option<string>>>, reals: RealParsers)
    ensures AssignMatch(info, m, reals) != Failure(MissingParameter)
    ensures var c := Parse(m, info.RequiredCount(), |info.params|);
      var r := AssignMatch(info, m, reals);
      r.Success? ==>
        && c.ok
        && |r.value| == |c.params|
        && forall k :: 0 <= k < |r.value| ==>
             && r.value[k].property == info.params[k].property.name
             && Coerce(info.params[k].property.valueType, c.params[k], reals) == Some(r.value[k].value)
  {
    var c := Parse(m, info.RequiredCount(), |info.params|);
    AssignFromSuccess(info, c.params, CoerceAll(info, c.params, reals), 0);
    if c.ok {
      assert |c.params| <= |info.params|;
      assert |c.params| == |info.params| || |c.params| >= info.RequiredCount();
    }
  }

  /** Strings pass through verbatim; so do quoted captures holding spaces
      or symbols: the line `/w "q"` sets a single required string
      parameter to exactly `q`. */
  lemma QuotedStringParameter(info: CommandInfo, w: string, q: string, reals: RealParsers)
    requires info.grammar == Grammar(false, [Word(false)]) && info.optionalCount == 0
    requires |info.params| == 1 && info.params[0].property.valueType == StringType
    requires |w| > 0 && forall i :: 0 <= i < |w| ==> IsWordChar(w[i])
    requires forall i :: 0 <= i < |q| ==> q[i] != '"' && q[i] != '\n'
    ensures ParseParameters(info, "/" + w + " \"" + q + "\"", reals)
            == Success([Assignment(info.params[0].property.name, StringValue(q))])
  {
    QuotedCapture(w, q);
    SingleStringParameter(info, "/" + w + " \"" + q + "\"", q, reals);
  }

  lemma SingleStringParameter(info: CommandInfo, line: string, q: string, reals: RealParsers)
    requires info.optionalCount == 0
    requires |info.params| == 1 && info.params[0].property.valueType == StringType
    requires MatchLine(info.grammar, line) == Some([Some(q)])
    ensures ParseParameters(info, line, reals) == Success([Assignment(info.params[0].property.name, StringValue(q))])
  {
    assert [Some(q)][1..] == [];
    var c := Parse(Some([Some(q)]), 1, 1);
    assert c == Captures(true, [q]);
    assert AssignFrom(info, [q], CoerceAll(info, [q], reals), 1) == Success([]);
    assert CoerceAll(info, [q], reals)[0] == Some(StringValue(q));
    var a := Assignment(info.params[0].property.name, StringValue(q));
    assert [a] + [] == [a];
    assert AssignFrom(info, [q], CoerceAll(info, [q], reals), 0) == Success([a]);
    assert info.RequiredCount() + info.optionalCount == 1;
  }

  /** Enum names are matched ignoring case: a member whose name starts with
      a letter or underscore and has no surrounding white space is found by
      its name written in any case, provided no earlier member has the same
      name ignoring case. */
  lemma {:induction false} EnumNameRoundTrip(members: seq<EnumMember>, k: nat, s: string)
    requires k < |members| && EqualsIgnoreCase(s, members[k].name)
    requires |s| > 0 && IsWordChar(s[0]) && !IsDigit(s[0]) && !IsSpaceChar(s[|s| - 1])
    requires forall j :: 0 <= j < k ==> !EqualsIgnoreCase(members[j].name, members[k].name)
    ensures ParseEnum(members, s) == Some(members[k].value)
  {
    TrimKeeps(s);
    assert !LooksNumeric(s);
    FindFirstMember(members, k, s);
  }

  /** `Enum.Parse` reads back every 32-bit integer written in decimal as that
      number, whether or not a member has it. */
  lemma EnumNumberRoundTrip(members: seq<EnumMember>, n: int)
    requires Int32Min <= n <= Int32Max
    ensures ParseEnum(members, IntegerText(n)) == Some(n)
  {
    var s := IntegerText(n);
    DecimalTextEnds(if n < 0 then -n else n);
    assert s[|s| - 1] == DecimalText(if n < 0 then -n else n)[|DecimalText(if n < 0 then -n else n)| - 1];
    TrimKeeps(s);
    assert LooksNumeric(s);
    ParseIntegerRoundTrip(n, Int32Min, Int32Max);
  }

  lemma FindFirstMember(members: seq<EnumMember>, k: nat, s: string)
    requires k < |members| && EqualsIgnoreCase(s, members[k].name)
    requires forall j :: 0 <= j < k ==> !EqualsIgnoreCase(members[j].name, members[k].name)
    ensures FindMember(members, s) == Some(k)
  {
    assert EqualsIgnoreCase(members[k].name, s);
  }

  /** Every in-range integer, written in decimal, coerces back to itself
      for each of the four integer property types. */
  lemma IntegerRoundTrip(t: ValueType, n: int, reals: RealParsers)
    requires t.Int32Type? ==> Int32Min <= n <= Int32Max
    requires t.UInt32Type? ==> 0 <= n <= UInt32Max
    requires t.Int64Type? ==> Int64Min <= n <= Int64Max
    requires t.UInt64Type? ==> 0 <= n <= UInt64Max
    requires t.Int32Type? || t.UInt32Type? || t.Int64Type? || t.UInt64Type?
    ensures Coerce(t, IntegerText(n), reals) == Some(IntValue(n))
  {
    match t
    case Int32Type => ParseIntegerRoundTrip(n, Int32Min, Int32Max);
    case UInt32Type => ParseIntegerRoundTrip(n, 0, UInt32Max);
    case Int64Type => ParseIntegerRoundTrip(n, Int64Min, Int64Max);
    case UInt64Type => ParseIntegerRoundTrip(n, 0, UInt64Max);
  }

  /** `Boolean.Parse` reads back `ToString()` of both values, in any case. */
  lemma BooleanRoundTrip(b: bool, s: string, reals: RealParsers)
    requires EqualsIgnoreCase(s, if b then "True" else "False")
    ensures Coerce(BooleanType, s, reals) == Some(BoolValue(b))
  {
    assert |s| == (if b then 4 else 5);
    assert !IsSpaceOrNull(s[0]) by {
      assert ToUpperChar(s[0]) == (if b then 'T' else 'F');
    }
    assert !IsSpaceOrNull(s[|s| - 1]) by {
      assert ToUpperChar(s[|s| - 1]) == 'E';
    }
    assert TrimStart(s, IsSpaceOrNull) == s;
    assert Trim(s, IsSpaceOrNull) == s;
    if !b {
      assert !EqualsIgnoreCase(s, "True");
    }
  }
}

=== FILE: escapes.dfy ===
/** The escape substitution both resource managers apply to text values:
    the two-character sequences backslash-n, backslash-r and backslash-t
    become newline, carriage return and tab, by three `String.Replace`
    passes in that order. */
module Escapes {

  const Backslash: char := '\\'

  /** `s.Replace("\\" + c, x)`: a left-to-right scan replacing each
      non-overlapping backslash-`c` pair with `x`. */
  function ReplacePair(s: string, c: char, x: char): string
    decreases |s|
  {
    if |s| < 2 then s
    else if s[0] == Backslash && s[1] == c then [x] + ReplacePair(s[2..], c, x)
    else [s[0]] + ReplacePair(s[1..], c, x)
  }

  /** The three passes of the resource loaders. */
  function Unescape(s: string): string {
    ReplacePair(ReplacePair(ReplacePair(s, 'n', '\n'), 'r', '\r'), 't', '\t')
  }

  /** No backslash in `s` is directly followed by `c`. */
  predicate NoPair(s: string, c: char)
    decreases |s|
  {
    |s| < 2 || (!(s[0] == Backslash && s[1] == c) && NoPair(s[1..], c))
  }

  /** The writer's side: each `x` becomes backslash-`c`. */
  function EscapeChar(s: string, x: char, c: char): (r: string)
    ensures |r| >= |s|
    ensures s != [] ==> r != []
    decreases |s|
  {
    if s == [] then []
    else if s[0] == x then [Backslash, c] + EscapeChar(s[1..], x, c)
    else [s[0]] + EscapeChar(s[1..], x, c)
  }

  /** Newline, carriage return and tab written as their escapes. */
  function Escape(s: string): string {
    EscapeChar(EscapeChar(EscapeChar(s, '\t', 't'), '\r', 'r'), '\n', 'n')
  }

  /** A pass changes nothing in text without a backslash. */
  lemma {:induction false} ReplacePairNoBackslash(s: string, c: char, x: char)
    requires Backslash !in s
    ensures ReplacePair(s, c, x) == s
    decreases |s|
  {
    if |s| >= 2 {
      assert s[0] != Backslash;
      assert Backslash !in s[1..];
      ReplacePairNoBackslash(s[1..], c, x);
      assert s == [s[0]] + s[1..];
    }
  }

  /** After a pass no backslash-`c` pair is left, as long as the
      replacement is not `c` itself. */
  lemma {:induction false} ReplacePairRemovesPairs(s: string, c: char, x: char)
    requires x != c && x != Backslash
    ensures NoPair(ReplacePair(s, c, x), c)
    decreases |s|
  {
    if |s| >= 2 {
      if s[0] == Backslash && s[1] == c {
        ReplacePairRemovesPairs(s[2..], c, x);
        var t := ReplacePair(s[2..], c, x);
        assert ([x] + t)[1..] == t;
        assert NoPair([x] + t, c);
      } else {
        ReplacePairRemovesPairs(s[1..], c, x);
        var t := ReplacePair(s[1..], c, x);
        assert ([s[0]] + t)[1..] == t;
        if |t| >= 1 && s[0] == Backslash {
          ReplacePairHead(s[1..], c, x);
        }
      }
    }
  }

  /** The first character of a pass's result: the replacement when the
      text opens with a pair, else the text's first character. */
  lemma ReplacePairHead(s: string, c: char, x: char)
    requires s != []
    ensures ReplacePair(s, c, x) != []
    ensures ReplacePair(s, c, x)[0] == (if |s| >= 2 && s[0] == Backslash && s[1] == c then x else s[0])
  {
  }

  /** Escaping keeps a text free of backslash-`d` pairs when the escapes
      it writes are not backslash-`d`. */
  lemma {:induction false} EscapeKeepsNoPair(y: string, x: char, c: char, d: char)
    requires NoPair(y, d) && c != d && c != Backslash && d != Backslash
    ensures NoPair(EscapeChar(y, x, c), d)
    decreases |y|
  {
    if y != [] {
      var t := y[1..];
      assert NoPair(t, d);
      EscapeKeepsNoPair(t, x, c, d);
      var e := EscapeChar(t, x, c);
      if y[0] == x {
        var r := [Backslash, c] + e;
        assert r[1..] == [c] + e;
        assert ([c] + e)[1..] == e;
        assert NoPair([c] + e, d);
      } else {
        var r := [y[0]] + e;
        assert r[1..] == e;
        if e != [] && y[0] == Backslash {
          assert t != [];
          assert e[0] == (if t[0] == x then Backslash else t[0]);
        }
      }
    }
  }

  /** A pass undoes the escaping of `x` as backslash-`c`, provided the text
      had no backslash-`c` pair of its own. */
  lemma {:induction false} ReplacePairUndoesEscape(y: string, x: char, c: char)
    requires NoPair(y, c) && c != Backslash
    ensures ReplacePair(EscapeChar(y, x, c), c, x) == y
    decreases |y|
  {
    if y != [] {
      var t := y[1..];
      assert NoPair(t, c);
      ReplacePairUndoesEscape(t, x, c);
      var e := EscapeChar(t, x, c);
      if y[0] == x {
        assert EscapeChar(y, x, c) == [Backslash, c] + e;
        assert ([Backslash, c] + e)[2..] == e;
      } else {
        assert EscapeChar(y, x, c) == [y[0]] + e;
        assert ([y[0]] + e)[1..] == e;
        if e != [] && y[0] == Backslash {
          assert t != [];
          assert e[0] == (if t[0] == x then Backslash else t[0]);
        }
      }
      assert y == [y[0]] + t;
    }
  }

  lemma {:induction false} NoBackslashNoPair(s: string, c: char)
    requires Backslash !in s
    ensures NoPair(s, c)
    decreases |s|
  {
    if |s| >= 2 {
      assert Backslash !in s[1..];
      NoBackslashNoPair(s[1..], c);
    }
  }

  /** Loading undoes writing: a text without backslashes, with its control
      characters written as escapes, loads back as itself. */
  lemma UnescapeEscape(s: string)
    requires Backslash !in s
    ensures Unescape(Escape(s)) == s
  {
    var y1 := EscapeChar(s, '\t', 't');
    var y2 := EscapeChar(y1, '\r', 'r');
    NoBackslashNoPair(s, 'n');
    NoBackslashNoPair(s, 'r');
    NoBackslashNoPair(s, 't');
    EscapeKeepsNoPair(s, '\t', 't', 'n');
    EscapeKeepsNoPair(y1, '\r', 'r', 'n');
    EscapeKeepsNoPair(s, '\t', 't', 'r');
    ReplacePairUndoesEscape(y2, '\n', 'n');
    ReplacePairUndoesEscape(y1, '\r', 'r');
    ReplacePairUndoesEscape(s, '\t', 't');
  }

  /** Text without backslashes loads unchanged. */
  lemma UnescapePlain(s: string)
    requires Backslash !in s
    ensures Unescape(s) == s
  {
    ReplacePairNoBackslash(s, 'n', '\n');
    ReplacePairNoBackslash(s, 'r', '\r');
    ReplacePairNoBackslash(s, 't', '\t');
  }

  /** A loaded text has no backslash-t pair left: the last pass removes
      them all. */
  lemma UnescapeRemovesTabEscapes(s: string)
    ensures NoPair(Unescape(s), 't')
  {
    ReplacePairRemovesPairs(ReplacePair(ReplacePair(s, 'n', '\n'), 'r', '\r'), 't', '\t');
  }
}

=== FILE: grammar.dfy ===
/** The parameter grammar compiler: `CSlashCommandInfo.Initialize` in both
    copies of the engine (IPCommon/Source/SlashCommand/SlashCommand.cs and
    KolymaCommon/Source/SlashCommand/SlashCommand.cs).

    A command class's properties, in declaration order, become a list of
    clauses (the regular expression the source builds, one clause per
    non-ignored parameter), the parameter list, the optional-parameter count
    and the usage text. */
module SlashGrammar {
  import opened Base
  import opened Localization
  import StringList

  datatype ParamKind = Required | Optional | Ignore

  /** `SlashParamAttribute`: `AllowQuoted` is recorded but the compiler never
      reads it. */
  datatype SlashParam = SlashParam(kind: ParamKind, consumeAll: bool, allowQuoted: bool)

  /** One member of an enum.  An enum's members are always listed in the
      order `Enum.GetNames` and `Enum.GetValues` give them: ascending by the
      value read as an unsigned integer, not declaration order, so a member
      `Invalid = -1` comes last. */
  datatype EnumMember = EnumMember(name: string, value: int)

  /** The property types the parameter coercion distinguishes. */
  datatype ValueType =
    | EnumType(typeName: string, members: seq<EnumMember>)
    | StringType
    | Int32Type
    | UInt32Type
    | SingleType
    | DoubleType
    | Int64Type
    | UInt64Type
    | BooleanType
    | OtherType(typeName: string)

  /** A property of a command class; `attr` is its `SlashParamAttribute`,
      `None` when it has none (the compiler then skips it). */
  datatype Property = Property(name: string, valueType: ValueType, attr: Option<SlashParam>)

  /** One parameter clause of the compiled pattern.
      `RestOfLine` is `(?'paramN'[^\r\n]*)`, with no leading white space;
      `Word(false)` is `(?:\s+(?:(?'paramN'B+)|(?:"(?'paramN'.*?)")))` where
      B is the bareword class; `Word(true)` is the same clause followed by
      `?`.  Every pattern starts with `^/(?'command'\w+)` and has no end
      anchor. */
  datatype Clause = RestOfLine | Word(optional: bool)

  /** `allowSymbols` picks the bareword class: `\w`, or `(?:\w|\p{S}|#)`. */
  datatype Grammar = Grammar(allowSymbols: bool, clauses: seq<Clause>)

  datatype ParamInfo = ParamInfo(property: Property, text: string)

  /** `HelpText` of a command: the looked-up blurb, then "\n\n", then the
      localized usage line built from `usage`; or the no-help message. */
  datatype HelpText = CommandHelp(blurb: string, usage: string) | NoHelpForCommand

  datatype CommandInfo = CommandInfo(
    commandType: string,
    name: string,
    grammar: Grammar,
    params: seq<ParamInfo>,
    optionalCount: nat,
    usage: string,
    help: HelpText)
  {
    /** `RequiredParamCount`. */
    function RequiredCount(): int {
      |params| - optionalCount
    }
  }

  datatype CompileError =
    | ConsumeAllNotLast(commandType: string)
    | RequiredAfterOptional(commandType: string)

  // ---------------------------------------------------------------------
  // Reference definitions

  predicate IsKept(p: Property) {
    p.attr.Some? && p.attr.value.kind != Ignore
  }

  predicate IsOptional(p: Property) {
    p.attr.Some? && p.attr.value.kind == Optional
  }

  predicate IsRequired(p: Property) {
    p.attr.Some? && p.attr.value.kind == Required
  }

  /** The properties that become parameters: attributed and not `Ignore`. */
  function Kept(props: seq<Property>): (r: seq<Property>)
    ensures |r| <= |props|
    ensures forall i :: 0 <= i < |r| ==> IsKept(r[i])
  {
    if props == [] then []
    else (if IsKept(props[0]) then [props[0]] else []) + Kept(props[1..])
  }

  /** Nothing attributed (not even an `Ignore` parameter) follows a kept
      consume-all parameter. */
  ghost predicate ConsumeAllLast(props: seq<Property>) {
    forall i, j :: 0 <= i < j < |props| && IsKept(props[i]) && props[i].attr.value.consumeAll ==> props[j].attr.None?
  }

  /** No Required parameter follows an Optional one. */
  ghost predicate RequiredBeforeOptional(kept: seq<Property>) {
    forall i, j :: 0 <= i < j < |kept| && IsOptional(kept[i]) ==> !IsRequired(kept[j])
  }

  ghost predicate WellFormed(props: seq<Property>) {
    ConsumeAllLast(props) && RequiredBeforeOptional(Kept(props))
  }

  ghost predicate NoAttributed(props: seq<Property>) {
    forall i :: 0 <= i < |props| ==> props[i].attr.None?
  }

  ghost predicate NoRequired(kept: seq<Property>) {
    forall i :: 0 <= i < |kept| ==> !IsRequired(kept[i])
  }

  /** The clause a kept parameter compiles to: a Required consume-all one
      takes the rest of the line; every other Required one is a mandatory
      word; an Optional one is an optional word even when it is flagged
      consume-all. */
  function ClauseOf(p: Property): Clause
    requires IsKept(p)
  {
    if p.attr.value.kind == Required then
      (if p.attr.value.consumeAll then RestOfLine else Word(false))
    else
      Word(true)
  }

  function ClausesOf(kept: seq<Property>): (r: seq<Clause>)
    requires forall i :: 0 <= i < |kept| ==> IsKept(kept[i])
    ensures |r| == |kept|
    ensures forall i :: 0 <= i < |kept| ==> r[i] == ClauseOf(kept[i])
  {
    if kept == [] then [] else [ClauseOf(kept[0])] + ClausesOf(kept[1..])
  }

  function ParamsOf(kept: seq<Property>, labelOf: string -> string): (r: seq<ParamInfo>)
    ensures |r| == |kept|
    ensures forall i :: 0 <= i < |kept| ==> r[i] == ParamInfo(kept[i], labelOf(kept[i].name))
  {
    if kept == [] then [] else [ParamInfo(kept[0], labelOf(kept[0].name))] + ParamsOf(kept[1..], labelOf)
  }

  function CountOptional(kept: seq<Property>): nat {
    if kept == [] then 0 else (if IsOptional(kept[0]) then 1 else 0) + CountOptional(kept[1..])
  }

  function EnumNames(members: seq<EnumMember>): seq<string> {
    seq(|members|, i requires 0 <= i < |members| => members[i].name)
  }

  /** The usage text of one parameter: " [", its label, the optional marker
      when Optional, " ( v1, v2 )" listing an enum's values, then "]". */
  function UsagePiece(p: Property, labelOf: string -> string, optionalMarker: string): string
    requires IsKept(p)
  {
    var marker := if IsOptional(p) then optionalMarker else "";
    var values := match p.valueType
      case EnumType(_, members) => " ( " + StringList.Join(EnumNames(members)) + " )"
      case _ => "";
    " [" + labelOf(p.name) + marker + values + "]"
  }

  function UsageOf(kept: seq<Property>, labelOf: string -> string, optionalMarker: string): string
    requires forall i :: 0 <= i < |kept| ==> IsKept(kept[i])
  {
    if kept == [] then "" else UsagePiece(kept[0], labelOf, optionalMarker) + UsageOf(kept[1..], labelOf, optionalMarker)
  }

  /** The shape every compiled grammar has: the optional words come last,
      after every mandatory clause, and a rest-of-line clause can only be
      the final one. */
  ghost predicate GrammarShape(clauses: seq<Clause>, optionalCount: nat) {
    && optionalCount <= |clauses|
    && (forall i :: 0 <= i < |clauses| ==> (clauses[i] == Word(true) <==> i >= |clauses| - optionalCount))
    && (forall i :: 0 <= i < |clauses| && clauses[i] == RestOfLine ==> i == |clauses| - 1)
  }

  // ---------------------------------------------------------------------
  // The compiler loop

  /** The loop state of `Initialize`: the consume-remaining flag, the
      optional count and what the two string builders and `m_Params` hold. */
  datatype State = State(consumed: bool, optionalCount: nat, clauses: seq<Clause>, params: seq<ParamInfo>, usage: string)

  /** One iteration per property, in declaration order, with the source's
      checks in the source's order: the consume-remaining check comes before
      the `Ignore` skip, the Required-after-Optional check after it. */
  function CompileFrom(commandType: string, props: seq<Property>, st: State,
                       labelOf: string -> string, optionalMarker: string): Result<State, CompileError>
    decreases |props|
  {
    if props == [] then Success(st)
    else
      var p := props[0];
      if p.attr.None? then CompileFrom(commandType, props[1..], st, labelOf, optionalMarker)
      else if st.consumed then Failure(ConsumeAllNotLast(commandType))
      else if p.attr.value.kind == Ignore then CompileFrom(commandType, props[1..], st, labelOf, optionalMarker)
      else if p.attr.value.kind == Required && st.optionalCount > 0 then Failure(RequiredAfterOptional(commandType))
      else
        var st' := State(
          p.attr.value.consumeAll,
          st.optionalCount + (if p.attr.value.kind == Optional then 1 else 0),
          st.clauses + [ClauseOf(p)],
          st.params + [ParamInfo(p, labelOf(p.name))],
          st.usage + UsagePiece(p, labelOf, optionalMarker));
        CompileFrom(commandType, props[1..], st', labelOf, optionalMarker)
  }

  lemma KeptCons(props: seq<Property>)
    requires props != []
    ensures Kept(props) == (if IsKept(props[0]) then [props[0]] else []) + Kept(props[1..])
  {
  }

  lemma ConsumeAllLastTail(props: seq<Property>)
    requires props != []
    ensures ConsumeAllLast(props) <==>
      (ConsumeAllLast(props[1..]) && (IsKept(props[0]) && props[0].attr.value.consumeAll ==> NoAttributed(props[1..])))
  {
    var rest := props[1..];
    if ConsumeAllLast(props) {
      forall i, j | 0 <= i < j < |rest| && IsKept(rest[i]) && rest[i].attr.value.consumeAll
        ensures rest[j].attr.None?
      {
        assert props[i + 1] == rest[i] && props[j + 1] == rest[j];
      }
      if IsKept(props[0]) && props[0].attr.value.consumeAll {
        forall j | 0 <= j < |rest| ensures rest[j].attr.None? {
          assert props[j + 1] == rest[j];
        }
      }
    }
    if ConsumeAllLast(rest) && (IsKept(props[0]) && props[0].attr.value.consumeAll ==> NoAttributed(rest)) {
      forall i, j | 0 <= i < j < |props| && IsKept(props[i]) && props[i].attr.value.consumeAll
        ensures props[j].attr.None?
      {
        assert props[j] == rest[j - 1];
        if i > 0 {
          assert props[i] == rest[i - 1];
        }
      }
    }
  }

  lemma RequiredBeforeOptionalCons(p: Property, kept: seq<Property>)
    ensures RequiredBeforeOptional([p] + kept) <==>
      (RequiredBeforeOptional(kept) && (IsOptional(p) ==> NoRequired(kept)))
  {
    var all := [p] + kept;
    if RequiredBeforeOptional(all) {
      forall i, j | 0 <= i < j < |kept| && IsOptional(kept[i]) ensures !IsRequired(kept[j]) {
        assert all[i + 1] == kept[i] && all[j + 1] == kept[j];
      }
      if IsOptional(p) {
        forall j | 0 <= j < |kept| ensures !IsRequired(kept[j]) {
          assert all[0] == p;
          assert all[j + 1] == kept[j];
        }
      }
    }
    if RequiredBeforeOptional(kept) && (IsOptional(p) ==> NoRequired(kept)) {
      forall i, j | 0 <= i < j < |all| && IsOptional(all[i]) ensures !IsRequired(all[j]) {
        assert all[j] == kept[j - 1];
        if i > 0 {
          assert all[i] == kept[i - 1];
        }
      }
    }
  }

  lemma NoRequiredCons(p: Property, kept: seq<Property>)
    ensures NoRequired([p] + kept) <==> !IsRequired(p) && NoRequired(kept)
  {
    var all := [p] + kept;
    if !IsRequired(p) && NoRequired(kept) {
      forall j | 0 <= j < |all| ensures !IsRequired(all[j]) {
        if j > 0 {
          assert all[j] == kept[j - 1];
        }
      }
    }
    if NoRequired(all) {
      assert all[0] == p;
      forall j | 0 <= j < |kept| ensures !IsRequired(kept[j]) {
        assert all[j + 1] == kept[j];
      }
    }
  }

  /** What the loop computes from a given state: it fails exactly when the
      remaining properties break an ordering rule (given what the state has
      already seen), and otherwise appends one clause, one parameter and one
      usage piece per kept property. */
  lemma {:induction false} CompileFromSpec(commandType: string, props: seq<Property>, st: State,
                                           labelOf: string -> string, optionalMarker: string)
    ensures var r := CompileFrom(commandType, props, st, labelOf, optionalMarker);
      && (r.Success? <==>
            && ConsumeAllLast(props)
            && RequiredBeforeOptional(Kept(props))
            && (st.consumed ==> NoAttributed(props))
            && (st.optionalCount > 0 ==> NoRequired(Kept(props))))
      && (r.Success? ==>
            && r.value.clauses == st.clauses + ClausesOf(Kept(props))
            && r.value.params == st.params + ParamsOf(Kept(props), labelOf)
            && r.value.optionalCount == st.optionalCount + CountOptional(Kept(props))
            && r.value.usage == st.usage + UsageOf(Kept(props), labelOf, optionalMarker))
      && (r.Failure? ==> r.error.commandType == commandType)
    decreases |props|, 1
  {
    var r := CompileFrom(commandType, props, st, labelOf, optionalMarker);
    if props == [] {
      assert st.clauses + [] == st.clauses;
      assert st.params + [] == st.params;
      assert st.usage + "" == st.usage;
    } else {
      var p := props[0];
      var rest := props[1..];
      KeptCons(props);
      ConsumeAllLastTail(props);
      if p.attr.None? {
        CompileSkipSpec(commandType, props, st, labelOf, optionalMarker);
      } else if st.consumed {
        assert !NoAttributed(props);
      } else if p.attr.value.kind == Ignore {
        CompileFromSpec(commandType, rest, st, labelOf, optionalMarker);
        assert Kept(props) == Kept(rest);
      } else if p.attr.value.kind == Required && st.optionalCount > 0 {
        assert Kept(props) == [p] + Kept(rest);
        assert Kept(props)[0] == p;
        assert !NoRequired(Kept(props));
      } else {
        CompileStepSpec(commandType, props, st, labelOf, optionalMarker);
      }
    }
  }

  /** A property without the attribute is skipped. */
  lemma {:induction false} CompileSkipSpec(commandType: string, props: seq<Property>, st: State,
                                           labelOf: string -> string, optionalMarker: string)
    requires props != [] && props[0].attr.None?
    ensures var r := CompileFrom(commandType, props, st, labelOf, optionalMarker);
      && (r.Success? <==>
            && ConsumeAllLast(props)
            && RequiredBeforeOptional(Kept(props))
            && (st.consumed ==> NoAttributed(props))
            && (st.optionalCount > 0 ==> NoRequired(Kept(props))))
      && (r.Success? ==>
            && r.value.clauses == st.clauses + ClausesOf(Kept(props))
            && r.value.params == st.params + ParamsOf(Kept(props), labelOf)
            && r.value.optionalCount == st.optionalCount + CountOptional(Kept(props))
            && r.value.usage == st.usage + UsageOf(Kept(props), labelOf, optionalMarker))
      && (r.Failure? ==> r.error.commandType == commandType)
    decreases |props|, 0
  {
    var rest := props[1..];
    KeptCons(props);
    ConsumeAllLastTail(props);
    assert CompileFrom(commandType, props, st, labelOf, optionalMarker)
        == CompileFrom(commandType, rest, st, labelOf, optionalMarker);
    CompileFromSpec(commandType, rest, st, labelOf, optionalMarker);
    assert Kept(props) == Kept(rest);
    NoAttributedSkip(props);
  }

  lemma NoAttributedSkip(props: seq<Property>)
    requires props != [] && props[0].attr.None?
    ensures NoAttributed(props) <==> NoAttributed(props[1..])
  {
    if NoAttributed(props[1..]) {
      forall j | 0 <= j < |props| ensures props[j].attr.None? {
        if j > 0 { assert props[j] == props[1..][j - 1]; }
      }
    }
  }

  lemma {:induction false} CompileStepSpec(commandType: string, props: seq<Property>, st: State,
                                           labelOf: string -> string, optionalMarker: string)
    requires props != [] && IsKept(props[0]) && !st.consumed
    requires !(props[0].attr.value.kind == Required && st.optionalCount > 0)
    ensures var r := CompileFrom(commandType, props, st, labelOf, optionalMarker);
      && (r.Success? <==>
            && ConsumeAllLast(props)
            && RequiredBeforeOptional(Kept(props))
            && (st.consumed ==> NoAttributed(props))
            && (st.optionalCount > 0 ==> NoRequired(Kept(props))))
      && (r.Success? ==>
            && r.value.clauses == st.clauses + ClausesOf(Kept(props))
            && r.value.params == st.params + ParamsOf(Kept(props), labelOf)
            && r.value.optionalCount == st.optionalCount + CountOptional(Kept(props))
            && r.value.usage == st.usage + UsageOf(Kept(props), labelOf, optionalMarker))
      && (r.Failure? ==> r.error.commandType == commandType)
    decreases |props|, 0
  {
    var p := props[0];
    var rest := props[1..];
    var st' := State(
      p.attr.value.consumeAll,
      st.optionalCount + (if p.attr.value.kind == Optional then 1 else 0),
      st.clauses + [ClauseOf(p)],
      st.params + [ParamInfo(p, labelOf(p.name))],
      st.usage + UsagePiece(p, labelOf, optionalMarker));
    assert CompileFrom(commandType, props, st, labelOf, optionalMarker)
        == CompileFrom(commandType, rest, st', labelOf, optionalMarker);
    CompileFromSpec(commandType, rest, st', labelOf, optionalMarker);
    StepConditions(props, st, st');
    StepValues(props, st, st', labelOf, optionalMarker);
  }

  lemma StepConditions(props: seq<Property>, st: State, st': State)
    requires props != [] && IsKept(props[0]) && !st.consumed
    requires !(props[0].attr.value.kind == Required && st.optionalCount > 0)
    requires st'.consumed == props[0].attr.value.consumeAll
    requires st'.optionalCount == st.optionalCount + (if props[0].attr.value.kind == Optional then 1 else 0)
    ensures (&& ConsumeAllLast(props)
             && RequiredBeforeOptional(Kept(props))
             && (st.optionalCount > 0 ==> NoRequired(Kept(props))))
        <==> (&& ConsumeAllLast(props[1..])
              && RequiredBeforeOptional(Kept(props[1..]))
              && (st'.consumed ==> NoAttributed(props[1..]))
              && (st'.optionalCount > 0 ==> NoRequired(Kept(props[1..]))))
  {
    var p := props[0];
    var rest := props[1..];
    KeptCons(props);
    ConsumeAllLastTail(props);
    RequiredBeforeOptionalCons(p, Kept(rest));
    NoRequiredCons(p, Kept(rest));
  }

  lemma StepValues(props: seq<Property>, st: State, st': State, labelOf: string -> string, optionalMarker: string)
    requires props != [] && IsKept(props[0])
    requires st'.clauses == st.clauses + [ClauseOf(props[0])]
    requires st'.params == st.params + [ParamInfo(props[0], labelOf(props[0].name))]
    requires st'.optionalCount == st.optionalCount + (if props[0].attr.value.kind == Optional then 1 else 0)
    requires st'.usage == st.usage + UsagePiece(props[0], labelOf, optionalMarker)
    ensures st'.clauses + ClausesOf(Kept(props[1..])) == st.clauses + ClausesOf(Kept(props))
    ensures st'.params + ParamsOf(Kept(props[1..]), labelOf) == st.params + ParamsOf(Kept(props), labelOf)
    ensures st'.optionalCount + CountOptional(Kept(props[1..])) == st.optionalCount + CountOptional(Kept(props))
    ensures st'.usage + UsageOf(Kept(props[1..]), labelOf, optionalMarker) == st.usage + UsageOf(Kept(props), labelOf, optionalMarker)
  {
    var p := props[0];
    var rest := Kept(props[1..]);
    KeptCons(props);
    assert Kept(props) == [p] + rest;
    ClausesCons(p, rest);
    ParamsCons(p, rest, labelOf);
    UsageCons(p, rest, labelOf, optionalMarker);
    CountCons(p, rest);
    Assoc(st.clauses, [ClauseOf(p)], ClausesOf(rest));
    Assoc(st.params, [ParamInfo(p, labelOf(p.name))], ParamsOf(rest, labelOf));
    Assoc(st.usage, UsagePiece(p, labelOf, optionalMarker), UsageOf(rest, labelOf, optionalMarker));
  }

  lemma Assoc<T>(a: seq<T>, b: seq<T>, c: seq<T>)
    ensures a + b + c == a + (b + c)
  {
  }

  lemma ClausesCons(p: Property, kept: seq<Property>)
    requires IsKept(p) && forall i :: 0 <= i < |kept| ==> IsKept(kept[i])
    ensures ClausesOf([p] + kept) == [ClauseOf(p)] + ClausesOf(kept)
  {
    assert ([p] + kept)[1..] == kept;
  }

  lemma ParamsCons(p: Property, kept: seq<Property>, labelOf: string -> string)
    ensures ParamsOf([p] + kept, labelOf) == [ParamInfo(p, labelOf(p.name))] + ParamsOf(kept, labelOf)
  {
    assert ([p] + kept)[1..] == kept;
  }

  lemma UsageCons(p: Property, kept: seq<Property>, labelOf: string -> string, optionalMarker: string)
    requires IsKept(p) && forall i :: 0 <= i < |kept| ==> IsKept(kept[i])
    ensures UsageOf([p] + kept, labelOf, optionalMarker) == UsagePiece(p, labelOf, optionalMarker) + UsageOf(kept, labelOf, optionalMarker)
  {
    assert ([p] + kept)[1..] == kept;
  }

  lemma CountCons(p: Property, kept: seq<Property>)
    ensures CountOptional([p] + kept) == (if IsOptional(p) then 1 else 0) + CountOptional(kept)
  {
    assert ([p] + kept)[1..] == kept;
  }

  /** Counting and ordering facts about a well-ordered parameter list: the
      Optional parameters are exactly the last `CountOptional` ones. */
  lemma {:induction false} OptionalSuffix(kept: seq<Property>)
    requires forall i :: 0 <= i < |kept| ==> IsKept(kept[i])
    requires RequiredBeforeOptional(kept)
    ensures CountOptional(kept) <= |kept|
    ensures forall i :: 0 <= i < |kept| ==> (IsOptional(kept[i]) <==> i >= |kept| - CountOptional(kept))
  {
    if kept != [] {
      var rest := kept[1..];
      RequiredBeforeOptionalCons(kept[0], rest);
      assert [kept[0]] + rest == kept;
      OptionalSuffix(rest);
      if IsOptional(kept[0]) {
        // every later parameter is Optional too
        forall j | 0 <= j < |rest| ensures IsOptional(rest[j]) {
          assert IsKept(kept[j + 1]);
        }
        AllOptionalCount(rest);
      }
      forall i | 0 < i < |kept|
        ensures IsOptional(kept[i]) <==> i >= |kept| - CountOptional(kept)
      {
        assert kept[i] == rest[i - 1];
      }
    }
  }

  lemma {:induction false} AllOptionalCount(kept: seq<Property>)
    requires forall i :: 0 <= i < |kept| ==> IsOptional(kept[i])
    ensures CountOptional(kept) == |kept|
  {
    if kept != [] {
      AllOptionalCount(kept[1..]);
    }
  }

  /** A consume-all parameter that is kept is the last kept parameter. */
  lemma {:induction false} KeptConsumeAllIsLast(props: seq<Property>)
    requires ConsumeAllLast(props)
    ensures forall i :: 0 <= i < |Kept(props)| && Kept(props)[i].attr.value.consumeAll ==> i == |Kept(props)| - 1
  {
    if props != [] {
      var rest := props[1..];
      KeptCons(props);
      ConsumeAllLastTail(props);
      KeptConsumeAllIsLast(rest);
      if IsKept(props[0]) && props[0].attr.value.consumeAll {
        NoAttributedKeepsNothing(rest);
      }
      var kept := Kept(props);
      forall i | 0 <= i < |kept| && kept[i].attr.value.consumeAll ensures i == |kept| - 1 {
        if IsKept(props[0]) && i > 0 {
          assert kept[i] == Kept(rest)[i - 1];
        }
      }
    }
  }

  lemma {:induction false} NoAttributedKeepsNothing(props: seq<Property>)
    requires NoAttributed(props)
    ensures Kept(props) == []
  {
    if props != [] {
      assert props[0].attr.None?;
      NoAttributedKeepsNothing(props[1..]);
    }
  }

  // ---------------------------------------------------------------------
  // The compiler

  /** The labelOf of a parameter in the usage text.  IPCommon looks up
      "Command_<suffix>_Param_<property>" and falls back to the
      undocumented-parameter text when it is null; Kolyma falls back only
      when that key is not a text id (a known id whose text is missing
      contributes nothing). */
  function ParamLabel(v: Variant, loc: Localizer, textIdSuffix: string, propertyName: string): string {
    var key := CommandKey(v, "Command_" + textIdSuffix + "_Param_" + propertyName);
    var undocumented := Message(loc, CommonKey(v, "Undocumented_Parameter"));
    match v
    case IpCommon => loc.text(key).GetOr(undocumented)
    case Kolyma(_) => if loc.known(key) then loc.text(key).GetOr("") else undocumented
  }

  /** The help text stored for a command: the looked-up blurb (null reads
      as "") with the usage line, which is formatted with `String.Format`
      and so throws when the "Help_Usage_Command" text is missing; Kolyma
      also throws when "<prefix>_Help_Command_<suffix>" is not a text id.
      Either throw is caught and the no-help message stored instead, so
      initialisation succeeds regardless. */
  function CommandHelpText(v: Variant, loc: Localizer, textIdSuffix: string, usage: string): (h: HelpText)
    ensures h.NoHelpForCommand? <==>
      || (v.Kolyma? && !loc.known(CommandKey(v, "Help_Command_" + textIdSuffix)))
      || loc.text(CommonKey(v, "Help_Usage_Command")).None?
    ensures h.CommandHelp? ==> h.usage == usage && h.blurb == loc.text(CommandKey(v, "Help_Command_" + textIdSuffix)).GetOr("")
  {
    var key := CommandKey(v, "Help_Command_" + textIdSuffix);
    if v.Kolyma? && !loc.known(key) then NoHelpForCommand
    else if loc.text(CommonKey(v, "Help_Usage_Command")).None? then NoHelpForCommand
    else CommandHelp(Message(loc, key), usage)
  }

  /** `CSlashCommandInfo.Initialize(command_type, command_name, suffix)`. */
  function Compile(v: Variant, loc: Localizer, commandType: string, name: string, textIdSuffix: string,
                   allowSymbols: bool, props: seq<Property>): (r: Result<CommandInfo, CompileError>)
    ensures r.Success? <==> WellFormed(props)
    ensures r.Failure? ==> r.error.commandType == commandType
    ensures r.Success? ==>
      var kept := Kept(props);
      && r.value.commandType == commandType
      && r.value.name == name
      && r.value.grammar == Grammar(allowSymbols, ClausesOf(kept))
      && r.value.params == ParamsOf(kept, (n: string) => ParamLabel(v, loc, textIdSuffix, n))
      && r.value.optionalCount == CountOptional(kept)
      && r.value.usage == name + UsageOf(kept, (n: string) => ParamLabel(v, loc, textIdSuffix, n),
                                         Message(loc, CommonKey(v, "Help_Optional")))
      && r.value.help == CommandHelpText(v, loc, textIdSuffix, r.value.usage)
  {
    var labelOf := (n: string) => ParamLabel(v, loc, textIdSuffix, n);
    var marker := Message(loc, CommonKey(v, "Help_Optional"));
    var st0 := State(false, 0, [], [], name);
    CompileFromSpec(commandType, props, st0, labelOf, marker);
    match CompileFrom(commandType, props, st0, labelOf, marker)
    case Failure(e) => Failure(e)
    case Success(st) =>
      Success(CommandInfo(commandType, name, Grammar(allowSymbols, st.clauses), st.params,
                          st.optionalCount, st.usage, CommandHelpText(v, loc, textIdSuffix, st.usage)))
  }

  /** When the help texts exist, a compiled command's help quotes its
      usage line, which starts with the command's name and lists one
      bracketed piece per kept parameter; otherwise it is the no-help
      message. */
  lemma CompiledHelpShowsUsage(v: Variant, loc: Localizer, commandType: string, name: string, textIdSuffix: string,
                               allowSymbols: bool, props: seq<Property>)
    requires Compile(v, loc, commandType, name, textIdSuffix, allowSymbols, props).Success?
    ensures var info := Compile(v, loc, commandType, name, textIdSuffix, allowSymbols, props).value;
      && (info.help.CommandHelp? <==>
            && (v.IpCommon? || loc.known(CommandKey(v, "Help_Command_" + textIdSuffix)))
            && loc.text(CommonKey(v, "Help_Usage_Command")).Some?)
      && (info.help.CommandHelp? ==> info.help.usage == info.usage)
      && |name| <= |info.usage| && info.usage[..|name|] == name
  {
  }

  /** Every compiled command has the well-ordered grammar shape, and
      `RequiredParamCount` is the number of Required parameters. */
  lemma CompiledShape(v: Variant, loc: Localizer, commandType: string, name: string, textIdSuffix: string,
                      allowSymbols: bool, props: seq<Property>)
    requires Compile(v, loc, commandType, name, textIdSuffix, allowSymbols, props).Success?
    ensures var info := Compile(v, loc, commandType, name, textIdSuffix, allowSymbols, props).value;
      && |info.grammar.clauses| == |info.params|
      && GrammarShape(info.grammar.clauses, info.optionalCount)
      && info.RequiredCount() == |Kept(props)| - CountOptional(Kept(props)) >= 0
      && (forall i :: 0 <= i < |info.params| ==> (IsRequired(info.params[i].property) <==> i < info.RequiredCount()))
  {
    var kept := Kept(props);
    OptionalSuffix(kept);
    KeptConsumeAllIsLast(props);
    var clauses := ClausesOf(kept);
    forall i | 0 <= i < |clauses| && clauses[i] == RestOfLine ensures i == |clauses| - 1 {
      assert kept[i].attr.value.consumeAll;
    }
  }

  /** An Ignore parameter contributes nothing: no clause, no parameter entry,
      no usage text and no capture-group number. */
  lemma IgnoreContributesNothing(v: Variant, loc: Localizer, commandType: string, name: string, textIdSuffix: string,
                                 allowSymbols: bool, before: seq<Property>, ignored: Property, after: seq<Property>)
    requires ignored.attr.Some? && ignored.attr.value.kind == Ignore
    requires Compile(v, loc, commandType, name, textIdSuffix, allowSymbols, before + after).Success?
    requires ConsumeAllLast(before + [ignored] + after)
    ensures Compile(v, loc, commandType, name, textIdSuffix, allowSymbols, before + [ignored] + after)
         == Compile(v, loc, commandType, name, textIdSuffix, allowSymbols, before + after)
  {
    KeptSkipsIgnored(before, ignored, after);
    assert WellFormed(before + [ignored] + after);
  }

  lemma KeptSkipsIgnored(before: seq<Property>, ignored: Property, after: seq<Property>)
    requires ignored.attr.Some? && ignored.attr.value.kind == Ignore
    ensures Kept(before + [ignored] + after) == Kept(before + after)
  {
    KeptAppend(before, [ignored] + after);
    KeptAppend(before, after);
    assert before + [ignored] + after == before + ([ignored] + after);
    KeptCons([ignored] + after);
    assert ([ignored] + after)[1..] == after;
  }

  lemma {:induction false} KeptAppend(a: seq<Property>, b: seq<Property>)
    ensures Kept(a + b) == Kept(a) + Kept(b)
  {
    if a != [] {
      KeptAppend(a[1..], b);
      assert (a + b)[1..] == a[1..] + b;
      KeptCons(a + b);
      KeptCons(a);
    } else {
      assert a + b == b;
    }
  }

  /** Both ordering errors: anything attributed after a consume-all
      parameter, even an Ignore one, and a Required parameter after an
      Optional one, make initialisation throw. */
  lemma OrderingErrors(v: Variant, loc: Localizer, commandType: string, name: string, textIdSuffix: string,
                       allowSymbols: bool, props: seq<Property>, i: nat, j: nat)
    requires i < j < |props|
    requires (IsKept(props[i]) && props[i].attr.value.consumeAll && props[j].attr.Some?)
          || (IsOptional(props[i]) && IsRequired(props[j]))
    ensures Compile(v, loc, commandType, name, textIdSuffix, allowSymbols, props).Failure?
  {
    IllOrdered(props, i, j);
  }

  lemma IllOrdered(props: seq<Property>, i: nat, j: nat)
    requires i < j < |props|
    requires (IsKept(props[i]) && props[i].attr.value.consumeAll && props[j].attr.Some?)
          || (IsOptional(props[i]) && IsRequired(props[j]))
    ensures !WellFormed(props)
  {
    if IsOptional(props[i]) && IsRequired(props[j]) && ConsumeAllLast(props) {
      KeptAppend(props[..i], props[i..]);
      KeptAppend(props[i..j], props[j..]);
      assert props == props[..i] + props[i..];
      assert props[i..] == props[i..j] + props[j..];
      KeptCons(props[i..j]);
      KeptCons(props[j..]);
      var k1 := |Kept(props[..i])|;
      var k2 := k1 + |Kept(props[i..j])|;
      assert Kept(props)[k1] == props[i];
      assert Kept(props)[k2] == props[j];
    }
  }
}

=== FILE: handlers.dfy ===
/** `CGenericHandlerManager`: a table from a handleable type to the one
    handler for it, filled either directly (`Register_Handler`) or by
    scanning declarations for tagged methods (`Find_Handlers`), and
    consulted by exact runtime type (`Try_Handle`).

    Types are named by tags; delegates are opaque tags that say where the
    handler came from. */
module GenericHandlers {
  import opened Base

  type TypeTag = string

  /** A handler delegate: one passed to `Register_Handler`, or one bound by
      `Find_Handlers` to a static method, or to an instance method through
      the singleton that the named property (`Instance` or `BaseInstance`)
      returns. */
  datatype Handler =
    | Registered(id: nat)
    | StaticHandler(declaringType: TypeTag, methodName: string)
    | InstanceHandler(declaringType: TypeTag, methodName: string, viaProperty: string)

  datatype HandlerManager = HandlerManager(handlers: map<TypeTag, Handler>)

  const NoHandlers := HandlerManager(map[])

  /** The three `CHandlerException`s. */
  datatype HandlerError =
    | DuplicateHandler(handledType: TypeTag)
    | WrongArity(methodName: string, declaringType: TypeTag)
    | NoSingleton(methodName: string, declaringType: TypeTag, handledType: TypeTag)

  /** `Handler_Exists`. */
  predicate HandlerExists(m: HandlerManager, t: TypeTag) {
    t in m.handlers
  }

  /** `Register_Handler<T>`: a second handler for the same type throws;
      otherwise the table gains exactly the one entry for `T`. */
  function RegisterHandler(m: HandlerManager, t: TypeTag, h: Handler): (r: Result<HandlerManager, HandlerError>)
    ensures r.Failure? <==> HandlerExists(m, t)
    ensures r.Failure? ==> r.error == DuplicateHandler(t)
    ensures r.Success? ==>
      && r.value.handlers.Keys == m.handlers.Keys + {t}
      && |r.value.handlers| == |m.handlers| + 1
      && r.value.handlers[t] == h
      && forall u :: u in m.handlers ==> r.value.handlers[u] == m.handlers[u]
  {
    if HandlerExists(m, t) then Failure(DuplicateHandler(t))
    else Success(m.(handlers := m.handlers[t := h]))
  }

  /** `Try_Handle`: the handler invoked for an object of the given runtime
      type, if any; the object is handled exactly when that type itself is
      registered. */
  function TryHandle(m: HandlerManager, runtimeType: TypeTag): (invoked: Option<Handler>)
    ensures invoked.Some? <==> HandlerExists(m, runtimeType)
    ensures invoked.Some? ==> invoked.value == m.handlers[runtimeType]
  {
    if runtimeType in m.handlers then Some(m.handlers[runtimeType]) else None
  }

  /** A registered handler is the one invoked for its type, and
      registration changes nothing for any other type. */
  lemma RegisterThenHandle(m: HandlerManager, t: TypeTag, h: Handler, u: TypeTag)
    requires RegisterHandler(m, t, h).Success?
    ensures TryHandle(RegisterHandler(m, t, h).value, t) == Some(h)
    ensures u != t ==> TryHandle(RegisterHandler(m, t, h).value, u) == TryHandle(m, u)
  {
  }

  /** Lookup is by exact type: an object of a subclass of a handled type is
      not handled unless the subclass has a handler of its own. */
  lemma SubclassNotHandled(m: HandlerManager, base: TypeTag, sub: TypeTag)
    requires HandlerExists(m, base) && !HandlerExists(m, sub)
    ensures TryHandle(m, sub).None?
  {
  }

  // ---------------------------------------------------------------------
  // Find_Handlers

  /** A method as `Find_Handlers` sees it: whether it carries
      `[GenericHandler]`, its parameter types, and whether it is static. */
  datatype MethodDecl = MethodDecl(name: string, tagged: bool, paramTypes: seq<TypeTag>, isStatic: bool)

  /** A type of the scanned assembly: its methods and whether it has a
      static `Instance` or `BaseInstance` property. */
  datatype TypeDecl = TypeDecl(name: TypeTag, methods: seq<MethodDecl>, hasInstance: bool, hasBaseInstance: bool)

  /** One method of the scan.  `handleable` is `IsSubclassOf(typeof(T))`,
      a strict-subclass test.  Untagged methods are passed over; the arity
      is checked before the parameter type, so a tagged method of the wrong
      arity throws even when it could never be a handler; a parameter type
      that is not a strict subclass is passed over; a second handler for a
      type throws; an instance method needs a singleton property, looked
      up as `Instance` first, then `BaseInstance`. */
  function ScanMethod(m: HandlerManager, ty: TypeDecl, md: MethodDecl, handleable: TypeTag -> bool)
    : (r: Result<HandlerManager, HandlerError>)
  {
    if !md.tagged then Success(m)
    else if |md.paramTypes| != 1 then Failure(WrongArity(md.name, ty.name))
    else
      var p := md.paramTypes[0];
      if !handleable(p) then Success(m)
      else if HandlerExists(m, p) then Failure(DuplicateHandler(p))
      else if md.isStatic then Success(m.(handlers := m.handlers[p := StaticHandler(ty.name, md.name)]))
      else if ty.hasInstance then Success(m.(handlers := m.handlers[p := InstanceHandler(ty.name, md.name, "Instance")]))
      else if ty.hasBaseInstance then Success(m.(handlers := m.handlers[p := InstanceHandler(ty.name, md.name, "BaseInstance")]))
      else Failure(NoSingleton(md.name, ty.name, p))
  }

  /** `m2` keeps every entry of `m1` and adds only handleable types. */
  predicate Extends(m1: HandlerManager, m2: HandlerManager, handleable: TypeTag -> bool) {
    && (forall u :: u in m1.handlers ==> u in m2.handlers && m2.handlers[u] == m1.handlers[u])
    && (forall u :: u in m2.handlers ==> u in m1.handlers || handleable(u))
  }

  /** What one method does to the table: a handler method of a new
      handleable type is added with the right binding, and nothing else
      changes. */
  lemma ScanMethodOutcome(m: HandlerManager, ty: TypeDecl, md: MethodDecl, handleable: TypeTag -> bool)
    ensures var r := ScanMethod(m, ty, md, handleable);
      && (r.Success? ==> Extends(m, r.value, handleable))
      && (r.Success? && md.tagged && |md.paramTypes| == 1 && handleable(md.paramTypes[0]) ==>
            && md.paramTypes[0] !in m.handlers
            && r.value.handlers == m.handlers[md.paramTypes[0] := r.value.handlers[md.paramTypes[0]]])
      && (r.Success? && !(md.tagged && |md.paramTypes| == 1 && handleable(md.paramTypes[0])) ==> r.value == m)
  {
  }

  /** The arity check comes first: a tagged method without exactly one
      parameter throws whatever its parameters are. */
  lemma ArityCheckedFirst(m: HandlerManager, ty: TypeDecl, md: MethodDecl, handleable: TypeTag -> bool)
    requires md.tagged && |md.paramTypes| != 1
    ensures ScanMethod(m, ty, md, handleable) == Failure(WrongArity(md.name, ty.name))
  {
  }

  /** A second tagged handler for an already handled type throws. */
  lemma DuplicateFound(m: HandlerManager, ty: TypeDecl, md: MethodDecl, handleable: TypeTag -> bool)
    requires md.tagged && |md.paramTypes| == 1 && handleable(md.paramTypes[0])
    requires HandlerExists(m, md.paramTypes[0])
    ensures ScanMethod(m, ty, md, handleable) == Failure(DuplicateHandler(md.paramTypes[0]))
  {
  }

  /** An instance handler of a type without `Instance` or `BaseInstance`
      throws. */
  lemma InstanceNeedsSingleton(m: HandlerManager, ty: TypeDecl, md: MethodDecl, handleable: TypeTag -> bool)
    requires md.tagged && |md.paramTypes| == 1 && handleable(md.paramTypes[0])
    requires !HandlerExists(m, md.paramTypes[0]) && !md.isStatic
    requires !ty.hasInstance && !ty.hasBaseInstance
    ensures ScanMethod(m, ty, md, handleable) == Failure(NoSingleton(md.name, ty.name, md.paramTypes[0]))
  {
  }

  /** The methods of one type, in order. */
  function ScanMethods(m: HandlerManager, ty: TypeDecl, i: nat, handleable: TypeTag -> bool)
    : (r: Result<HandlerManager, HandlerError>)
    requires i <= |ty.methods|
    ensures r.Success? ==> Extends(m, r.value, handleable)
    decreases |ty.methods| - i
  {
    if i == |ty.methods| then Success(m)
    else
      ScanMethodOutcome(m, ty, ty.methods[i], handleable);
      var m1 :- ScanMethod(m, ty, ty.methods[i], handleable);
      ScanMethods(m1, ty, i + 1, handleable)
  }

  /** `Find_Handlers<T>`: every method of every type, in order. */
  function FindHandlers(m: HandlerManager, types: seq<TypeDecl>, handleable: TypeTag -> bool)
    : (r: Result<HandlerManager, HandlerError>)
    ensures r.Success? ==> Extends(m, r.value, handleable)
    decreases |types|
  {
    if types == [] then Success(m)
    else
      var m1 :- ScanMethods(m, types[0], 0, handleable);
      FindHandlers(m1, types[1..], handleable)
  }

  /** A tagged one-parameter method whose parameter is a strict subclass
      of `T`. */
  predicate IsHandlerMethod(md: MethodDecl, handleable: TypeTag -> bool) {
    md.tagged && |md.paramTypes| == 1 && handleable(md.paramTypes[0])
  }

  /** After a successful scan of a type's methods from `i`, each of those
      that is a handler method has a handler for its parameter type. */
  lemma {:induction false} ScanMethodsComplete(m: HandlerManager, ty: TypeDecl, i: nat, handleable: TypeTag -> bool)
    requires i <= |ty.methods|
    requires ScanMethods(m, ty, i, handleable).Success?
    ensures forall j :: i <= j < |ty.methods| && IsHandlerMethod(ty.methods[j], handleable) ==>
      ty.methods[j].paramTypes[0] in ScanMethods(m, ty, i, handleable).value.handlers
    decreases |ty.methods| - i
  {
    if i < |ty.methods| {
      var md := ty.methods[i];
      ScanMethodOutcome(m, ty, md, handleable);
      var m1 := ScanMethod(m, ty, md, handleable).value;
      ScanMethodsComplete(m1, ty, i + 1, handleable);
    }
  }

  /** After a successful `Find_Handlers` every handler method of every
      scanned type has a handler for its parameter type, and no
      other type gained one. */
  lemma {:induction false} FindHandlersComplete(m: HandlerManager, types: seq<TypeDecl>, handleable: TypeTag -> bool)
    requires FindHandlers(m, types, handleable).Success?
    ensures forall i, j :: 0 <= i < |types| && 0 <= j < |types[i].methods|
                           && IsHandlerMethod(types[i].methods[j], handleable) ==>
      types[i].methods[j].paramTypes[0] in FindHandlers(m, types, handleable).value.handlers
    decreases |types|
  {
    if types != [] {
      var m1 := ScanMethods(m, types[0], 0, handleable).value;
      ScanMethodsComplete(m, types[0], 0, handleable);
      FindHandlersComplete(m1, types[1..], handleable);
      forall i, j | 0 <= i < |types| && 0 <= j < |types[i].methods| && IsHandlerMethod(types[i].methods[j], handleable)
        ensures types[i].methods[j].paramTypes[0] in FindHandlers(m, types, handleable).value.handlers
      {
        if i > 0 {
          assert types[i] == types[1..][i - 1];
        }
      }
    }
  }
}

=== FILE: heap.dfy ===
/** `THeap<T>`: a binary min-heap in a list whose slot 0 holds a dummy
    element, so that the children of slot `i` are `2i` and `2i + 1` and its
    parent is `i / 2`.  Elements are modelled as integers compared with
    `<`, standing for `CompareTo(...) < 0`. */
module BinaryHeap {
  import opened Base

  /** The list behind the heap; `slots[0]` is the dummy. */
  datatype Heap = Heap(slots: seq<int>)

  datatype HeapError = EmptyHeap

  function ParentIndex(i: nat): nat { i / 2 }
  function LeftIndex(i: nat): nat { i * 2 }
  function RightIndex(i: nat): nat { i * 2 + 1 }

  /** Every element is at least its parent. */
  predicate Ordered(v: seq<int>) {
    forall i :: 2 <= i < |v| ==> v[ParentIndex(i)] <= v[i]
  }

  predicate Valid(h: Heap) {
    |h.slots| >= 1 && Ordered(h.slots)
  }

  function Size(h: Heap): int { |h.slots| - 1 }

  predicate Empty(h: Heap) { |h.slots| <= 1 }

  /** The elements held, without the dummy. */
  function Elements(h: Heap): multiset<int>
    requires |h.slots| >= 1
  {
    multiset(h.slots[1..])
  }

  /** A new heap: the dummy alone (`new T()` is 0 for integers). */
  function NewHeap(): (h: Heap)
    ensures Valid(h) && Empty(h) && Size(h) == 0 && Elements(h) == multiset{}
  {
    Heap([0])
  }

  /** The root is the least element. */
  lemma {:induction false} RootIsLeast(v: seq<int>, i: nat)
    requires Ordered(v) && 1 <= i < |v|
    ensures v[1] <= v[i]
    decreases i
  {
    if i > 1 {
      RootIsLeast(v, ParentIndex(i));
    }
  }

  /** `Peek_Top`: the least element; throws on an empty heap. */
  function PeekTop(h: Heap): (r: Result<int, HeapError>)
    requires Valid(h)
    ensures r.Failure? <==> Empty(h)
    ensures r.Success? ==> r.value in Elements(h) && forall x :: x in Elements(h) ==> r.value <= x
  {
    if Empty(h) then Failure(EmptyHeap)
    else
      assert h.slots[1..][0] == h.slots[1];
      assert forall x :: x in Elements(h) ==> h.slots[1] <= x by {
        forall x | x in Elements(h)
          ensures h.slots[1] <= x
        {
          var j :| 0 <= j < |h.slots[1..]| && h.slots[1..][j] == x;
          RootIsLeast(h.slots, j + 1);
        }
      }
      Success(h.slots[1])
  }

  // ---------------------------------------------------------------------
  // Add: append, then sift up

  /** Ordered except that slot `k` may be smaller than its parent; its
      children are still at least that parent. */
  predicate OrderedExceptUp(v: seq<int>, k: nat) {
    && (forall i :: 2 <= i < |v| && i != k ==> v[ParentIndex(i)] <= v[i])
    && (k >= 2 ==> forall i :: 2 <= i < |v| && ParentIndex(i) == k ==> v[ParentIndex(k)] <= v[i])
  }

  /** The sift-up loop of `Add`, from slot `k`: swap with the parent until
      the parent is smaller or the root is reached. */
  method SiftUp(v: seq<int>, k: nat) returns (w: seq<int>)
    requires 1 <= k < |v| && OrderedExceptUp(v, k)
    ensures |w| == |v| && w[0] == v[0] && Ordered(w)
    ensures multiset(w[1..]) == multiset(v[1..])
  {
    w := v;
    var index := k;
    while true
      invariant 1 <= index < |w| && |w| == |v| && w[0] == v[0]
      invariant multiset(w[1..]) == multiset(v[1..])
      invariant OrderedExceptUp(w, index)
      decreases index
    {
      var parent := ParentIndex(index);
      if parent <= 0 || w[parent] < w[index] {
        break;
      }
      SiftUpStep(w, index);
      w := Swap(w, parent, index);
      index := parent;
    }
  }

  /** Swapping slot `k` with its larger parent moves the violation up to
      the parent. */
  lemma SiftUpStep(v: seq<int>, k: nat)
    requires 2 <= k < |v| && OrderedExceptUp(v, k) && v[k] <= v[ParentIndex(k)]
    ensures OrderedExceptUp(Swap(v, ParentIndex(k), k), ParentIndex(k))
    ensures |Swap(v, ParentIndex(k), k)| == |v| && Swap(v, ParentIndex(k), k)[0] == v[0]
    ensures multiset(Swap(v, ParentIndex(k), k)[1..]) == multiset(v[1..])
  {
    SwapKeepsElements(v, ParentIndex(k), k);
  }

  /** Slots `a` and `b` exchanged. */
  function Swap(v: seq<int>, a: nat, b: nat): seq<int>
    requires a < |v| && b < |v|
  {
    v[a := v[b]][b := v[a]]
  }

  /** Swapping two element slots keeps the dummy and the elements. */
  lemma SwapKeepsElements(v: seq<int>, a: nat, b: nat)
    requires 1 <= a < |v| && 1 <= b < |v|
    ensures |Swap(v, a, b)| == |v| && Swap(v, a, b)[0] == v[0]
    ensures multiset(Swap(v, a, b)[1..]) == multiset(v[1..])
  {
    var t := v[1..];
    assert Swap(v, a, b)[1..] == t[a - 1 := v[b]][b - 1 := v[a]];
  }

  /** `Add`: one more element, and the heap order restored. */
  method Add(h: Heap, x: int) returns (h': Heap)
    requires Valid(h)
    ensures Valid(h') && Size(h') == Size(h) + 1
    ensures Elements(h') == Elements(h) + multiset{x}
  {
    var v := h.slots + [x];
    assert v[1..] == h.slots[1..] + [x];
    var w := SiftUp(v, |v| - 1);
    h' := Heap(w);
  }

  // ---------------------------------------------------------------------
  // Pop_Top: move the last element to the root, then heapify

  /** Ordered except that slot `k` may exceed its children; they are still
      at least its parent. */
  predicate OrderedExceptDown(v: seq<int>, k: nat) {
    && (forall i :: 2 <= i < |v| && ParentIndex(i) != k ==> v[ParentIndex(i)] <= v[i])
    && (k >= 2 ==> forall i :: 2 <= i < |v| && ParentIndex(i) == k ==> v[ParentIndex(k)] <= v[i])
  }

  /** `Heapify`: swap slot `k` with its smaller child while that child is
      smaller, restoring the order when only slot `k` violated it. */
  method Heapify(v: seq<int>, k: nat) returns (w: seq<int>)
    requires 1 <= k < |v| && OrderedExceptDown(v, k)
    ensures |w| == |v| && w[0] == v[0] && Ordered(w)
    ensures multiset(w[1..]) == multiset(v[1..])
  {
    w := v;
    var index := k;
    var size := |v| - 1;
    while true
      invariant 1 <= index < |w| && |w| == |v| && w[0] == v[0]
      invariant multiset(w[1..]) == multiset(v[1..])
      invariant OrderedExceptDown(w, index)
      decreases |w| - index
    {
      var left := LeftIndex(index);
      var right := RightIndex(index);
      var smallest := index;
      if left <= size && w[left] < w[index] {
        smallest := left;
      }
      if right <= size && w[right] < w[smallest] {
        smallest := right;
      }
      if smallest == index {
        HeapifyDone(w, index);
        break;
      }
      HeapifyStep(w, index, smallest);
      w := Swap(w, smallest, index);
      index := smallest;
    }
  }

  /** When neither child of slot `k` is smaller, the order is whole. */
  lemma HeapifyDone(v: seq<int>, k: nat)
    requires 1 <= k < |v| && OrderedExceptDown(v, k)
    requires LeftIndex(k) < |v| ==> v[k] <= v[LeftIndex(k)]
    requires RightIndex(k) < |v| ==> v[k] <= v[RightIndex(k)]
    ensures Ordered(v)
  {
    forall i | 2 <= i < |v| && ParentIndex(i) == k
      ensures v[k] <= v[i]
    {
      assert i == LeftIndex(k) || i == RightIndex(k);
    }
  }

  /** Swapping slot `k` with its smaller child `s`, when that child is
      smaller than `k`, moves the violation down to `s`. */
  lemma HeapifyStep(v: seq<int>, k: nat, s: nat)
    requires 1 <= k < |v| && OrderedExceptDown(v, k)
    requires s == LeftIndex(k) || s == RightIndex(k)
    requires s < |v| && v[s] < v[k]
    requires LeftIndex(k) < |v| ==> v[s] <= v[LeftIndex(k)]
    requires RightIndex(k) < |v| ==> v[s] <= v[RightIndex(k)]
    ensures OrderedExceptDown(Swap(v, s, k), s)
    ensures |Swap(v, s, k)| == |v| && Swap(v, s, k)[0] == v[0]
    ensures multiset(Swap(v, s, k)[1..]) == multiset(v[1..])
  {
    SwapKeepsElements(v, s, k);
    var w := Swap(v, s, k);
    forall i | 2 <= i < |w| && ParentIndex(i) != s
      ensures w[ParentIndex(i)] <= w[i]
    {
      if ParentIndex(i) == k {
        assert i == LeftIndex(k) || i == RightIndex(k);
      }
    }
  }

  /** `Pop_Top`: the least element, and the heap without it; throws on an
      empty heap, leaving it as it was. */
  method PopTop(h: Heap) returns (r: Result<int, HeapError>, h': Heap)
    requires Valid(h)
    ensures r.Failure? <==> Empty(h)
    ensures r.Failure? ==> h' == h
    ensures r.Success? ==>
      && r == PeekTop(h)
      && Valid(h') && Size(h') == Size(h) - 1
      && Elements(h') + multiset{r.value} == Elements(h)
  {
    if Empty(h) {
      return Failure(EmptyHeap), h;
    }
    var v := h.slots;
    var size := |v| - 1;
    var top := v[1];
    var w := v[1 := v[size]][..size];
    LastToRoot(v);
    if |w| - 1 > 1 {
      w := Heapify(w, 1);
    }
    r, h' := Success(top), Heap(w);
  }

  /** Moving the last element to the root and dropping the last slot loses
      exactly the root and leaves the order broken at most at the root. */
  lemma LastToRoot(v: seq<int>)
    requires |v| >= 2 && Ordered(v)
    ensures var w := v[1 := v[|v| - 1]][..|v| - 1];
      && OrderedExceptDown(w, 1)
      && (|w| <= 2 ==> Ordered(w))
      && multiset(w[1..]) + multiset{v[1]} == multiset(v[1..])
  {
    var n := |v| - 1;
    var w := v[1 := v[n]][..n];
    if n == 1 {
      assert w[1..] == [];
      assert v[1..] == [v[1]];
    } else {
      assert v[1..] == [v[1]] + v[2..n] + [v[n]];
      assert w[1..] == [v[n]] + v[2..n];
    }
  }

  /** Peeking and popping again and again gives the elements in ascending
      order. */
  method Drain(h: Heap) returns (out: seq<int>)
    requires Valid(h)
    ensures |out| == Size(h)
    ensures multiset(out) == Elements(h)
    ensures forall i, j :: 0 <= i < j < |out| ==> out[i] <= out[j]
  {
    out := [];
    var cur := h;
    while !Empty(cur)
      invariant Valid(cur)
      invariant multiset(out) + Elements(cur) == Elements(h)
      invariant |out| + Size(cur) == Size(h)
      invariant forall i, j :: 0 <= i < j < |out| ==> out[i] <= out[j]
      invariant forall i, x :: 0 <= i < |out| && x in Elements(cur) ==> out[i] <= x
      decreases Size(cur)
    {
      var r, next := PopTop(cur);
      forall x | x in Elements(next)
        ensures x in Elements(cur) && r.value <= x
      {
        assert x in Elements(next) + multiset{r.value};
      }
      out := out + [r.value];
      cur := next;
    }
  }
}

=== FILE: localization.dfy ===
/** The text-lookup collaborator of the slash-command engine.

    The IPCommon variant looks text up by a string key; the Kolyma variant
    first parses the key as a member of a text-id enum (case-insensitively,
    failing when there is no such member) and then looks that member's text
    up, which may still be missing.  Both are captured by one value: `known`
    says whether a key names a text id, `text` returns the text, `None`
    standing for C# `null`. */
module Localization {
  import opened Base

  datatype Localizer = Localizer(known: string -> bool, text: string -> Option<string>)

  /** The two copies of the engine: IPCommon (string group keys, string text
      keys) and Kolyma (enum group keys, enum text ids whose names start with
      a prefix such as "Shared"). */
  datatype Variant = IpCommon | Kolyma(textIdPrefix: string)

  /** A fixed message fetched with `Get_Text(id)`; a missing one is `null`,
      which `StringBuilder.Append` and string concatenation treat as "". */
  function Message(loc: Localizer, key: string): string {
    loc.text(key).GetOr("")
  }

  /** Key of a fixed message of the common text table in each variant. */
  function CommonKey(v: Variant, name: string): string {
    match v
    case IpCommon => name
    case Kolyma(_) => "Shared_" + name
  }

  /** Key of a per-command text (name, shortcut, help, parameter label). */
  function CommandKey(v: Variant, name: string): string {
    match v
    case IpCommon => name
    case Kolyma(prefix) => prefix + "_" + name
  }
}

=== FILE: matcher.dfy ===
/** Matching an input line against a compiled grammar, and the two readers of
    the match in `CSlashCommandInstance` (IPCommon/Source/SlashCommand/
    SlashCommand.cs): `Parse` and the `Command` property.

    General regular expressions are not modelled.  The matcher below follows
    the .NET backtracking engine on the one family of patterns the compiler
    emits, trying alternatives in the engine's order: `\s+` and barewords
    greedily (longest first), the quoted form lazily (nearest closing quote
    first), an optional clause before skipping it, `[^\r\n]*` greedily. */
module LineMatcher {
  import opened Base
  import opened Text
  import opened SlashGrammar

  /** The bareword class: `\w`, or `(?:\w|\p{S}|#)` when symbols are allowed. */
  predicate IsBareChar(allowSymbols: bool, c: char) {
    IsWordChar(c) || (allowSymbols && (IsSymbolChar(c) || c == '#'))
  }

  /** The character classes the patterns repeat: `\w`, `\s`, the bareword
      class and `[^\r\n]`. */
  datatype CharClass = WordClass | SpaceClass | BareClass(allowSymbols: bool) | NotLineBreakClass

  predicate InClass(k: CharClass, c: char) {
    match k
    case WordClass => IsWordChar(c)
    case SpaceClass => IsSpaceChar(c)
    case BareClass(allowSymbols) => IsBareChar(allowSymbols, c)
    case NotLineBreakClass => !IsLineBreak(c)
  }

  /** Length of the longest run of class `k` characters from `pos`. */
  function RunLength(s: string, pos: nat, k: CharClass): (n: nat)
    requires pos <= |s|
    ensures pos + n <= |s|
    ensures forall i :: pos <= i < pos + n ==> InClass(k, s[i])
    ensures pos + n == |s| || !InClass(k, s[pos + n])
    decreases |s| - pos
  {
    if pos < |s| && InClass(k, s[pos]) then 1 + RunLength(s, pos + 1, k) else 0
  }

  /** A capture (`None` when the group did not participate) and where the
      match continues. */
  datatype Alt = Alt(capture: Option<string>, next: nat)

  predicate AltsIn(alts: seq<Alt>, s: string) {
    forall i :: 0 <= i < |alts| ==> alts[i].next <= |s|
  }

  /** `B+` at `q`: the longest run first, then shorter ones. */
  function BareAlts(s: string, q: nat, m: nat): (r: seq<Alt>)
    requires q + m <= |s|
    ensures AltsIn(r, s)
    ensures forall i :: 0 <= i < |r| ==> r[i].capture.Some?
  {
    if m == 0 then [] else [Alt(Some(s[q..q + m]), q + m)] + BareAlts(s, q, m - 1)
  }

  /** `.*?"` after an opening quote at `start - 1`: every closing quote with
      no line feed before it, nearest first (`.` does not match '\n'). */
  function QuoteAlts(s: string, start: nat, j: nat): (r: seq<Alt>)
    requires start <= j <= |s|
    ensures AltsIn(r, s)
    ensures forall i :: 0 <= i < |r| ==> r[i].capture.Some?
    decreases |s| - j
  {
    if j >= |s| || s[j] == '\n' then []
    else if s[j] == '"' then [Alt(Some(s[start..j]), j + 1)] + QuoteAlts(s, start, j + 1)
    else QuoteAlts(s, start, j + 1)
  }

  /** `(?:(?'p'B+)|(?:"(?'p'.*?)"))` at `q`. */
  function ContentAlts(s: string, q: nat, allowSymbols: bool): (r: seq<Alt>)
    requires q <= |s|
    ensures AltsIn(r, s)
    ensures forall i :: 0 <= i < |r| ==> r[i].capture.Some?
  {
    var bare := BareAlts(s, q, RunLength(s, q, BareClass(allowSymbols)));
    var quoted := if q < |s| && s[q] == '"' then QuoteAlts(s, q + 1, q + 1) else [];
    bare + quoted
  }

  /** `\s+` then the content.  Only the longest white-space run can lead
      anywhere: a shorter one leaves a white-space character where a
      bareword or a quote has to start, so it adds no alternative. */
  function WordAlts(s: string, pos: nat, allowSymbols: bool): (r: seq<Alt>)
    requires pos <= |s|
    ensures AltsIn(r, s)
    ensures forall i :: 0 <= i < |r| ==> r[i].capture.Some?
  {
    var w := RunLength(s, pos, SpaceClass);
    if w == 0 then [] else ContentAlts(s, pos + w, allowSymbols)
  }

  /** `[^\r\n]*`: the longest run first, down to the empty one. */
  function RestAlts(s: string, pos: nat, m: nat): (r: seq<Alt>)
    requires pos + m <= |s|
    ensures AltsIn(r, s)
    ensures forall i :: 0 <= i < |r| ==> r[i].capture.Some?
    ensures |r| > 0
  {
    [Alt(Some(s[pos..pos + m]), pos + m)] + (if m == 0 then [] else RestAlts(s, pos, m - 1))
  }

  function ClauseAlts(c: Clause, s: string, pos: nat, allowSymbols: bool): (r: seq<Alt>)
    requires pos <= |s|
    ensures AltsIn(r, s)
    ensures c != Word(true) ==> forall i :: 0 <= i < |r| ==> r[i].capture.Some?
  {
    match c
    case RestOfLine => RestAlts(s, pos, RunLength(s, pos, NotLineBreakClass))
    case Word(optional) =>
      WordAlts(s, pos, allowSymbols) + (if optional then [Alt(None, pos)] else [])
  }

  /** The captures of the first successful way through the clauses, one per
      clause, or `None` when every way fails. */
  function MatchClauses(cs: seq<Clause>, s: string, pos: nat, allowSymbols: bool): (r: Option<seq<Option<string>>>)
    requires pos <= |s|
    ensures r.Some? ==> |r.value| == |cs|
    decreases |cs|, 1, 0
  {
    if cs == [] then Some([])
    else TryAlts(ClauseAlts(cs[0], s, pos, allowSymbols), cs[0], cs[1..], s, allowSymbols)
  }

  function TryAlts(alts: seq<Alt>, c: Clause, rest: seq<Clause>, s: string, allowSymbols: bool)
    : (r: Option<seq<Option<string>>>)
    requires AltsIn(alts, s)
    ensures r.Some? ==> |r.value| == |rest| + 1
    decreases |rest| + 1, 0, |alts|
  {
    if alts == [] then None
    else
      match MatchClauses(rest, s, alts[0].next, allowSymbols)
      case Some(caps) => Some([alts[0].capture] + caps)
      case None => TryAlts(alts[1..], c, rest, s, allowSymbols)
  }

  /** Whether the clauses match after a command word `k` characters long. */
  function ClausesMatchAt(g: Grammar, s: string): nat -> bool {
    (k: nat) => 1 + k <= |s| && MatchClauses(g.clauses, s, 1 + k, g.allowSymbols).Some?
  }

  /** `\w+` is greedy and gives back one character at a time: the longest
      command-word length `k` in `1..m` after which the clauses match, or 0
      when there is none. */
  function LongestWordLength(matchesAt: nat -> bool, m: nat): (k: nat)
    ensures k <= m
    ensures k > 0 ==> matchesAt(k)
    ensures forall j :: k < j <= m ==> !matchesAt(j)
    ensures m > 0 && matchesAt(m) ==> k == m
    decreases m
  {
    if m == 0 then 0 else if matchesAt(m) then m else LongestWordLength(matchesAt, m - 1)
  }

  /** `CommandParser.Match(line)`: the captures `param1..paramN` of the
      anchored match `^/(?'command'\w+)` followed by the clauses, or `None`
      when the line does not match. */
  function MatchLine(g: Grammar, s: string): (r: Option<seq<Option<string>>>)
  {
    if |s| == 0 || s[0] != '/' then None
    else
      var k := LongestWordLength(ClausesMatchAt(g, s), RunLength(s, 1, WordClass));
      if k == 0 then None else MatchClauses(g.clauses, s, 1 + k, g.allowSymbols)
  }

  // ---------------------------------------------------------------------
  // Readers of the match

  /** `Command`: the first `/` followed by a word character, anywhere in the
      line, and the whole word run after it; `None` (null) if there is no
      such `/`. */
  function CommandWord(s: string, from: nat): (r: Option<string>)
    requires from <= |s|
    ensures r.Some? ==> |r.value| > 0 && forall i :: 0 <= i < |r.value| ==> IsWordChar(r.value[i])
    ensures r.None? <==> forall p :: from <= p < |s| - 1 ==> !(s[p] == '/' && IsWordChar(s[p + 1]))
    decreases |s| - from
  {
    if from + 1 >= |s| then None
    else if s[from] == '/' && IsWordChar(s[from + 1]) then
      var n := RunLength(s, from + 1, WordClass);
      Some(s[from + 1..from + 1 + n])
    else CommandWord(s, from + 1)
  }

  /** `params` are the first captures, all of them present. */
  predicate IsCapturePrefix(params: seq<string>, caps: seq<Option<string>>) {
    |params| <= |caps| && forall i :: 0 <= i < |params| ==> caps[i] == Some(params[i])
  }

  /** The captures `param1..param<max>` up to the first absent one. */
  function LeadingCaptures(caps: seq<Option<string>>, max: nat): (r: seq<string>)
    ensures |r| <= max && IsCapturePrefix(r, caps)
    ensures |r| < max ==> |r| == |caps| || caps[|r|].None?
  {
    if max == 0 || caps == [] || caps[0].None? then []
    else
      var tail := LeadingCaptures(caps[1..], max - 1);
      assert forall i :: 0 < i <= |tail| ==> caps[i] == caps[1..][i - 1];
      [caps[0].value] + tail
  }

  /** What `Parse` leaves behind: its verdict and the parameters it
      appended. */
  datatype Captures = Captures(ok: bool, params: seq<string>)

  /** `Parse(command_parser, required_params, max_params)`: no match is a
      failure with nothing appended; otherwise the captures are appended in
      order up to the first absent group, and the verdict is whether that
      group's (1-based) index is past `required`. */
  function Parse(m: Option<seq<Option<string>>>, required: int, max: nat): (r: Captures)
    ensures m.None? ==> !r.ok && r.params == []
    ensures m.Some? ==>
      && |r.params| <= max
      && IsCapturePrefix(r.params, m.value)
      && (|r.params| < max ==> |r.params| == |m.value| || m.value[|r.params|].None?)
      && (r.ok <==> |r.params| == max || |r.params| + 1 > required)
  {
    if m.None? then Captures(false, [])
    else
      var params := LeadingCaptures(m.value, max);
      Captures(|params| == max || |params| + 1 > required, params)
  }

  /** A successful `Parse` has every required parameter: the verdict is
      true exactly when at least `required` captures (or all `max`) were
      appended. */
  lemma ParseHasRequired(m: Option<seq<Option<string>>>, required: int, max: nat)
    requires required <= max
    ensures Parse(m, required, max).ok <==> m.Some? && |Parse(m, required, max).params| >= required
  {
  }

  // ---------------------------------------------------------------------
  // Properties of the matcher

  /** Every clause that is not an optional word captures something in a
      successful match. */
  /** One capture per clause, and one for every mandatory clause. */
  ghost predicate MandatoryCaptured(cs: seq<Clause>, caps: seq<Option<string>>) {
    |caps| == |cs| && forall i :: 0 <= i < |cs| && cs[i] != Word(true) ==> caps[i].Some?
  }

  lemma {:induction false} MandatoryClausesCapture(cs: seq<Clause>, s: string, pos: nat, allowSymbols: bool)
    requires pos <= |s|
    requires MatchClauses(cs, s, pos, allowSymbols).Some?
    ensures MandatoryCaptured(cs, MatchClauses(cs, s, pos, allowSymbols).value)
    decreases |cs|, 1, 0
  {
    if cs != [] {
      var alts := ClauseAlts(cs[0], s, pos, allowSymbols);
      TryAltsCapture(alts, cs[0], cs[1..], s, allowSymbols);
    }
  }

  lemma {:induction false} TryAltsCapture(alts: seq<Alt>, c: Clause, rest: seq<Clause>, s: string, allowSymbols: bool)
    requires AltsIn(alts, s)
    requires c != Word(true) ==> forall i :: 0 <= i < |alts| ==> alts[i].capture.Some?
    requires TryAlts(alts, c, rest, s, allowSymbols).Some?
    ensures var caps := TryAlts(alts, c, rest, s, allowSymbols).value;
      (c != Word(true) ==> caps[0].Some?) &&
      forall i :: 0 <= i < |rest| && rest[i] != Word(true) ==> caps[i + 1].Some?
    decreases |rest| + 1, 0, |alts|
  {
    var tail := MatchClauses(rest, s, alts[0].next, allowSymbols);
    if tail.Some? {
      MandatoryClausesCapture(rest, s, alts[0].next, allowSymbols);
      assert TryAlts(alts, c, rest, s, allowSymbols) == Some([alts[0].capture] + tail.value);
      ConsCaptured(alts[0].capture, rest, tail.value);
    } else {
      assert TryAlts(alts, c, rest, s, allowSymbols) == TryAlts(alts[1..], c, rest, s, allowSymbols);
      TryAltsCapture(alts[1..], c, rest, s, allowSymbols);
    }
  }

  lemma ConsCaptured(x: Option<string>, rest: seq<Clause>, tail: seq<Option<string>>)
    requires MandatoryCaptured(rest, tail)
    ensures forall i :: 0 <= i < |rest| && rest[i] != Word(true) ==> ([x] + tail)[i + 1].Some?
  {
  }

  /** A successful match has one capture per clause, and every mandatory
      clause (rest-of-line or required word) took part in it. */
  lemma MatchCapturesMandatory(g: Grammar, s: string)
    requires MatchLine(g, s).Some?
    ensures |MatchLine(g, s).value| == |g.clauses|
    ensures forall i :: 0 <= i < |g.clauses| && g.clauses[i] != Word(true) ==> MatchLine(g, s).value[i].Some?
  {
    var k := LongestWordLength(ClausesMatchAt(g, s), RunLength(s, 1, WordClass));
    MandatoryClausesCapture(g.clauses, s, 1 + k, g.allowSymbols);
  }

  // Unfolding steps for the worked examples below.

  /** The line matches with the full command word when the clauses match
      right after it. */
  lemma MatchAtFullWord(g: Grammar, s: string, m: nat, caps: seq<Option<string>>)
    requires |s| > 0 && s[0] == '/' && 0 < m && RunLength(s, 1, WordClass) == m
    requires MatchClauses(g.clauses, s, 1 + m, g.allowSymbols) == Some(caps)
    ensures MatchLine(g, s) == Some(caps)
  {
    assert ClausesMatchAt(g, s)(m);
  }

  lemma SingleClause(c: Clause, s: string, pos: nat, allowSymbols: bool)
    requires pos <= |s|
    ensures var alts := ClauseAlts(c, s, pos, allowSymbols);
      MatchClauses([c], s, pos, allowSymbols) == if alts == [] then None else Some([alts[0].capture])
  {
    var alts := ClauseAlts(c, s, pos, allowSymbols);
    assert [c][0] == c && [c][1..] == [];
    assert MatchClauses([c], s, pos, allowSymbols) == TryAlts(alts, c, [], s, allowSymbols);
    if alts != [] {
      assert MatchClauses([], s, alts[0].next, allowSymbols) == Some([]);
      assert [alts[0].capture] + [] == [alts[0].capture];
    }
  }

  lemma {:induction false} ClassRun(s: string, from: nat, k: CharClass, w: string, t: string)
    requires from <= |s| && s[from..] == w + t
    requires forall i :: 0 <= i < |w| ==> InClass(k, w[i])
    requires t == [] || !InClass(k, t[0])
    ensures RunLength(s, from, k) == |w|
    decreases |w|
  {
    if w != [] {
      assert s[from] == w[0];
      assert s[from + 1..] == w[1..] + t;
      ClassRun(s, from + 1, k, w[1..], t);
    } else if t != [] {
      assert s[from] == t[0];
    }
  }

  /** Worked case, a grammar of one Required consume-all clause: everything
      after the command word up to the end of the line is captured verbatim,
      including the white space that separates it from the command word. */
  lemma RestOfLineRoundTrip(allowSymbols: bool, w: string, t: string)
    requires |w| > 0 && forall i :: 0 <= i < |w| ==> IsWordChar(w[i])
    requires forall i :: 0 <= i < |t| ==> !IsLineBreak(t[i])
    requires t == [] || !IsWordChar(t[0])
    ensures MatchLine(Grammar(allowSymbols, [RestOfLine]), "/" + w + t) == Some([Some(t)])
  {
    RestOfLineClauses(allowSymbols, w, t);
    MatchAtFullWord(Grammar(allowSymbols, [RestOfLine]), "/" + w + t, |w|, [Some(t)]);
  }

  lemma RestOfLineClauses(allowSymbols: bool, w: string, t: string)
    requires |w| > 0 && forall i :: 0 <= i < |w| ==> IsWordChar(w[i])
    requires forall i :: 0 <= i < |t| ==> !IsLineBreak(t[i])
    requires t == [] || !IsWordChar(t[0])
    ensures var s := "/" + w + t;
      RunLength(s, 1, WordClass) == |w| && MatchClauses([RestOfLine], s, 1 + |w|, allowSymbols) == Some([Some(t)])
  {
    var s := "/" + w + t;
    var pos := 1 + |w|;
    assert s[1..] == w + t;
    ClassRun(s, 1, WordClass, w, t);
    assert s[pos..] == t + [];
    ClassRun(s, pos, NotLineBreakClass, t, []);
    assert s[pos..pos + |t|] == t;
    SingleClause(RestOfLine, s, pos, allowSymbols);
  }

  /** Worked case, a grammar of one Required word clause given a
      bareword: the bareword is captured, and whatever follows a
      non-bareword character is ignored because the pattern has no end
      anchor. */
  lemma BarewordCapture(w: string, b: string, t: string)
    requires |w| > 0 && forall i :: 0 <= i < |w| ==> IsWordChar(w[i])
    requires |b| > 0 && forall i :: 0 <= i < |b| ==> IsWordChar(b[i])
    requires t == [] || !IsWordChar(t[0])
    ensures MatchLine(Grammar(false, [Word(false)]), "/" + w + " " + b + t) == Some([Some(b)])
  {
    BarewordClauses(w, b, t);
    MatchAtFullWord(Grammar(false, [Word(false)]), "/" + w + " " + b + t, |w|, [Some(b)]);
  }

  lemma BarewordClauses(w: string, b: string, t: string)
    requires |w| > 0 && forall i :: 0 <= i < |w| ==> IsWordChar(w[i])
    requires |b| > 0 && forall i :: 0 <= i < |b| ==> IsWordChar(b[i])
    requires t == [] || !IsWordChar(t[0])
    ensures var s := "/" + w + " " + b + t;
      RunLength(s, 1, WordClass) == |w| && MatchClauses([Word(false)], s, 1 + |w|, false) == Some([Some(b)])
  {
    var s := "/" + w + " " + b + t;
    var pos := 1 + |w|;
    BarewordRuns(w, b, t);
    BarewordFirst(s, pos, b);
    SingleClause(Word(false), s, pos, false);
  }

  /** After one space, a bareword run is the first alternative of a word. */
  lemma BarewordFirst(s: string, pos: nat, b: string)
    requires pos + 1 + |b| <= |s| && |b| > 0
    requires RunLength(s, pos, SpaceClass) == 1
    requires RunLength(s, pos + 1, BareClass(false)) == |b|
    requires s[pos + 1..pos + 1 + |b|] == b
    ensures var alts := ClauseAlts(Word(false), s, pos, false);
      alts != [] && alts[0].capture == Some(b)
  {
    var alts := ClauseAlts(Word(false), s, pos, false);
    assert alts == WordAlts(s, pos, false) + [];
    assert WordAlts(s, pos, false) == ContentAlts(s, pos + 1, false);
    assert BareAlts(s, pos + 1, |b|)[0] == Alt(Some(b), pos + 1 + |b|);
  }

  lemma BarewordRuns(w: string, b: string, t: string)
    requires |w| > 0 && forall i :: 0 <= i < |w| ==> IsWordChar(w[i])
    requires |b| > 0 && forall i :: 0 <= i < |b| ==> IsWordChar(b[i])
    requires t == [] || !IsWordChar(t[0])
    ensures var s := "/" + w + " " + b + t; var pos := 1 + |w|;
      && RunLength(s, 1, WordClass) == |w|
      && RunLength(s, pos, SpaceClass) == 1
      && RunLength(s, pos + 1, BareClass(false)) == |b|
      && s[pos + 1..pos + 1 + |b|] == b
  {
    var s := "/" + w + " " + b + t;
    var pos := 1 + |w|;
    assert s[1..] == w + (" " + b + t);
    ClassRun(s, 1, WordClass, w, " " + b + t);
    assert s[pos..] == " " + (b + t);
    ClassRun(s, pos, SpaceClass, " ", b + t);
    assert s[pos + 1..] == b + t;
    ClassRun(s, pos + 1, BareClass(false), b, t);
    assert s[pos + 1..pos + 1 + |b|] == b;
  }

  /** Worked case, a grammar of one Required word clause given in quotes:
      the text between the quotes is captured, white space and symbols
      included. */
  lemma QuotedCapture(w: string, q: string)
    requires |w| > 0 && forall i :: 0 <= i < |w| ==> IsWordChar(w[i])
    requires forall i :: 0 <= i < |q| ==> q[i] != '"' && q[i] != '\n'
    ensures MatchLine(Grammar(false, [Word(false)]), "/" + w + " \"" + q + "\"") == Some([Some(q)])
  {
    QuotedClauses(w, q);
    MatchAtFullWord(Grammar(false, [Word(false)]), "/" + w + " \"" + q + "\"", |w|, [Some(q)]);
  }

  lemma QuotedClauses(w: string, q: string)
    requires |w| > 0 && forall i :: 0 <= i < |w| ==> IsWordChar(w[i])
    requires forall i :: 0 <= i < |q| ==> q[i] != '"' && q[i] != '\n'
    ensures var s := "/" + w + " \"" + q + "\"";
      RunLength(s, 1, WordClass) == |w| && MatchClauses([Word(false)], s, 1 + |w|, false) == Some([Some(q)])
  {
    var s := "/" + w + " \"" + q + "\"";
    var pos := 1 + |w|;
    var start := pos + 2;
    QuotedRuns(w, q);
    QuoteScan(s, start, start, q);
    var alts := ClauseAlts(Word(false), s, pos, false);
    assert alts == WordAlts(s, pos, false) + [];
    assert WordAlts(s, pos, false) == ContentAlts(s, pos + 1, false);
    assert BareAlts(s, pos + 1, 0) == [];
    assert ContentAlts(s, pos + 1, false) == QuoteAlts(s, start, start);
    assert alts[0].capture == Some(q);
    SingleClause(Word(false), s, pos, false);
  }

  lemma QuotedRuns(w: string, q: string)
    requires |w| > 0 && forall i :: 0 <= i < |w| ==> IsWordChar(w[i])
    ensures var s := "/" + w + " \"" + q + "\""; var pos := 1 + |w|;
      && RunLength(s, 1, WordClass) == |w|
      && RunLength(s, pos, SpaceClass) == 1
      && RunLength(s, pos + 1, BareClass(false)) == 0
      && s[pos + 1] == '"'
      && s[pos + 2..pos + 2 + |q|] == q && s[pos + 2 + |q|] == '"'
  {
    var s := "/" + w + " \"" + q + "\"";
    var pos := 1 + |w|;
    assert s[1..] == w + (" \"" + q + "\"");
    ClassRun(s, 1, WordClass, w, " \"" + q + "\"");
    assert s[pos..] == " " + ("\"" + q + "\"");
    ClassRun(s, pos, SpaceClass, " ", "\"" + q + "\"");
    assert s[pos + 1..] == [] + ("\"" + q + "\"");
    ClassRun(s, pos + 1, BareClass(false), [], "\"" + q + "\"");
    assert s[pos + 2..pos + 2 + |q|] == q;
  }

  lemma {:induction false} QuoteScan(s: string, start: nat, j: nat, q: string)
    requires start <= j <= start + |q| && start + |q| < |s|
    requires s[start..start + |q|] == q && s[start + |q|] == '"'
    requires forall i :: 0 <= i < |q| ==> q[i] != '"' && q[i] != '\n'
    ensures |QuoteAlts(s, start, j)| > 0 && QuoteAlts(s, start, j)[0] == Alt(Some(q), start + |q| + 1)
    decreases start + |q| - j
  {
    if j < start + |q| {
      assert s[j] == q[j - start];
      QuoteScan(s, start, j + 1, q);
    } else {
      assert s[start..j] == q;
    }
  }

  /** Worked case, a grammar of one Optional word clause: an absent
      argument is simply not captured. */
  lemma OptionalAbsent(w: string)
    requires |w| > 0 && forall i :: 0 <= i < |w| ==> IsWordChar(w[i])
    ensures MatchLine(Grammar(false, [Word(true)]), "/" + w) == Some([None])
  {
    var s := "/" + w;
    assert s[1..] == w + [];
    ClassRun(s, 1, WordClass, w, []);
    SingleClause(Word(true), s, |s|, false);
    MatchAtFullWord(Grammar(false, [Word(true)]), s, |w|, [None]);
  }

  /** Worked case, a grammar of one Required word clause: a missing
      argument makes the whole line fail to match. */
  lemma RequiredMissing(w: string)
    requires |w| > 0 && forall i :: 0 <= i < |w| ==> IsWordChar(w[i])
    ensures MatchLine(Grammar(false, [Word(false)]), "/" + w).None?
  {
    var s := "/" + w;
    var g := Grammar(false, [Word(false)]);
    assert s[1..] == w + [];
    ClassRun(s, 1, WordClass, w, []);
    forall j | 1 <= j <= |w|
      ensures !ClausesMatchAt(g, s)(j)
    {
      var pos := 1 + j;
      assert RunLength(s, pos, SpaceClass) == 0 by {
        if pos < |s| { assert s[pos] == w[j]; }
      }
      SingleClause(Word(false), s, pos, false);
    }
  }
}

=== FILE: process_id.dfy ===
/** `SVirtualProcessID<T>`: four 16-bit fields packed into one unsigned
    64-bit id: the subject (a value of the enum `T`) in bits 0-15, then the
    primary, major and minor sub-ids (`EProcessSubID`, a 16-bit enum whose
    `Invalid` is 0 and `First` is 1) in bits 16-31, 32-47 and 48-63. */
module VirtualProcessIds {
  import opened Base

  type SubId = bv16

  const Invalid: SubId := 0
  const First: SubId := 1

  datatype ProcessId = ProcessId(pid: bv64)

  /** `ToUInt16` of a subject whose enum value does not fit 16 bits. */
  datatype ProcessIdError = SubjectOverflow(subject: int)

  /** The default constructor: id 0. */
  function DefaultId(): (p: ProcessId)
    ensures p.pid == 0
  {
    ProcessId(0)
  }

  /** The mask of the 16-bit field at bit `shift`. */
  function FieldMask(shift: bv64): bv64
    requires shift == 0 || shift == 16 || shift == 32 || shift == 48
  {
    0xFFFF << shift
  }

  /** The 16 bits at `shift`. */
  function Field(pid: bv64, shift: bv64): SubId
    requires shift == 0 || shift == 16 || shift == 32 || shift == 48
  {
    ((pid >> shift) & 0xFFFF) as bv16
  }

  /** `pid` with the 16 bits at `shift` replaced by `x`. */
  function WithField(pid: bv64, shift: bv64, x: SubId): bv64
    requires shift == 0 || shift == 16 || shift == 32 || shift == 48
  {
    (pid & !FieldMask(shift)) | ((x as bv64) << shift)
  }

  /** The four fields or'ed together at their offsets. */
  function Pack(s: bv16, a: bv16, b: bv16, c: bv16): bv64 {
    (s as bv64) | ((a as bv64) << 16) | ((b as bv64) << 32) | ((c as bv64) << 48)
  }

  /** The constructor: the subject's 16-bit value or'ed with the three
      sub-ids shifted into place (all `First` by default at the call
      sites).  `ToUInt16` throws for a subject outside 0..65535. */
  function MakeId(subject: int, primary: SubId, major: SubId, minor: SubId): (r: Result<ProcessId, ProcessIdError>)
    ensures r.Failure? <==> !(0 <= subject < 0x1_0000)
  {
    if !(0 <= subject < 0x1_0000) then Failure(SubjectOverflow(subject))
    else Success(ProcessId(Pack(subject as bv16, primary, major, minor)))
  }

  /** Or-ing the disjoint fields is adding them at their weights: the id
      reads, in base 65536, minor, major, primary, subject. */
  lemma PackedValue(s: bv16, a: bv16, b: bv16, c: bv16)
    ensures Pack(s, a, b, c) == (s as bv64) + (a as bv64) * 0x1_0000 + (b as bv64) * 0x1_0000_0000
                                + (c as bv64) * 0x1_0000_0000_0000
  {
  }

  function GetSubject(p: ProcessId): bv16 { Field(p.pid, 0) }
  function GetPrimary(p: ProcessId): SubId { Field(p.pid, 16) }
  function GetMajor(p: ProcessId): SubId { Field(p.pid, 32) }
  function GetMinor(p: ProcessId): SubId { Field(p.pid, 48) }

  function SetPrimary(p: ProcessId, id: SubId): ProcessId { ProcessId(WithField(p.pid, 16, id)) }
  function SetMajor(p: ProcessId, id: SubId): ProcessId { ProcessId(WithField(p.pid, 32, id)) }
  function SetMinor(p: ProcessId, id: SubId): ProcessId { ProcessId(WithField(p.pid, 48, id)) }

  /** `Is_Valid`: every sub-id allocated. */
  predicate IsValid(p: ProcessId) {
    GetPrimary(p) != Invalid && GetMajor(p) != Invalid && GetMinor(p) != Invalid
  }

  /** `Needs_Sub_ID_Allocation`: some sub-id still `Invalid`. */
  predicate NeedsSubIdAllocation(p: ProcessId) {
    GetPrimary(p) == Invalid || GetMajor(p) == Invalid || GetMinor(p) == Invalid
  }

  /** The fields of a packed id are the values packed. */
  lemma UnpackPacked(s: bv16, a: bv16, b: bv16, c: bv16)
    ensures var pid := Pack(s, a, b, c);
      Field(pid, 0) == s && Field(pid, 16) == a && Field(pid, 32) == b && Field(pid, 48) == c
  {
  }

  /** Each getter returns what the constructor was given. */
  lemma MakeThenGet(subject: int, primary: SubId, major: SubId, minor: SubId)
    requires 0 <= subject < 0x1_0000
    ensures var p := MakeId(subject, primary, major, minor).value;
      GetSubject(p) == subject as bv16 && GetPrimary(p) == primary && GetMajor(p) == major && GetMinor(p) == minor
  {
    UnpackPacked(subject as bv16, primary, major, minor);
  }

  /** Writing the field at `shift` and reading it back gives the value
      written; the three other fields are untouched. */
  lemma PrimaryRoundTrip(pid: bv64, x: SubId)
    ensures Field(WithField(pid, 16, x), 16) == x
    ensures Field(WithField(pid, 16, x), 0) == Field(pid, 0)
    ensures Field(WithField(pid, 16, x), 32) == Field(pid, 32)
    ensures Field(WithField(pid, 16, x), 48) == Field(pid, 48)
  {
  }

  lemma MajorRoundTrip(pid: bv64, x: SubId)
    ensures Field(WithField(pid, 32, x), 32) == x
    ensures Field(WithField(pid, 32, x), 0) == Field(pid, 0)
    ensures Field(WithField(pid, 32, x), 16) == Field(pid, 16)
    ensures Field(WithField(pid, 32, x), 48) == Field(pid, 48)
  {
  }

  lemma MinorRoundTrip(pid: bv64, x: SubId)
    ensures Field(WithField(pid, 48, x), 48) == x
    ensures Field(WithField(pid, 48, x), 0) == Field(pid, 0)
    ensures Field(WithField(pid, 48, x), 16) == Field(pid, 16)
    ensures Field(WithField(pid, 48, x), 32) == Field(pid, 32)
  {
  }

  /** `Set_X` then `Get_X` returns the value set, and leaves the subject
      and the other two sub-ids alone. */
  lemma SetThenGet(p: ProcessId, id: SubId)
    ensures GetPrimary(SetPrimary(p, id)) == id
    ensures GetSubject(SetPrimary(p, id)) == GetSubject(p)
    ensures GetMajor(SetPrimary(p, id)) == GetMajor(p) && GetMinor(SetPrimary(p, id)) == GetMinor(p)
    ensures GetMajor(SetMajor(p, id)) == id
    ensures GetSubject(SetMajor(p, id)) == GetSubject(p)
    ensures GetPrimary(SetMajor(p, id)) == GetPrimary(p) && GetMinor(SetMajor(p, id)) == GetMinor(p)
    ensures GetMinor(SetMinor(p, id)) == id
    ensures GetSubject(SetMinor(p, id)) == GetSubject(p)
    ensures GetPrimary(SetMinor(p, id)) == GetPrimary(p) && GetMajor(SetMinor(p, id)) == GetMajor(p)
  {
    PrimaryRoundTrip(p.pid, id);
    MajorRoundTrip(p.pid, id);
    MinorRoundTrip(p.pid, id);
  }

  /** Writing back the value a field already holds changes nothing. */
  lemma SetCurrentIsIdentity(p: ProcessId)
    ensures SetPrimary(p, GetPrimary(p)) == p
    ensures SetMajor(p, GetMajor(p)) == p
    ensures SetMinor(p, GetMinor(p)) == p
  {
    KeepField(p.pid, 16);
    KeepField(p.pid, 32);
    KeepField(p.pid, 48);
  }

  lemma KeepField(pid: bv64, shift: bv64)
    requires shift == 16 || shift == 32 || shift == 48
    ensures WithField(pid, shift, Field(pid, shift)) == pid
  {
    if shift == 16 {
      assert WithField(pid, 16, Field(pid, 16)) == pid;
    } else if shift == 32 {
      assert WithField(pid, 32, Field(pid, 32)) == pid;
    } else {
      assert WithField(pid, 48, Field(pid, 48)) == pid;
    }
  }

  /** An id needs sub-id allocation exactly when it is not valid. */
  lemma NeedsAllocationIffInvalid(p: ProcessId)
    ensures NeedsSubIdAllocation(p) <==> !IsValid(p)
  {
  }

  /** The default id has subject 0 and every sub-id `Invalid`; one built
      with the defaults `First` is valid. */
  lemma DefaultAndFirst(subject: int)
    requires 0 <= subject < 0x1_0000
    ensures GetSubject(DefaultId()) == 0 && GetPrimary(DefaultId()) == Invalid
    ensures GetMajor(DefaultId()) == Invalid && GetMinor(DefaultId()) == Invalid
    ensures NeedsSubIdAllocation(DefaultId())
    ensures IsValid(MakeId(subject, First, First, First).value)
  {
    MakeThenGet(subject, First, First, First);
  }
}

=== FILE: registry.dfy ===
/** The command registry of `CSlashCommandParser`
    (`Initialize_Assembly_Commands` and `Initialize_Groups` in
    IPCommon/Source/SlashCommand/SlashCommandParser.cs and
    KolymaCommon/Source/SlashCommand/SlashCommandManager.cs).

    Registration turns one command declaration into a localized name and
    shortcut, validates both against the names already taken, compiles the
    grammar, indexes the command by its upper-case name and shortcut, and
    files it under its group for help purposes.  The two copies differ in
    how the name and shortcut are looked up, in the group key (a free-form
    upper-cased string, or a member of `ESlashCommandGroup`), and in the
    extra Kolyma index from a group's localized name to its key; the rest
    is shared and written once over the group key type `G`.

    A thrown exception ends `Initialize_Assembly_Commands`, so a failed
    registration is modelled as a `Failure` and the partly updated state is
    not kept. */
module SlashRegistry {
  import opened Base
  import opened Text
  import opened StringList
  import opened Localization
  import opened SlashGrammar

  /** What reflection reads off a command class: its type name, its
      `SlashCommandAttribute` (text-id suffix, `AllowSymbols`), its
      properties, and its group key (`None` when it joins no group). */
  datatype CommandDecl<G> = CommandDecl(
    commandType: string,
    textIdSuffix: string,
    allowSymbols: bool,
    props: seq<Property>,
    group: Option<G>)

  /** `CSlashCommandGroupInfo.HelpText`: the group blurb followed by the
      localized "commands:" line listing `commandList`. */
  datatype GroupHelpText = GroupHelpText(blurb: string, commandList: string)

  /** `CSlashCommandGroupInfo`: the command types in registration order, and
      the help text once `Initialize_Groups` has run. */
  datatype GroupInfo = GroupInfo(commands: seq<string>, help: Option<GroupHelpText>)

  /** The parser's fields.  Command types are identified by their names.
      `groupList` is `m_GroupBuilder`; `generalHelp` is the group list that
      `m_GeneralHelpString` was formatted from (`None` while it is null);
      `groupsByName` is only filled by the Kolyma copy. */
  datatype Registry<G> = Registry(
    infos: map<string, CommandInfo>,
    byName: map<string, string>,
    byShortcut: map<string, string>,
    groups: map<G, GroupInfo>,
    groupOrder: seq<G>,
    groupsByName: map<string, G>,
    groupList: string,
    generalHelp: Option<string>)

  function EmptyRegistry<G(!new)>(): Registry<G> {
    Registry(map[], map[], map[], map[], [], map[], "", None)
  }

  /** Why registration or group initialisation throws.  `MissingText` is
      the `NullReferenceException` of upper-casing a text that is not
      there; `UnknownTextId` is `Enum.Parse` failing on a text-id name. */
  datatype RegisterError =
    | MissingText(key: string)
    | UnknownTextId(key: string)
    | NoName(commandType: string)
    | NumericName(commandType: string)
    | SameNameAndShortcut(name: string, commandType: string)
    | NameIsName(name: string, commandType: string, existing: string)
    | NameIsShortcut(name: string, commandType: string, existing: string)
    | NumericShortcut(commandType: string)
    | ShortcutIsName(shortcut: string, commandType: string, existing: string)
    | ShortcutIsShortcut(shortcut: string, commandType: string, existing: string)
    | CompileFailed(cause: CompileError)
    | DuplicateType(commandType: string)
    | DuplicateGroupName(groupName: string)

  // ---------------------------------------------------------------------
  // Name and shortcut lookup

  /** The localized name (as written) and the upper-cased shortcut ("" for
      none). */
  datatype Names = Names(name: string, shortcut: string)

  function NameKey(v: Variant, suffix: string): string {
    CommandKey(v, "Command_Name_" + suffix)
  }

  function ShortcutKey(v: Variant, suffix: string): string {
    CommandKey(v, "Command_Shortcut_" + suffix)
  }

  /** IPCommon: a missing name falls back to the suffix, and a missing
      shortcut text throws when it is upper-cased.  Kolyma: both text ids
      are parsed in one `try`, so when the name id does not exist neither
      does the shortcut id, and the name falls back to the suffix with no
      shortcut; an id that exists but has no text throws when upper-cased. */
  function CommandNames(v: Variant, loc: Localizer, suffix: string): (r: Result<Names, RegisterError>)
    ensures v.IpCommon? ==>
      (r.Success? <==> loc.text(ShortcutKey(v, suffix)).Some?)
      && (r.Success? ==> r.value == Names(loc.text(NameKey(v, suffix)).GetOr(suffix),
                                           ToUpper(loc.text(ShortcutKey(v, suffix)).value)))
    ensures v.Kolyma? && !loc.known(NameKey(v, suffix)) ==> r == Success(Names(suffix, ""))
    ensures v.Kolyma? && loc.known(NameKey(v, suffix)) ==>
      && (r.Success? <==> loc.text(NameKey(v, suffix)).Some?
                          && (loc.known(ShortcutKey(v, suffix)) ==> loc.text(ShortcutKey(v, suffix)).Some?))
      && (r.Success? ==>
            && r.value.name == loc.text(NameKey(v, suffix)).value
            && r.value.shortcut == (if loc.known(ShortcutKey(v, suffix)) then ToUpper(loc.text(ShortcutKey(v, suffix)).value) else ""))
  {
    var nameKey := NameKey(v, suffix);
    var shortcutKey := ShortcutKey(v, suffix);
    match v
    case IpCommon =>
      var name := loc.text(nameKey).GetOr(suffix);
      (match loc.text(shortcutKey)
       case None => Failure(MissingText(shortcutKey))
       case Some(s) => Success(Names(name, ToUpper(s))))
    case Kolyma(_) =>
      if !loc.known(nameKey) then Success(Names(suffix, ""))
      else
        match loc.text(nameKey)
        case None => Failure(MissingText(nameKey))
        case Some(name) =>
          if !loc.known(shortcutKey) then Success(Names(name, ""))
          else
            match loc.text(shortcutKey)
            case None => Failure(MissingText(shortcutKey))
            case Some(s) => Success(Names(name, ToUpper(s)))
  }

  // ---------------------------------------------------------------------
  // Validation

  /** The names a new command may take: a non-empty, non-numeric name that
      is neither its own shortcut nor taken as a name or shortcut, and a
      shortcut that is empty or else non-numeric and not taken either. */
  predicate Acceptable<G(!new)>(r: Registry<G>, upperName: string, shortcut: string) {
    && |upperName| > 0
    && ParseInt32(upperName).None?
    && upperName != shortcut
    && upperName !in r.byName
    && upperName !in r.byShortcut
    && (|shortcut| > 0 ==> ParseInt32(shortcut).None? && shortcut !in r.byName && shortcut !in r.byShortcut)
  }

  /** The validation of `Initialize_Assembly_Commands`, in its order; the
      error names the command as written and the type already holding a
      clashing name. */
  function Validate<G(!new)>(r: Registry<G>, commandType: string, name: string, shortcut: string)
    : (e: Option<RegisterError>)
    ensures e.None? <==> Acceptable(r, ToUpper(name), shortcut)
    ensures e.Some? && e.value.NameIsName? ==> ToUpper(name) in r.byName && e.value.existing == r.byName[ToUpper(name)]
    ensures e.Some? && e.value.ShortcutIsShortcut? ==> shortcut in r.byShortcut && e.value.existing == r.byShortcut[shortcut]
  {
    var upperName := ToUpper(name);
    if |upperName| == 0 then Some(NoName(commandType))
    else if ParseInt32(upperName).Some? then Some(NumericName(commandType))
    else if upperName == shortcut then Some(SameNameAndShortcut(name, commandType))
    else if upperName in r.byName then Some(NameIsName(name, commandType, r.byName[upperName]))
    else if upperName in r.byShortcut then Some(NameIsShortcut(name, commandType, r.byShortcut[upperName]))
    else if |shortcut| > 0 && ParseInt32(shortcut).Some? then Some(NumericShortcut(commandType))
    else if |shortcut| > 0 && shortcut in r.byName then Some(ShortcutIsName(shortcut, commandType, r.byName[shortcut]))
    else if |shortcut| > 0 && shortcut in r.byShortcut then Some(ShortcutIsShortcut(shortcut, commandType, r.byShortcut[shortcut]))
    else None
  }

  // ---------------------------------------------------------------------
  // Groups

  /** The text key of a group's localized name. */
  function LabelKey<G(!new)>(v: Variant, keyName: G -> string, g: G): string {
    CommonKey(v, "CommandGroup_" + keyName(g))
  }

  /** What the first command of a group appends to the group list. */
  function GroupLabel<G(!new)>(v: Variant, loc: Localizer, keyName: G -> string, g: G): string {
    loc.text(LabelKey(v, keyName, g)).GetOr("")
  }

  function LabelsOf<G(!new)>(v: Variant, loc: Localizer, keyName: G -> string, gs: seq<G>): (r: seq<string>)
    ensures |r| == |gs|
    ensures forall i :: 0 <= i < |gs| ==> r[i] == GroupLabel(v, loc, keyName, gs[i])
  {
    seq(|gs|, i requires 0 <= i < |gs| => GroupLabel(v, loc, keyName, gs[i]))
  }

  /** `m_GroupBuilder`: a caption is preceded by ", " only when the builder is
      not empty at that moment. */
  function AppendLabel(builder: string, caption: string): string {
    if |builder| != 0 then builder + Separator + caption else builder + caption
  }

  function BuildLabels(labels: seq<string>): string {
    if labels == [] then "" else AppendLabel(BuildLabels(labels[..|labels| - 1]), labels[|labels| - 1])
  }

  /** Filing the registered command `t` under its group.  The first command
      of a group creates the group, appends its caption to the group list
      and (Kolyma) indexes the group by its upper-cased caption; later ones
      are appended to the group's command list. */
  function JoinGroup<G(!new)>(r: Registry<G>, v: Variant, loc: Localizer, keyName: G -> string,
                        group: Option<G>, t: string): (r': Result<Registry<G>, RegisterError>)
    ensures r'.Success? ==>
      && r'.value.infos == r.infos && r'.value.byName == r.byName && r'.value.byShortcut == r.byShortcut
      && r'.value.generalHelp == r.generalHelp
    ensures group.None? ==> r' == Success(r)
    ensures r'.Success? && group.Some? ==>
      && group.value in r'.value.groups
      && r'.value.groups[group.value].commands == (if group.value in r.groups then r.groups[group.value].commands else []) + [t]
      && (forall g :: g in r.groups && g != group.value ==> g in r'.value.groups && r'.value.groups[g] == r.groups[g])
      && (forall g :: g in r'.value.groups ==> g in r.groups || g == group.value)
    ensures r'.Success? && group.Some? && group.value in r.groups ==>
      r'.value.groupOrder == r.groupOrder && r'.value.groupList == r.groupList && r'.value.groupsByName == r.groupsByName
    ensures r'.Success? && group.Some? && group.value !in r.groups ==>
      && r'.value.groupOrder == r.groupOrder + [group.value]
      && r'.value.groupList == AppendLabel(r.groupList, GroupLabel(v, loc, keyName, group.value))
      && r'.value.groups[group.value].help.None?
    ensures r'.Success? && v.IpCommon? ==> r'.value.groupsByName == r.groupsByName
    ensures r'.Success? && v.Kolyma? && group.Some? && group.value !in r.groups ==>
      var caption := loc.text(LabelKey(v, keyName, group.value));
      && caption.Some?
      && ToUpper(caption.value) !in r.groupsByName
      && r'.value.groupsByName == r.groupsByName[ToUpper(caption.value) := group.value]
  {
    match group
    case None => Success(r)
    case Some(g) =>
      if g in r.groups then
        Success(r.(groups := r.groups[g := r.groups[g].(commands := r.groups[g].commands + [t])]))
      else
        var key := LabelKey(v, keyName, g);
        var caption := loc.text(key);
        var r1 := r.(groups := r.groups[g := GroupInfo([t], None)],
                     groupOrder := r.groupOrder + [g],
                     groupList := AppendLabel(r.groupList, caption.GetOr("")));
        match v
        case IpCommon => Success(r1)
        case Kolyma(_) =>
          if !loc.known(key) then Failure(UnknownTextId(key))
          else if caption.None? then Failure(MissingText(key))
          else if ToUpper(caption.value) in r.groupsByName then Failure(DuplicateGroupName(caption.value))
          else Success(r1.(groupsByName := r.groupsByName[ToUpper(caption.value) := g]))
  }

  // ---------------------------------------------------------------------
  // Registration

  /** Indexing a validated and compiled command: its upper-case name, its
      shortcut when it has one, and its compiled information. */
  function AddCommand<G(!new)>(r: Registry<G>, upperName: string, shortcut: string, info: CommandInfo)
    : Registry<G>
  {
    r.(byName := r.byName[upperName := info.commandType],
       infos := r.infos[info.commandType := info],
       byShortcut := if |shortcut| > 0 then r.byShortcut[shortcut := info.commandType] else r.byShortcut)
  }

  /** `CSlashCommandInfo.Initialize` for a declaration under its name. */
  function CompileDecl<G(!new)>(v: Variant, loc: Localizer, d: CommandDecl<G>, name: string)
    : (c: Result<CommandInfo, CompileError>)
    ensures c.Success? <==> WellFormed(d.props)
    ensures c.Success? ==> c.value.commandType == d.commandType && c.value.name == name
  {
    Compile(v, loc, d.commandType, name, d.textIdSuffix, d.allowSymbols, d.props)
  }

  /** The rest of one iteration once the name and shortcut are known:
      validation, compilation, indexing and grouping. */
  function RegisterNamed<G(!new)>(r: Registry<G>, v: Variant, loc: Localizer, keyName: G -> string,
                                  d: CommandDecl<G>, names: Names)
    : (r': Result<Registry<G>, RegisterError>)
    ensures !Acceptable(r, ToUpper(names.name), names.shortcut) ==> r'.Failure? && !r'.error.CompileFailed?
    ensures r'.Failure? && r'.error.CompileFailed? ==> !WellFormed(d.props)
  {
    match Validate(r, d.commandType, names.name, names.shortcut)
    case Some(e) => Failure(e)
    case None =>
      match CompileDecl(v, loc, d, names.name)
      case Failure(e) => Failure(CompileFailed(e))
      case Success(info) =>
        if d.commandType in r.infos then Failure(DuplicateType(d.commandType))
        else JoinGroup(AddCommand(r, ToUpper(names.name), names.shortcut, info), v, loc, keyName, d.group, d.commandType)
  }

  /** A successful registration indexes the command under its upper-case
      name, and under its shortcut exactly when it has one, records its
      compiled information, and leaves the general help alone. */
  lemma RegisterIndexes<G(!new)>(r: Registry<G>, v: Variant, loc: Localizer, keyName: G -> string,
                                 d: CommandDecl<G>, names: Names)
    requires RegisterNamed(r, v, loc, keyName, d, names).Success?
    ensures Acceptable(r, ToUpper(names.name), names.shortcut)
    ensures d.commandType !in r.infos && CompileDecl(v, loc, d, names.name).Success?
    ensures var r' := RegisterNamed(r, v, loc, keyName, d, names).value;
      && r'.byName == r.byName[ToUpper(names.name) := d.commandType]
      && r'.byShortcut == (if |names.shortcut| > 0 then r.byShortcut[names.shortcut := d.commandType] else r.byShortcut)
      && r'.infos == r.infos[d.commandType := CompileDecl(v, loc, d, names.name).value]
      && r'.generalHelp == r.generalHelp
  {
    var info := CompileDecl(v, loc, d, names.name).value;
    var r1 := AddCommand(r, ToUpper(names.name), names.shortcut, info);
    assert RegisterNamed(r, v, loc, keyName, d, names) == JoinGroup(r1, v, loc, keyName, d.group, d.commandType);
  }

  /** One iteration of `Initialize_Assembly_Commands`: a success registers
      a command type that was not registered before, under its upper-case
      name, and leaves the general help alone. */
  function Register<G(!new)>(r: Registry<G>, v: Variant, loc: Localizer, keyName: G -> string, d: CommandDecl<G>)
    : (r': Result<Registry<G>, RegisterError>)
    ensures r'.Success? ==> d.commandType !in r.infos && d.commandType in r'.value.infos
    ensures r'.Success? ==>
      && CommandNames(v, loc, d.textIdSuffix).Success?
      && ToUpper(CommandNames(v, loc, d.textIdSuffix).value.name) in r'.value.byName
    ensures r'.Success? ==> r'.value.generalHelp == r.generalHelp
  {
    var names :- CommandNames(v, loc, d.textIdSuffix);
    var r' := RegisterNamed(r, v, loc, keyName, d, names);
    if r'.Success? then RegisterIndexes(r, v, loc, keyName, d, names); r' else r'
  }

  /** `Initialize_Assembly_Commands`: the declarations in order; the first
      failure ends the registration. */
  function RegisterAll<G(!new)>(r: Registry<G>, v: Variant, loc: Localizer, keyName: G -> string,
                          ds: seq<CommandDecl<G>>): (r': Result<Registry<G>, RegisterError>)
    ensures r'.Success? ==> r'.value.generalHelp == r.generalHelp
    decreases |ds|
  {
    if ds == [] then Success(r)
    else
      var r1 :- Register(r, v, loc, keyName, ds[0]);
      RegisterAll(r1, v, loc, keyName, ds[1..])
  }

  /** IPCommon's group key: the attribute's group name upper-cased, none
      when it is empty. */
  function IpGroupKey(attributeGroupName: string): (g: Option<string>)
    ensures g.Some? <==> |attributeGroupName| > 0
    ensures g.Some? ==> IsUpper(g.value) && EqualsIgnoreCase(g.value, attributeGroupName)
  {
    ToUpperIsUpper(attributeGroupName);
    if |attributeGroupName| > 0 then Some(ToUpper(attributeGroupName)) else None
  }

  // ---------------------------------------------------------------------
  // Initialize_Groups

  /** The text key of a group's help blurb. */
  function GroupHelpKey<G(!new)>(v: Variant, keyName: G -> string, g: G): string {
    CommonKey(v, "Help_CommandGroup_" + keyName(g))
  }

  function CommandNamesOf(infos: map<string, CommandInfo>, types: seq<string>): (r: seq<string>)
    requires forall t :: t in types ==> t in infos
    ensures |r| == |types|
    ensures forall i :: 0 <= i < |types| ==> r[i] == infos[types[i]].name
  {
    seq(|types|, i requires 0 <= i < |types| => infos[types[i]].name)
  }

  /** Every group's commands are registered commands. */
  predicate GroupsIndexed<G(!new)>(r: Registry<G>) {
    forall g, t :: g in r.groups && t in r.groups[g].commands ==> t in r.infos
  }

  /** A group's help: its blurb, and the ", "-joined names of its
      commands. */
  function GroupHelpOf<G(!new)>(infos: map<string, CommandInfo>, commands: seq<string>, v: Variant,
                                loc: Localizer, keyName: G -> string, g: G): GroupHelpText
    requires forall t :: t in commands ==> t in infos
  {
    GroupHelpText(Message(loc, GroupHelpKey(v, keyName, g)), Join(CommandNamesOf(infos, commands)))
  }

  /** The format text of the general help. */
  function GeneralHelpKey(v: Variant): string {
    CommonKey(v, "Help")
  }

  /** The format text of a group's command list. */
  function CommandListKey(v: Variant): string {
    CommonKey(v, "Help_CommandGroup_Commands")
  }

  /** The texts the help of groups `gs` needs: Kolyma parses each group's
      help text id (IPCommon looks the key up and takes null for a missing
      text), and, as soon as there is a group, both variants format its
      command list with a text that must exist. */
  predicate HelpKeysKnown<G(!new)>(v: Variant, loc: Localizer, keyName: G -> string, gs: seq<G>) {
    && (v.Kolyma? ==> forall j :: 0 <= j < |gs| ==> loc.known(GroupHelpKey(v, keyName, gs[j])))
    && (|gs| > 0 ==> loc.text(CommandListKey(v)).Some?)
  }

  /** The loop of `Initialize_Groups` over the groups from position `i`:
      each group's help is (re)built; Kolyma throws at the first group
      whose help text id does not exist, and both variants throw at the
      first group when the command-list format text is missing. */
  function InitGroupsFrom<G(!new)>(r: Registry<G>, v: Variant, loc: Localizer, keyName: G -> string, i: nat)
    : (r': Result<Registry<G>, RegisterError>)
    requires i <= |r.groupOrder| && GroupsIndexed(r)
    requires forall j :: 0 <= j < |r.groupOrder| ==> r.groupOrder[j] in r.groups
    ensures r'.Success? ==> r'.value == r.(groups := r'.value.groups)
    ensures r'.Failure? ==> i < |r.groupOrder|
    ensures r'.Failure? ==> r'.error == MissingText(CommandListKey(v)) || (v.Kolyma? && r'.error.UnknownTextId?)
    decreases |r.groupOrder| - i
  {
    if i == |r.groupOrder| then Success(r)
    else
      var g := r.groupOrder[i];
      var key := GroupHelpKey(v, keyName, g);
      if v.Kolyma? && !loc.known(key) then Failure(UnknownTextId(key))
      else if loc.text(CommandListKey(v)).None? then Failure(MissingText(CommandListKey(v)))
      else
        var help := GroupHelpOf(r.infos, r.groups[g].commands, v, loc, keyName, g);
        InitGroupsFrom(r.(groups := r.groups[g := r.groups[g].(help := Some(help))]), v, loc, keyName, i + 1)
  }

  /** The loop succeeds exactly when the texts the remaining groups' help
      needs exist; it then gives every remaining group its help and leaves
      the others and all command lists alone. */
  lemma {:induction false} InitGroupsFromSpec<G(!new)>(r: Registry<G>, v: Variant, loc: Localizer,
                                                     keyName: G -> string, i: nat)
    requires i <= |r.groupOrder| && GroupsIndexed(r)
    requires forall j :: 0 <= j < |r.groupOrder| ==> r.groupOrder[j] in r.groups
    ensures InitGroupsFrom(r, v, loc, keyName, i).Success? <==> HelpKeysKnown(v, loc, keyName, r.groupOrder[i..])
    ensures InitGroupsFrom(r, v, loc, keyName, i).Success? ==>
      var r' := InitGroupsFrom(r, v, loc, keyName, i).value;
      && r'.groups.Keys == r.groups.Keys
      && forall g :: g in r.groups ==>
        r'.groups[g] == (if g in r.groupOrder[i..]
                         then GroupInfo(r.groups[g].commands, Some(GroupHelpOf(r.infos, r.groups[g].commands, v, loc, keyName, g)))
                         else r.groups[g])
    decreases |r.groupOrder| - i
  {
    if i < |r.groupOrder| {
      var g := r.groupOrder[i];
      assert r.groupOrder[i..] == [g] + r.groupOrder[i + 1..];
      if v.Kolyma? && !loc.known(GroupHelpKey(v, keyName, g)) {
        assert r.groupOrder[i..][0] == g;
      } else if loc.text(CommandListKey(v)).None? {
      } else {
        var help := GroupHelpOf(r.infos, r.groups[g].commands, v, loc, keyName, g);
        var r1 := r.(groups := r.groups[g := r.groups[g].(help := Some(help))]);
        InitGroupsFromSpec(r1, v, loc, keyName, i + 1);
        assert InitGroupsFrom(r, v, loc, keyName, i) == InitGroupsFrom(r1, v, loc, keyName, i + 1);
        if v.Kolyma? && HelpKeysKnown(v, loc, keyName, r.groupOrder[i + 1..]) {
          var gs := r.groupOrder[i..];
          forall j | 0 <= j < |gs|
            ensures loc.known(GroupHelpKey(v, keyName, gs[j]))
          {
            if j > 0 {
              assert gs[j] == r.groupOrder[i + 1..][j - 1];
            }
          }
        }
        if v.Kolyma? && HelpKeysKnown(v, loc, keyName, r.groupOrder[i..]) {
          var gs := r.groupOrder[i + 1..];
          forall j | 0 <= j < |gs|
            ensures loc.known(GroupHelpKey(v, keyName, gs[j]))
          {
            assert gs[j] == r.groupOrder[i..][j + 1];
          }
        }
      }
    }
  }

  /** `Initialize_Groups`: the general help is formatted from the group list
      the first time only, which throws when the "Help" format text is
      missing; every group's help is (re)built. */
  function InitializeGroups<G(!new)>(r: Registry<G>, v: Variant, loc: Localizer, keyName: G -> string)
    : (r': Result<Registry<G>, RegisterError>)
    requires GroupsIndexed(r)
    requires forall j :: 0 <= j < |r.groupOrder| ==> r.groupOrder[j] in r.groups
    ensures r.generalHelp.None? && loc.text(GeneralHelpKey(v)).None? ==> r' == Failure(MissingText(GeneralHelpKey(v)))
    ensures r'.Success? ==> r'.value.generalHelp == Some(r.generalHelp.GetOr(r.groupList))
    ensures r'.Success? ==> r'.value == r.(groups := r'.value.groups, generalHelp := r'.value.generalHelp)
  {
    if r.generalHelp.None? && loc.text(GeneralHelpKey(v)).None? then Failure(MissingText(GeneralHelpKey(v)))
    else
      var general := if r.generalHelp.None? then Some(r.groupList) else r.generalHelp;
      InitGroupsFrom(r.(generalHelp := general), v, loc, keyName, 0)
  }

  /** `Initialize_Groups` succeeds exactly when the general help is already
      set or its format text exists, and the texts every group's help needs
      exist. */
  lemma InitializeGroupsSucceeds<G(!new)>(r: Registry<G>, v: Variant, loc: Localizer, keyName: G -> string)
    requires GroupsIndexed(r)
    requires forall j :: 0 <= j < |r.groupOrder| ==> r.groupOrder[j] in r.groups
    ensures InitializeGroups(r, v, loc, keyName).Success? <==>
      && (r.generalHelp.Some? || loc.text(GeneralHelpKey(v)).Some?)
      && HelpKeysKnown(v, loc, keyName, r.groupOrder)
  {
    var r0 := r.(generalHelp := Some(r.generalHelp.GetOr(r.groupList)));
    assert r.groupOrder[0..] == r.groupOrder;
    InitGroupsFromSpec(r0, v, loc, keyName, 0);
  }

  // ---------------------------------------------------------------------
  // Kolyma's group key

  /** `ESlashCommandGroup`; `NoGroup` is the enum's `None`, the default of
      `CSlashCommand.CommandGroup`. */
  datatype CommandGroup =
    | NoGroup | Chat | Network | Debug | Lobby | Social | Browse | ProcessControl
    | Logging | Test | Match | MatchUI | Quickmatch

  /** `Enum.GetName` of a group. */
  function GroupName(g: CommandGroup): string {
    match g
    case NoGroup => "None" case Chat => "Chat" case Network => "Network" case Debug => "Debug"
    case Lobby => "Lobby" case Social => "Social" case Browse => "Browse"
    case ProcessControl => "ProcessControl" case Logging => "Logging" case Test => "Test"
    case Match => "Match" case MatchUI => "MatchUI" case Quickmatch => "Quickmatch"
  }

  /** Kolyma's group key: only a command whose group is not `None` joins a
      group. */
  function KolymaGroupKey(g: CommandGroup): (k: Option<CommandGroup>)
    ensures k.Some? <==> g != NoGroup
    ensures k.Some? ==> k.value == g
  {
    if g == NoGroup then None else Some(g)
  }

  // ---------------------------------------------------------------------
  // The registry invariant

  /** Every index points at a registered command. */
  predicate Indexed<G(!new)>(r: Registry<G>) {
    && (forall k :: k in r.byName ==> r.byName[k] in r.infos)
    && (forall k :: k in r.byShortcut ==> r.byShortcut[k] in r.infos)
    && GroupsIndexed(r)
  }

  /** The name and shortcut indexes: non-empty, upper-case, non-numeric
      keys, never both a name and a shortcut, one name per command. */
  ghost predicate NamesValid<G(!new)>(r: Registry<G>) {
    && (forall k :: k in r.byName ==> k !in r.byShortcut)
    && (forall k :: k in r.byName ==> |k| > 0 && IsUpper(k) && ParseInt32(k).None?)
    && (forall k :: k in r.byShortcut ==> |k| > 0 && IsUpper(k) && ParseInt32(k).None?)
    && (forall k1, k2 :: k1 in r.byName && k2 in r.byName && r.byName[k1] == r.byName[k2] ==> k1 == k2)
  }

  /** No element occurs twice. */
  predicate Distinct<T(==)>(s: seq<T>) {
    forall i, j :: 0 <= i < j < |s| ==> s[i] != s[j]
  }

  /** Kolyma indexes every group by its upper-cased label. */
  predicate LabelsIndexed<G(!new)>(r: Registry<G>, v: Variant, loc: Localizer, keyName: G -> string) {
    forall i :: 0 <= i < |r.groupOrder| ==> KolymaIndexed(r, loc, LabelKey(v, keyName, r.groupOrder[i]), r.groupOrder[i])
  }

  /** The groups are the distinct keys of `groupOrder`, whose labels the
      group list holds; Kolyma indexes each by its upper-cased label. */
  ghost predicate GroupsValid<G(!new)>(r: Registry<G>, v: Variant, loc: Localizer, keyName: G -> string) {
    && (forall g :: g in r.groups <==> g in r.groupOrder)
    && Distinct(r.groupOrder)
    && r.groupList == BuildLabels(LabelsOf(v, loc, keyName, r.groupOrder))
    && (v.IpCommon? ==> r.groupsByName == map[])
    && (v.Kolyma? ==> forall n :: n in r.groupsByName ==> r.groupsByName[n] in r.groups)
    && (v.Kolyma? ==> LabelsIndexed(r, v, loc, keyName))
  }

  /** What registration maintains. */
  ghost predicate Valid<G(!new)>(r: Registry<G>, v: Variant, loc: Localizer, keyName: G -> string) {
    Indexed(r) && NamesValid(r) && GroupsValid(r, v, loc, keyName)
  }

  predicate KolymaIndexed<G(!new)>(r: Registry<G>, loc: Localizer, key: string, g: G) {
    loc.text(key).Some? && ToUpper(loc.text(key).value) in r.groupsByName && r.groupsByName[ToUpper(loc.text(key).value)] == g
  }

  lemma EmptyIsValid<G(!new)>(v: Variant, loc: Localizer, keyName: G -> string)
    ensures Valid(EmptyRegistry<G>(), v, loc, keyName)
  {
    assert LabelsOf(v, loc, keyName, []) == [];
  }

  lemma BuildLabelsSnoc(labels: seq<string>, last: string)
    ensures BuildLabels(labels + [last]) == AppendLabel(BuildLabels(labels), last)
  {
    assert (labels + [last])[..|labels|] == labels;
  }

  lemma LabelsSnoc<G(!new)>(v: Variant, loc: Localizer, keyName: G -> string, gs: seq<G>, g: G)
    ensures LabelsOf(v, loc, keyName, gs + [g]) == LabelsOf(v, loc, keyName, gs) + [GroupLabel(v, loc, keyName, g)]
  {
  }

  /** Registration keeps the invariant. */
  lemma RegisterPreservesValid<G(!new)>(r: Registry<G>, v: Variant, loc: Localizer, keyName: G -> string,
                                        d: CommandDecl<G>)
    requires Valid(r, v, loc, keyName)
    requires Register(r, v, loc, keyName, d).Success?
    ensures Valid(Register(r, v, loc, keyName, d).value, v, loc, keyName)
  {
    var names := CommandNames(v, loc, d.textIdSuffix).value;
    var r' := Register(r, v, loc, keyName, d).value;
    assert RegisterNamed(r, v, loc, keyName, d, names) == Success(r');
    RegisterIndexes(r, v, loc, keyName, d, names);
    var upperName := ToUpper(names.name);
    ToUpperIsUpper(names.name);
    var info := CompileDecl(v, loc, d, names.name).value;
    var r1 := AddCommand(r, upperName, names.shortcut, info);
    assert JoinGroup(r1, v, loc, keyName, d.group, d.commandType) == Success(r');
    assert IsUpper(names.shortcut) by {
      if |names.shortcut| > 0 {
        ShortcutIsUpper(v, loc, d.textIdSuffix);
      }
    }
    IndexesStayValid(r, r', upperName, names.shortcut, d.commandType);
    GroupsStayValid(r, r1, r', v, loc, keyName, d.group, d.commandType);
  }

  /** A whole `Initialize_Assembly_Commands` run that throws nothing keeps
      the registry invariant. */
  lemma {:induction false} RegisterAllPreservesValid<G(!new)>(r: Registry<G>, v: Variant, loc: Localizer,
                                                              keyName: G -> string, ds: seq<CommandDecl<G>>)
    requires Valid(r, v, loc, keyName)
    requires RegisterAll(r, v, loc, keyName, ds).Success?
    ensures Valid(RegisterAll(r, v, loc, keyName, ds).value, v, loc, keyName)
    decreases |ds|
  {
    if ds != [] {
      RegisterPreservesValid(r, v, loc, keyName, ds[0]);
      var r1 := Register(r, v, loc, keyName, ds[0]).value;
      RegisterAllPreservesValid(r1, v, loc, keyName, ds[1..]);
    }
  }

  /** Both variants agree on where a command's names come from: the name is
      the localized one when it has a text and the suffix when it has none,
      and a non-empty shortcut is the upper-cased shortcut text. */
  lemma NamesFromTexts(v: Variant, loc: Localizer, suffix: string)
    requires CommandNames(v, loc, suffix).Success?
    ensures var n := CommandNames(v, loc, suffix).value;
      && (loc.text(NameKey(v, suffix)).None? ==> n.name == suffix)
      && (loc.text(NameKey(v, suffix)).Some? && (v.IpCommon? || loc.known(NameKey(v, suffix))) ==>
            n.name == loc.text(NameKey(v, suffix)).value)
      && (n.shortcut != "" ==>
            loc.text(ShortcutKey(v, suffix)).Some? && n.shortcut == ToUpper(loc.text(ShortcutKey(v, suffix)).value))
  {
  }

  lemma ShortcutIsUpper(v: Variant, loc: Localizer, suffix: string)
    requires CommandNames(v, loc, suffix).Success?
    ensures IsUpper(CommandNames(v, loc, suffix).value.shortcut)
  {
    var sc := ShortcutKey(v, suffix);
    if loc.text(sc).Some? {
      ToUpperIsUpper(loc.text(sc).value);
    }
  }

  lemma IndexesStayValid<G(!new)>(r: Registry<G>, r': Registry<G>, upperName: string, shortcut: string, t: string)
    requires Acceptable(r, upperName, shortcut) && IsUpper(upperName) && IsUpper(shortcut) && t !in r.infos
    requires NamesValid(r)
    requires forall k :: k in r.byName ==> r.byName[k] in r.infos
    requires forall k :: k in r.byShortcut ==> r.byShortcut[k] in r.infos
    requires r'.byName == r.byName[upperName := t]
    requires r'.byShortcut == (if |shortcut| > 0 then r.byShortcut[shortcut := t] else r.byShortcut)
    ensures NamesValid(r')
  {
  }

  lemma GroupsStayValid<G(!new)>(r: Registry<G>, r1: Registry<G>, r': Registry<G>, v: Variant, loc: Localizer,
                                 keyName: G -> string, group: Option<G>, t: string)
    requires Indexed(r) && GroupsValid(r, v, loc, keyName)
    requires r1.groups == r.groups && r1.groupOrder == r.groupOrder && r1.groupList == r.groupList
    requires r1.groupsByName == r.groupsByName && t in r1.infos
    requires forall c :: c in r.infos ==> c in r1.infos
    requires forall k :: k in r1.byName ==> r1.byName[k] in r1.infos
    requires forall k :: k in r1.byShortcut ==> r1.byShortcut[k] in r1.infos
    requires JoinGroup(r1, v, loc, keyName, group, t) == Success(r')
    ensures Indexed(r') && GroupsValid(r', v, loc, keyName)
  {
    if group.None? {
    } else if group.value in r.groups {
      JoinExisting(r, r1, r', v, loc, keyName, group.value, t);
    } else {
      JoinNew(r, r1, r', v, loc, keyName, group.value, t);
    }
  }

  lemma JoinExisting<G(!new)>(r: Registry<G>, r1: Registry<G>, r': Registry<G>, v: Variant, loc: Localizer,
                              keyName: G -> string, g: G, t: string)
    requires Indexed(r) && GroupsValid(r, v, loc, keyName)
    requires r1.groups == r.groups && r1.groupOrder == r.groupOrder && r1.groupList == r.groupList
    requires r1.groupsByName == r.groupsByName && t in r1.infos
    requires forall c :: c in r.infos ==> c in r1.infos
    requires forall k :: k in r1.byName ==> r1.byName[k] in r1.infos
    requires forall k :: k in r1.byShortcut ==> r1.byShortcut[k] in r1.infos
    requires g in r.groups
    requires JoinGroup(r1, v, loc, keyName, Some(g), t) == Success(r')
    ensures Indexed(r') && GroupsValid(r', v, loc, keyName)
  {
    assert r' == r1.(groups := r1.groups[g := r1.groups[g].(commands := r1.groups[g].commands + [t])]);
    assert r'.groups.Keys == r.groups.Keys;
    if v.Kolyma? {
      forall i | 0 <= i < |r'.groupOrder|
        ensures KolymaIndexed(r', loc, LabelKey(v, keyName, r'.groupOrder[i]), r'.groupOrder[i])
      {
        assert KolymaIndexed(r, loc, LabelKey(v, keyName, r.groupOrder[i]), r.groupOrder[i]);
      }
    }
  }

  lemma JoinNew<G(!new)>(r: Registry<G>, r1: Registry<G>, r': Registry<G>, v: Variant, loc: Localizer,
                         keyName: G -> string, g: G, t: string)
    requires Indexed(r) && GroupsValid(r, v, loc, keyName)
    requires r1.groups == r.groups && r1.groupOrder == r.groupOrder && r1.groupList == r.groupList
    requires r1.groupsByName == r.groupsByName && t in r1.infos
    requires forall c :: c in r.infos ==> c in r1.infos
    requires forall k :: k in r1.byName ==> r1.byName[k] in r1.infos
    requires forall k :: k in r1.byShortcut ==> r1.byShortcut[k] in r1.infos
    requires g !in r.groups
    requires JoinGroup(r1, v, loc, keyName, Some(g), t) == Success(r')
    ensures Indexed(r') && GroupsValid(r', v, loc, keyName)
  {
    JoinNewIndexed(r, r1, r', v, loc, keyName, g, t);
    JoinNewGroups(r, r1, r', v, loc, keyName, g, t);
  }

  lemma JoinNewIndexed<G(!new)>(r: Registry<G>, r1: Registry<G>, r': Registry<G>, v: Variant, loc: Localizer,
                                keyName: G -> string, g: G, t: string)
    requires Indexed(r) && GroupsValid(r, v, loc, keyName)
    requires r1.groups == r.groups && r1.groupOrder == r.groupOrder && r1.groupList == r.groupList
    requires r1.groupsByName == r.groupsByName && t in r1.infos
    requires forall c :: c in r.infos ==> c in r1.infos
    requires forall k :: k in r1.byName ==> r1.byName[k] in r1.infos
    requires forall k :: k in r1.byShortcut ==> r1.byShortcut[k] in r1.infos
    requires g !in r.groups
    requires JoinGroup(r1, v, loc, keyName, Some(g), t) == Success(r')
    ensures Indexed(r')
  {
    assert r'.groups == r.groups[g := GroupInfo([t], None)];
  }

  lemma JoinNewGroups<G(!new)>(r: Registry<G>, r1: Registry<G>, r': Registry<G>, v: Variant, loc: Localizer,
                               keyName: G -> string, g: G, t: string)
    requires Indexed(r) && GroupsValid(r, v, loc, keyName)
    requires r1.groups == r.groups && r1.groupOrder == r.groupOrder && r1.groupList == r.groupList
    requires r1.groupsByName == r.groupsByName && t in r1.infos
    requires forall c :: c in r.infos ==> c in r1.infos
    requires forall k :: k in r1.byName ==> r1.byName[k] in r1.infos
    requires forall k :: k in r1.byShortcut ==> r1.byShortcut[k] in r1.infos
    requires g !in r.groups
    requires JoinGroup(r1, v, loc, keyName, Some(g), t) == Success(r')
    ensures GroupsValid(r', v, loc, keyName)
  {
    assert r'.groupOrder == r.groupOrder + [g];
    assert r'.groups == r.groups[g := GroupInfo([t], None)];
    assert Distinct(r'.groupOrder);
    LabelsSnoc(v, loc, keyName, r.groupOrder, g);
    BuildLabelsSnoc(LabelsOf(v, loc, keyName, r.groupOrder), GroupLabel(v, loc, keyName, g));
    if v.Kolyma? {
      KolymaNew(r, r', v, loc, keyName, g);
    }
  }

  lemma KolymaNew<G(!new)>(r: Registry<G>, r': Registry<G>, v: Variant, loc: Localizer, keyName: G -> string, g: G)
    requires v.Kolyma? && LabelsIndexed(r, v, loc, keyName)
    requires r'.groupOrder == r.groupOrder + [g]
    requires var caption := loc.text(LabelKey(v, keyName, g));
      && caption.Some?
      && ToUpper(caption.value) !in r.groupsByName
      && r'.groupsByName == r.groupsByName[ToUpper(caption.value) := g]
    ensures LabelsIndexed(r', v, loc, keyName)
  {
    forall i | 0 <= i < |r'.groupOrder|
      ensures KolymaIndexed(r', loc, LabelKey(v, keyName, r'.groupOrder[i]), r'.groupOrder[i])
    {
      if i < |r.groupOrder| {
        assert r'.groupOrder[i] == r.groupOrder[i];
        assert KolymaIndexed(r, loc, LabelKey(v, keyName, r.groupOrder[i]), r.groupOrder[i]);
      }
    }
  }

  // ---------------------------------------------------------------------
  // The group list

  /** When every label is non-empty the group list is exactly the labels
      joined with ", ".  (An empty first label is skipped without a
      separator, an empty later one leaves ", , ".) */
  lemma {:induction false} BuildLabelsIsJoin(labels: seq<string>)
    requires forall i :: 0 <= i < |labels| ==> labels[i] != ""
    ensures BuildLabels(labels) == Join(labels)
    decreases |labels|
  {
    if |labels| > 1 {
      var init := labels[..|labels| - 1];
      BuildLabelsIsJoin(init);
      JoinSnoc(init, labels[|labels| - 1]);
      assert init + [labels[|labels| - 1]] == labels;
      assert |BuildLabels(init)| > 0 by {
        JoinLength(init);
      }
    }
  }

  lemma GroupListIsJoin<G(!new)>(r: Registry<G>, v: Variant, loc: Localizer, keyName: G -> string)
    requires Valid(r, v, loc, keyName)
    requires forall g :: g in r.groupOrder ==> GroupLabel(v, loc, keyName, g) != ""
    ensures r.groupList == Join(LabelsOf(v, loc, keyName, r.groupOrder))
  {
    BuildLabelsIsJoin(LabelsOf(v, loc, keyName, r.groupOrder));
  }

  // ---------------------------------------------------------------------
  // Initialize_Groups

  /** Every group carries the help built from its own commands. */
  predicate HelpBuilt<G(!new)>(r: Registry<G>, v: Variant, loc: Localizer, keyName: G -> string) {
    && GroupsIndexed(r)
    && forall g :: g in r.groups ==>
         r.groups[g] == GroupInfo(r.groups[g].commands, Some(GroupHelpOf(r.infos, r.groups[g].commands, v, loc, keyName, g)))
  }

  /** What `Initialize_Groups` leaves behind: the invariant, every group
      with the help built from its commands, the texts that help needs, and
      the general help set. */
  ghost predicate HelpComplete<G(!new)>(r1: Registry<G>, v: Variant, loc: Localizer, keyName: G -> string) {
    && Valid(r1, v, loc, keyName) && HelpBuilt(r1, v, loc, keyName)
    && (forall g :: g in r1.groups ==> r1.groups[g].help.Some?)
    && HelpKeysKnown(v, loc, keyName, r1.groupOrder) && r1.generalHelp.Some?
  }

  /** A successful `Initialize_Groups` keeps the invariant and leaves every
      group with the help built from its commands. */
  lemma InitializeGroupsBuildsHelp<G(!new)>(r: Registry<G>, r1: Registry<G>, v: Variant, loc: Localizer, keyName: G -> string)
    requires Valid(r, v, loc, keyName)
    requires InitializeGroups(r, v, loc, keyName) == Success(r1)
    ensures HelpComplete(r1, v, loc, keyName)
  {
    GroupsOrdered(r, v, loc, keyName);
    InitializeGroupsRebuilds(r, r1, v, loc, keyName);
    InitializedValid(r, r1, v, loc, keyName);
  }

  /** Under the invariant the group order lists exactly the groups, and
      every group's commands are registered. */
  lemma GroupsOrdered<G(!new)>(r: Registry<G>, v: Variant, loc: Localizer, keyName: G -> string)
    requires Valid(r, v, loc, keyName)
    ensures GroupsIndexed(r)
    ensures forall j :: 0 <= j < |r.groupOrder| ==> r.groupOrder[j] in r.groups
    ensures forall g :: g in r.groups ==> g in r.groupOrder
  {
  }

  /** `Initialize_Groups` over indexed groups changes only the groups' help
      and the general help. */
  lemma InitializeGroupsRebuilds<G(!new)>(r: Registry<G>, r1: Registry<G>, v: Variant, loc: Localizer, keyName: G -> string)
    requires GroupsIndexed(r)
    requires forall j :: 0 <= j < |r.groupOrder| ==> r.groupOrder[j] in r.groups
    requires forall g :: g in r.groups ==> g in r.groupOrder
    requires InitializeGroups(r, v, loc, keyName) == Success(r1)
    ensures r1 == r.(groups := r1.groups, generalHelp := r1.generalHelp)
    ensures r1.groups.Keys == r.groups.Keys
    ensures forall g :: g in r.groups ==> r1.groups[g].commands == r.groups[g].commands
    ensures HelpBuilt(r1, v, loc, keyName)
    ensures forall g :: g in r1.groups ==> r1.groups[g].help.Some?
    ensures HelpKeysKnown(v, loc, keyName, r1.groupOrder) && r1.generalHelp.Some?
  {
    var r0 := r.(generalHelp := Some(r.generalHelp.GetOr(r.groupList)));
    assert InitGroupsFrom(r0, v, loc, keyName, 0) == Success(r1);
    LoopBuildsHelp(r0, r1, v, loc, keyName);
  }

  /** The whole help loop, when it succeeds, builds every group's help and
      changes nothing else. */
  lemma LoopBuildsHelp<G(!new)>(r0: Registry<G>, r1: Registry<G>, v: Variant, loc: Localizer, keyName: G -> string)
    requires GroupsIndexed(r0)
    requires forall j :: 0 <= j < |r0.groupOrder| ==> r0.groupOrder[j] in r0.groups
    requires forall g :: g in r0.groups ==> g in r0.groupOrder
    requires InitGroupsFrom(r0, v, loc, keyName, 0) == Success(r1)
    ensures r1 == r0.(groups := r1.groups)
    ensures r1.groups.Keys == r0.groups.Keys
    ensures forall g :: g in r0.groups ==> r1.groups[g].commands == r0.groups[g].commands
    ensures HelpBuilt(r1, v, loc, keyName)
    ensures forall g :: g in r1.groups ==> r1.groups[g].help.Some?
    ensures HelpKeysKnown(v, loc, keyName, r1.groupOrder)
  {
    assert r0.groupOrder[0..] == r0.groupOrder;
    InitGroupsFromSpec(r0, v, loc, keyName, 0);
  }

  /** Re-building help that is already built changes nothing. */
  lemma RebuildChangesNothing<G(!new)>(r: Registry<G>, v: Variant, loc: Localizer, keyName: G -> string)
    requires HelpBuilt(r, v, loc, keyName)
    requires forall g :: g in r.groups <==> g in r.groupOrder
    requires HelpKeysKnown(v, loc, keyName, r.groupOrder) && r.generalHelp.Some?
    ensures InitializeGroups(r, v, loc, keyName) == Success(r)
  {
    assert r.(generalHelp := r.generalHelp) == r;
    assert r.groupOrder[0..] == r.groupOrder;
    InitGroupsFromSpec(r, v, loc, keyName, 0);
    var r2 := InitGroupsFrom(r, v, loc, keyName, 0).value;
    forall g | g in r.groups
      ensures r2.groups[g] == r.groups[g]
    {
      assert g in r.groupOrder[0..];
    }
    assert r2.groups == r.groups;
  }

  /** A registry that `Initialize_Groups` has finished with: valid, every
      group with its help, and a fixed point of `Initialize_Groups`. */
  ghost predicate Initialized<G(!new)>(r1: Registry<G>, v: Variant, loc: Localizer, keyName: G -> string) {
    && Valid(r1, v, loc, keyName)
    && (forall g :: g in r1.groups ==> r1.groups[g].help.Some?)
    && GroupsIndexed(r1) && (forall j :: 0 <= j < |r1.groupOrder| ==> r1.groupOrder[j] in r1.groups)
    && InitializeGroups(r1, v, loc, keyName) == Success(r1)
  }

  /** After a successful `Initialize_Groups` every group has its help,
      the general help is fixed by the first call, and a second call
      changes nothing. */
  lemma InitializeGroupsIdempotent<G(!new)>(r: Registry<G>, r1: Registry<G>, v: Variant, loc: Localizer, keyName: G -> string)
    requires Valid(r, v, loc, keyName)
    requires InitializeGroups(r, v, loc, keyName) == Success(r1)
    ensures Initialized(r1, v, loc, keyName)
  {
    InitializeGroupsBuildsHelp(r, r1, v, loc, keyName);
    BuiltIsFixed(r1, v, loc, keyName);
  }

  /** A valid registry whose help is built is a fixed point of
      `Initialize_Groups`. */
  lemma BuiltIsFixed<G(!new)>(r1: Registry<G>, v: Variant, loc: Localizer, keyName: G -> string)
    requires HelpComplete(r1, v, loc, keyName)
    ensures Initialized(r1, v, loc, keyName)
  {
    assert forall g :: g in r1.groups <==> g in r1.groupOrder;
    RebuildChangesNothing(r1, v, loc, keyName);
  }

  /** Re-building the help keeps the invariant. */
  lemma InitializedValid<G(!new)>(r: Registry<G>, r1: Registry<G>, v: Variant, loc: Localizer, keyName: G -> string)
    requires Valid(r, v, loc, keyName)
    requires r1 == r.(groups := r1.groups, generalHelp := r1.generalHelp)
    requires r1.groups.Keys == r.groups.Keys
    requires forall g :: g in r.groups ==> r1.groups[g].commands == r.groups[g].commands
    ensures Valid(r1, v, loc, keyName)
  {
    if v.Kolyma? {
      forall i | 0 <= i < |r1.groupOrder|
        ensures KolymaIndexed(r1, loc, LabelKey(v, keyName, r1.groupOrder[i]), r1.groupOrder[i])
      {
        assert KolymaIndexed(r, loc, LabelKey(v, keyName, r.groupOrder[i]), r.groupOrder[i]);
      }
    }
  }
}

=== FILE: resolver.dfy ===
/** Resolution of a typed command word, `Try_Parse`, and the help lookup
    (`Find_Matching_Type`, `Try_Parse`, `Get_Help_String` and
    `Handle_Help_Request` of both slash-command engines).

    The two engines resolve and parse identically; they differ only in the
    help lookup: IPCommon upper-cases its input and looks it up among the
    group keys, Kolyma looks its input up verbatim among the upper-cased
    group captions and leaves the upper-casing to the help command's
    handler. */
module SlashResolver {
  import opened Base
  import opened Text
  import opened Localization
  import opened SlashGrammar
  import opened LineMatcher
  import opened ParamParsing
  import opened SlashRegistry

  // ---------------------------------------------------------------------
  // Find_Matching_Type

  /** Why a command word names no command.  `NoNumericCommand` is the
      exception `Single` throws when a number is typed and no command is
      named "#". */
  datatype ResolveError =
    | UnknownCommand(token: string)
    | AmbiguousCommand(token: string)
    | NoNumericCommand

  /** The names the token is a prefix of (every name when it is empty). */
  function PrefixMatches<G(!new)>(r: Registry<G>, token: string): (m: set<string>)
    ensures forall k :: k in m <==> k in r.byName && IsPrefix(token, k)
  {
    set k | k in r.byName && IsPrefix(token, k)
  }

  lemma SingletonHasOne<T>(s: set<T>, a: T, b: T)
    requires |s| == 1 && a in s && b in s
    ensures a == b
  {
    if a != b {
      SubsetCard({a, b}, s);
    }
  }

  lemma SubsetCard<T>(a: set<T>, b: set<T>)
    requires a <= b
    ensures |a| <= |b|
  {
    assert b == a + (b - a);
  }

  /** `Find_Matching_Type` on the upper-cased command word: an exact
      shortcut wins; otherwise the one name the word is a prefix of; with
      no such name a number resolves to the command named "#". */
  function Resolve<G(!new)>(r: Registry<G>, token: string): (res: Result<string, ResolveError>)
    ensures res.Success? ==>
      || (token in r.byShortcut && res.value == r.byShortcut[token])
      || (exists k :: k in r.byName && IsPrefix(token, k) && res.value == r.byName[k])
      || (ParseInt32(token).Some? && "#" in r.byName && res.value == r.byName["#"])
    ensures res.Failure? ==> token !in r.byShortcut
    ensures res == Failure(AmbiguousCommand(token)) <==> token !in r.byShortcut && |PrefixMatches(r, token)| >= 2
  {
    if token in r.byShortcut then Success(r.byShortcut[token])
    else
      var m := PrefixMatches(r, token);
      if |m| == 1 then
        assert forall a, b | a in m && b in m :: a == b by {
          forall a, b | a in m && b in m
            ensures a == b
          {
            SingletonHasOne(m, a, b);
          }
        }
        var k :| k in m;
        Success(r.byName[k])
      else if |m| == 0 then
        if ParseInt32(token).Some? then
          if "#" in r.byName then Success(r.byName["#"]) else Failure(NoNumericCommand)
        else Failure(UnknownCommand(token))
      else Failure(AmbiguousCommand(token))
  }

  /** A resolved command is a registered one. */
  lemma ResolveIsRegistered<G(!new)>(r: Registry<G>, token: string)
    requires Indexed(r)
    requires Resolve(r, token).Success?
    ensures Resolve(r, token).value in r.infos
  {
  }

  /** A token that is a shortcut resolves to its command, whatever names it
      is a prefix of. */
  lemma ShortcutWins<G(!new)>(r: Registry<G>, token: string)
    requires token in r.byShortcut
    ensures Resolve(r, token) == Success(r.byShortcut[token])
  {
  }

  /** Otherwise the one name the token is a prefix of decides. */
  lemma UniquePrefix<G(!new)>(r: Registry<G>, token: string, k: string)
    requires token !in r.byShortcut && k in r.byName && IsPrefix(token, k)
    requires forall k' :: k' in r.byName && IsPrefix(token, k') ==> k' == k
    ensures Resolve(r, token) == Success(r.byName[k])
  {
    assert PrefixMatches(r, token) == {k};
  }

  /** Two names the token is a prefix of make it ambiguous, even when one of
      them is the token itself ("LOG" with "LOG" and "LOGLEVEL"). */
  lemma AmbiguousEvenIfExact<G(!new)>(r: Registry<G>, token: string, longer: string)
    requires token !in r.byShortcut && token in r.byName
    requires longer in r.byName && longer != token && IsPrefix(token, longer)
    ensures Resolve(r, token) == Failure(AmbiguousCommand(token))
  {
    var m := PrefixMatches(r, token);
    assert token in m && longer in m;
    SubsetCard({token, longer}, m);
  }

  /** A number nothing starts with goes to the command named "#"; without
      one, `Single` throws. */
  lemma NumericFallback<G(!new)>(r: Registry<G>, token: string)
    requires token !in r.byShortcut && PrefixMatches(r, token) == {}
    requires ParseInt32(token).Some?
    ensures "#" in r.byName ==> Resolve(r, token) == Success(r.byName["#"])
    ensures "#" !in r.byName ==> Resolve(r, token) == Failure(NoNumericCommand)
  {
  }

  /** A token that is no shortcut, no prefix of a name and no number is
      unknown. */
  lemma UnknownToken<G(!new)>(r: Registry<G>, token: string)
    requires token !in r.byShortcut && PrefixMatches(r, token) == {}
    requires ParseInt32(token).None?
    ensures Resolve(r, token) == Failure(UnknownCommand(token))
  {
  }

  /** In a valid registry every command is reached by its full name unless
      that name is the prefix of another one. */
  lemma FullNameResolves<G(!new)>(r: Registry<G>, v: Variant, loc: Localizer, keyName: G -> string, name: string)
    requires Valid(r, v, loc, keyName) && name in r.byName
    requires forall k :: k in r.byName && k != name ==> !IsPrefix(name, k)
    ensures Resolve(r, name) == Success(r.byName[name])
  {
    assert name !in r.byShortcut;
    UniquePrefix(r, name, name);
  }

  // ---------------------------------------------------------------------
  // Try_Parse

  /** The failures of `Try_Parse`: no command word (the empty error
      string), an unresolved word, or a parameter error. */
  datatype TryParseError =
    | NoCommandWord
    | Unresolved(resolveCause: ResolveError)
    | BadParameters(parseCause: ParseError)

  /** A parsed command: its type, the upper-cased word it was typed as
      (`On_Command_Name`), and the values given to its properties. */
  datatype ParsedCommand = ParsedCommand(commandType: string, commandName: string, assignments: seq<Assignment>)

  /** `Try_Parse`: the command word, upper-cased and resolved, then the
      line's parameters parsed against the command's grammar. */
  function TryParse<G(!new)>(r: Registry<G>, line: string, reals: RealParsers)
    : (res: Result<ParsedCommand, TryParseError>)
    requires Indexed(r)
    ensures res.Success? ==>
      && CommandWord(line, 0).Some?
      && res.value.commandName == ToUpper(CommandWord(line, 0).value)
      && res.value.commandType in r.infos
      && Resolve(r, res.value.commandName) == Success(res.value.commandType)
      && ParseParameters(r.infos[res.value.commandType], line, reals) == Success(res.value.assignments)
    ensures res == Failure(NoCommandWord) <==> CommandWord(line, 0).None?
  {
    if CommandWord(line, 0).None? then Failure(NoCommandWord)
    else
      var name := ToUpper(CommandWord(line, 0).value);
      var resolved := Resolve(r, name);
      if resolved.Failure? then Failure(Unresolved(resolved.error))
      else
        var parsed := ParseParameters(r.infos[resolved.value], line, reals);
        if parsed.Failure? then Failure(BadParameters(parsed.error))
        else Success(ParsedCommand(resolved.value, name, parsed.value))
  }

  /** The failures of `Try_Parse` after the command word, in order: the
      upper-cased word does not resolve, or the line's parameters do not
      parse against the resolved command's grammar. */
  lemma TryParseFailures<G(!new)>(r: Registry<G>, line: string, reals: RealParsers)
    requires Indexed(r) && CommandWord(line, 0).Some?
    ensures var res := Resolve(r, ToUpper(CommandWord(line, 0).value));
      res.Failure? ==> TryParse(r, line, reals) == Failure(Unresolved(res.error))
    ensures var res := Resolve(r, ToUpper(CommandWord(line, 0).value));
      res.Success? && ParseParameters(r.infos[res.value], line, reals).Failure? ==>
        TryParse(r, line, reals) == Failure(BadParameters(ParseParameters(r.infos[res.value], line, reals).error))
  {
  }

  // ---------------------------------------------------------------------
  // Get_Help_String

  /** What `Get_Help_String` returns: a group's help (null before
      `Initialize_Groups`), a command's help, the bad-input message built
      from the input as typed and the general help, or the general help. */
  datatype HelpReply =
    | GroupReply(groupHelp: Option<GroupHelpText>)
    | CommandReply(commandHelp: HelpText)
    | BadInput(input: string, general: Option<string>)
    | GeneralReply(general: Option<string>)

  /** IPCommon: the input upper-cased is looked up as a group key, then as a
      command name; the empty input asks for the general help. */
  function HelpIp(r: Registry<string>, input: string): (h: HelpReply)
    requires Indexed(r)
    ensures |input| == 0 <==> h.GeneralReply?
    ensures h.GroupReply? <==> |input| > 0 && ToUpper(input) in r.groups
    ensures h.CommandReply? <==> |input| > 0 && ToUpper(input) !in r.groups && ToUpper(input) in r.byName
    ensures h.BadInput? ==> h == BadInput(input, r.generalHelp)
    ensures h.GeneralReply? ==> h.general == r.generalHelp
  {
    if |input| == 0 then GeneralReply(r.generalHelp)
    else
      var key := ToUpper(input);
      if key in r.groups then GroupReply(r.groups[key].help)
      else if key in r.byName then CommandReply(r.infos[r.byName[key]].help)
      else BadInput(input, r.generalHelp)
  }

  /** IPCommon's lookup ignores case: two spellings of the same word get the
      same group or command help. */
  lemma HelpIpIgnoresCase(r: Registry<string>, a: string, b: string)
    requires Indexed(r) && |a| > 0 && ToUpper(a) == ToUpper(b)
    requires HelpIp(r, a).GroupReply? || HelpIp(r, a).CommandReply?
    ensures HelpIp(r, b) == HelpIp(r, a)
  {
    assert |b| == |a|;
  }

  /** A group key that is also a command name gives the group's help. */
  lemma HelpIpGroupFirst(r: Registry<string>, input: string)
    requires Indexed(r) && |input| > 0 && ToUpper(input) in r.groups
    ensures HelpIp(r, input) == GroupReply(r.groups[ToUpper(input)].help)
  {
  }

  /** Kolyma's groups-by-caption index points at known groups. */
  predicate CaptionsIndexed<G(!new)>(r: Registry<G>) {
    forall n :: n in r.groupsByName ==> r.groupsByName[n] in r.groups
  }

  /** Kolyma: the input is looked up verbatim among the upper-cased group
      captions, then among the upper-case command names. */
  function HelpKolyma<G(!new)>(r: Registry<G>, input: string): (h: HelpReply)
    requires Indexed(r) && CaptionsIndexed(r)
    ensures |input| == 0 <==> h.GeneralReply?
    ensures h.GroupReply? <==> |input| > 0 && input in r.groupsByName
    ensures h.GroupReply? ==> h.groupHelp == r.groups[r.groupsByName[input]].help
    ensures h.CommandReply? <==> |input| > 0 && input !in r.groupsByName && input in r.byName
    ensures h.CommandReply? ==> h.commandHelp == r.infos[r.byName[input]].help
    ensures h.BadInput? ==> h == BadInput(input, r.generalHelp)
    ensures h.GeneralReply? ==> h.general == r.generalHelp
  {
    if |input| == 0 then GeneralReply(r.generalHelp)
    else if input in r.groupsByName then GroupReply(r.groups[r.groupsByName[input]].help)
    else if input in r.byName then CommandReply(r.infos[r.byName[input]].help)
    else BadInput(input, r.generalHelp)
  }

  /** `Handle_Help_Request`: the help command's argument upper-cased, then
      looked up. */
  function HandleHelpRequest<G(!new)>(r: Registry<G>, argument: string): (h: HelpReply)
    requires Indexed(r) && CaptionsIndexed(r)
  {
    HelpKolyma(r, ToUpper(argument))
  }

  /** Kolyma's lookup itself is case-sensitive: the lower-case spelling of
      a command name that is no caption is bad input. */
  lemma HelpKolymaIsCaseSensitive<G(!new)>(r: Registry<G>, input: string)
    requires Indexed(r) && CaptionsIndexed(r) && |input| > 0
    requires input !in r.groupsByName && input !in r.byName && ToUpper(input) in r.byName
    ensures HelpKolyma(r, input) == BadInput(input, r.generalHelp)
    ensures HandleHelpRequest(r, input) != BadInput(input, r.generalHelp)
  {
    assert |ToUpper(input)| == |input|;
  }

  /** Through the help command a group is found by its caption typed in any
      case. */
  lemma HelpFindsGroupByCaption<G(!new)>(r: Registry<G>, v: Variant, loc: Localizer, keyName: G -> string,
                                          g: G, typed: string)
    requires Valid(r, v, loc, keyName) && v.Kolyma? && g in r.groups
    requires var caption := loc.text(LabelKey(v, keyName, g));
      caption.Some? && ToUpper(typed) == ToUpper(caption.value) && |typed| > 0
    ensures HandleHelpRequest(r, typed) == GroupReply(r.groups[g].help)
  {
    var i :| 0 <= i < |r.groupOrder| && r.groupOrder[i] == g;
    assert KolymaIndexed(r, loc, LabelKey(v, keyName, r.groupOrder[i]), r.groupOrder[i]);
    assert |ToUpper(typed)| == |typed|;
  }
}

=== FILE: resources_ip.dfy ===
/** The IPCommon `CResourceManager`: one flat table from upper-cased
    resource names (`TEXT_SOMETHING`) to text values.  Loading classifies
    each name by its type prefix, restores escaped control characters and
    rejects a second name equal to the first ignoring case; lookup builds the
    key from the type prefix and the upper-cased name, and gives null when it
    is absent.

    A resource set is modelled as its entries in enumeration order; the
    enums the verification step reflects over are given as their member
    names in `Enum.GetNames` order (ascending unsigned value). */
module IpResources {
  import opened Base
  import opened Text
  import opened Escapes
  import opened SlashGrammar

  /** `EResourceType`. */
  datatype ResourceType = InvalidResource | TextResource | ImageResource

  /** `resource_type.ToString()`. */
  function TypeName(t: ResourceType): string {
    match t
    case InvalidResource => "Invalid"
    case TextResource => "Text"
    case ImageResource => "Image"
  }

  /** The prefix table the constructor fills: every type but `Invalid`, in
      `Enum.GetValues` order (ascending unsigned value, where `Invalid = -1`
      would come last), with its upper-cased name. */
  const Prefixes: seq<(ResourceType, string)> := [(TextResource, "TEXT"), (ImageResource, "IMAGE")]

  /** `m_ResourceTypePrefixes[ t ]`; `None` where the indexer throws. */
  function PrefixOf(t: ResourceType): (r: Option<string>)
    ensures r.Some? <==> t != InvalidResource
    ensures r.Some? ==> r.value == ToUpper(TypeName(t))
  {
    match t
    case InvalidResource => None
    case TextResource => Some("TEXT")
    case ImageResource => Some("IMAGE")
  }

  datatype ResourceManager = ResourceManager(resources: map<string, string>)

  const EmptyManager := ResourceManager(map[])

  datatype ResourceEntry = ResourceEntry(name: string, value: string)

  /** The exceptions: the two `CResourceException`s of loading, the one of
      enum verification, and the runtime exceptions of the code paths that
      index past a string's end, look up the `Invalid` prefix, or upper-case
      the null name of an undeclared enum value. */
  datatype ResourceError =
    | DuplicateKey(key: string)
    | UnknownType(key: string)
    | MissingResource(typeName: string, enumName: string, entry: string)
    | NameShorterThanPrefix(name: string)
    | NoPrefix(resourceType: ResourceType)
    | NoEnumName(id: int)
    | NotAnEnum

  /** `Build_Resource_Key`: the type prefix, an underscore, the upper-cased
      name. */
  function BuildResourceKey(prefix: string, name: string): string {
    prefix + "_" + ToUpper(name)
  }

  /** Upper-casing distributes over concatenation. */
  lemma ToUpperAppend(a: string, b: string)
    ensures ToUpper(a + b) == ToUpper(a) + ToUpper(b)
  {
    assert forall i :: 0 <= i < |a + b| ==> ToUpper(a + b)[i] == (ToUpper(a) + ToUpper(b))[i];
  }

  // ---------------------------------------------------------------------
  // Get_Resource_Type_From_Name

  /** The prefix loop from entry `i`: the first prefix that the name's head
      equals ignoring case.  `Substring(0, prefix.Length)` throws when the
      name is shorter than the prefix being tried. */
  function TypeFromNameFrom(name: string, i: nat): Result<ResourceType, ResourceError>
    requires i <= |Prefixes|
    decreases |Prefixes| - i
  {
    if i == |Prefixes| then Success(InvalidResource)
    else
      var prefix := Prefixes[i].1;
      if |name| < |prefix| then Failure(NameShorterThanPrefix(name))
      else if EqualsIgnoreCase(name[..|prefix|], prefix) then Success(Prefixes[i].0)
      else TypeFromNameFrom(name, i + 1)
  }

  function TypeFromName(name: string): Result<ResourceType, ResourceError> {
    TypeFromNameFrom(name, 0)
  }

  /** A name is Text when it opens with "TEXT" in any case, otherwise Image
      when it opens with "IMAGE", otherwise of no type; a name too short for
      a prefix it reaches throws. */
  lemma TypeFromNameCases(name: string)
    ensures TypeFromName(name) == Success(TextResource) <==>
      |name| >= 4 && EqualsIgnoreCase(name[..4], "TEXT")
    ensures TypeFromName(name) == Success(ImageResource) <==>
      |name| >= 5 && !EqualsIgnoreCase(name[..4], "TEXT") && EqualsIgnoreCase(name[..5], "IMAGE")
    ensures TypeFromName(name) == Success(InvalidResource) <==>
      |name| >= 5 && !EqualsIgnoreCase(name[..4], "TEXT") && !EqualsIgnoreCase(name[..5], "IMAGE")
    ensures TypeFromName(name).Failure? <==>
      |name| < 4 || (|name| == 4 && !EqualsIgnoreCase(name, "TEXT"))
  {
    assert Prefixes[0].1 == "TEXT" && Prefixes[1].1 == "IMAGE";
    if |name| == 4 {
      assert name[..4] == name;
    }
  }

  // ---------------------------------------------------------------------
  // Create_And_Add_Resource, Initialize_Assembly_Resources

  /** `Create_And_Add_Resource`: stores the value under the upper-cased
      name; a name whose upper-cased form is already stored throws. */
  function CreateAndAddResource(m: ResourceManager, name: string, value: string): (r: Result<ResourceManager, ResourceError>)
    ensures r.Failure? <==> ToUpper(name) in m.resources
    ensures r.Failure? ==> r.error == DuplicateKey(ToUpper(name))
    ensures r.Success? ==>
      && r.value.resources.Keys == m.resources.Keys + {ToUpper(name)}
      && r.value.resources[ToUpper(name)] == value
      && forall k :: k in m.resources ==> r.value.resources[k] == m.resources[k]
  {
    var key := ToUpper(name);
    if key in m.resources then Failure(DuplicateKey(key))
    else Success(m.(resources := m.resources[key := value]))
  }

  /** One entry of the resource set: a Text entry is stored with its escapes
      restored; an entry of any other type throws. */
  function LoadEntry(m: ResourceManager, e: ResourceEntry): Result<ResourceManager, ResourceError> {
    var t :- TypeFromName(e.name);
    if t == TextResource then CreateAndAddResource(m, e.name, Unescape(e.value))
    else Failure(UnknownType(e.name))
  }

  /** The table after loading, and the exception that ended the load early,
      if any; entries stored before it stay stored. */
  datatype Loaded = Loaded(manager: ResourceManager, thrown: Option<ResourceError>)

  /** `Initialize_Assembly_Resources`: the entries in order. */
  function InitializeAssemblyResources(m: ResourceManager, entries: seq<ResourceEntry>): Loaded
    decreases |entries|
  {
    if entries == [] then Loaded(m, None)
    else
      match LoadEntry(m, entries[0])
      case Failure(e) => Loaded(m, Some(e))
      case Success(m1) => InitializeAssemblyResources(m1, entries[1..])
  }

  /** `n` keeps every entry of `m`. */
  predicate Keeps(m: ResourceManager, n: ResourceManager) {
    forall k :: k in m.resources ==> k in n.resources && n.resources[k] == m.resources[k]
  }

  predicate KeysUpper(m: ResourceManager) {
    forall k :: k in m.resources ==> IsUpper(k)
  }

  /** Every stored key is upper-case, thrown or not. */
  lemma {:induction false} KeysStayUpper(m: ResourceManager, entries: seq<ResourceEntry>)
    requires KeysUpper(m)
    ensures KeysUpper(InitializeAssemblyResources(m, entries).manager)
    decreases |entries|
  {
    if entries != [] {
      var r := LoadEntry(m, entries[0]);
      if r.Success? {
        ToUpperIsUpper(entries[0].name);
        KeysStayUpper(r.value, entries[1..]);
      }
    }
  }

  /** A load that throws nothing has stored every entry, under its
      upper-cased name, with its escapes restored; every entry was Text. */
  lemma {:induction false} LoadedEntriesStored(m: ResourceManager, entries: seq<ResourceEntry>)
    requires InitializeAssemblyResources(m, entries).thrown.None?
    ensures forall k :: 0 <= k < |entries| ==>
      && TypeFromName(entries[k].name) == Success(TextResource)
      && ToUpper(entries[k].name) in InitializeAssemblyResources(m, entries).manager.resources
      && InitializeAssemblyResources(m, entries).manager.resources[ToUpper(entries[k].name)] == Unescape(entries[k].value)
    decreases |entries|
  {
    if entries != [] {
      var m1 := LoadEntry(m, entries[0]).value;
      var rest := entries[1..];
      LoadedEntriesStored(m1, rest);
      LoadingOnlyAdds(m1, rest);
      forall k | 0 <= k < |entries|
        ensures TypeFromName(entries[k].name) == Success(TextResource)
        ensures ToUpper(entries[k].name) in InitializeAssemblyResources(m, entries).manager.resources
        ensures InitializeAssemblyResources(m, entries).manager.resources[ToUpper(entries[k].name)] == Unescape(entries[k].value)
      {
        if k > 0 {
          assert entries[k] == rest[k - 1];
        }
      }
    }
  }

  /** Loading only adds: entries stored earlier survive, thrown or not. */
  lemma {:induction false} LoadingOnlyAdds(m: ResourceManager, entries: seq<ResourceEntry>)
    ensures Keeps(m, InitializeAssemblyResources(m, entries).manager)
    decreases |entries|
  {
    if entries != [] {
      var r := LoadEntry(m, entries[0]);
      if r.Success? {
        LoadingOnlyAdds(r.value, entries[1..]);
      }
    }
  }

  /** Two names equal ignoring case cannot both be loaded: the second
      throws the duplicate-key exception. */
  lemma DuplicateIgnoringCaseThrows(m: ResourceManager, first: ResourceEntry, second: ResourceEntry)
    requires LoadEntry(m, first).Success?
    requires TypeFromName(second.name) == Success(TextResource)
    requires EqualsIgnoreCase(first.name, second.name)
    ensures InitializeAssemblyResources(m, [first, second]).thrown == Some(DuplicateKey(ToUpper(second.name)))
  {
    var m1 := LoadEntry(m, first).value;
    assert [first, second][1..] == [second];
    assert [second][1..] == [];
  }

  // ---------------------------------------------------------------------
  // Get_Text

  /** `Get_Text( string )`: the value under the Text key built from the
      name; null when there is none. */
  function GetText(m: ResourceManager, textKey: string): (r: Option<string>)
    ensures r.None? <==> BuildResourceKey("TEXT", textKey) !in m.resources
    ensures r.Some? ==> r.value == m.resources[BuildResourceKey("TEXT", textKey)]
  {
    var key := BuildResourceKey("TEXT", textKey);
    if key in m.resources then Some(m.resources[key]) else None
  }

  /** `Enum.GetName`: the name of a member with the value, or null when no
      member has it.  .NET promises no particular member when several share
      the value; the model takes the first in `Enum.GetNames` order. */
  function EnumName(members: seq<EnumMember>, id: int): (r: Option<string>)
    ensures r.None? <==> forall j :: 0 <= j < |members| ==> members[j].value != id
    ensures r.Some? ==> exists j :: 0 <= j < |members| && members[j].value == id && members[j].name == r.value
  {
    if members == [] then None
    else if members[0].value == id then Some(members[0].name)
    else
      var r := EnumName(members[1..], id);
      assert forall j :: 1 <= j < |members| ==> members[j] == members[1..][j - 1];
      if r.Some? then
        assert exists j :: 0 <= j < |members[1..]| && members[1..][j].value == id && members[1..][j].name == r.value;
        r
      else r
  }

  /** `Get_Text< T >( text_id )`: the text under the id's enum name; a value
      no member of `T` has has a null name, and upper-casing it throws. */
  function GetTextById(m: ResourceManager, members: seq<EnumMember>, id: int): (r: Result<Option<string>, ResourceError>)
    ensures r.Failure? <==> EnumName(members, id).None?
    ensures r.Success? ==> r.value == GetText(m, EnumName(members, id).value)
  {
    match EnumName(members, id)
    case None => Failure(NoEnumName(id))
    case Some(name) => Success(GetText(m, name))
  }

  /** Loading and lookup agree: a loaded resource named `Text_<name>`, with
      the prefix in any case, is found by `Get_Text` under `<name>` in any
      case, with its escapes restored. */
  lemma LoadThenGetText(m: ResourceManager, entries: seq<ResourceEntry>, k: nat, prefix: string, name: string, asked: string)
    requires InitializeAssemblyResources(m, entries).thrown.None?
    requires k < |entries| && entries[k].name == prefix + "_" + name
    requires EqualsIgnoreCase(prefix, "TEXT") && EqualsIgnoreCase(asked, name)
    ensures GetText(InitializeAssemblyResources(m, entries).manager, asked) == Some(Unescape(entries[k].value))
  {
    LoadedEntriesStored(m, entries);
    ToUpperAppend(prefix + "_", name);
    ToUpperAppend(prefix, "_");
    assert ToUpper("_") == "_";
    assert ToUpper("TEXT") == "TEXT";
    assert ToUpper(entries[k].name) == BuildResourceKey("TEXT", asked);
  }

  /** Loading and lookup by id agree: after a clean load, the resource
      named `Text_<name>` is found by the id of member `<name>`, when no
      other member has the same value. */
  lemma LoadThenGetTextById(m: ResourceManager, entries: seq<ResourceEntry>, k: nat, members: seq<EnumMember>, j: nat)
    requires InitializeAssemblyResources(m, entries).thrown.None?
    requires k < |entries| && j < |members| && entries[k].name == "Text_" + members[j].name
    requires forall i :: 0 <= i < |members| && i != j ==> members[i].value != members[j].value
    ensures GetTextById(InitializeAssemblyResources(m, entries).manager, members, members[j].value)
      == Success(Some(Unescape(entries[k].value)))
  {
    TextPrefixMatches();
    assert EqualsIgnoreCase(members[j].name, members[j].name);
    LoadThenGetText(m, entries, k, "Text", members[j].name, members[j].name);
    EnumNameFirst(members, j);
  }

  lemma TextPrefixMatches()
    ensures EqualsIgnoreCase("Text", "TEXT")
  {
    assert ToUpper("Text") == "TEXT";
  }

  /** The model's `EnumName` gives the first member with the value. */
  lemma {:induction false} EnumNameFirst(members: seq<EnumMember>, j: nat)
    requires j < |members| && forall i :: 0 <= i < j ==> members[i].value != members[j].value
    ensures EnumName(members, members[j].value) == Some(members[j].name)
  {
    if j > 0 {
      var tail := members[1..];
      assert tail[j - 1] == members[j];
      forall i | 0 <= i < j - 1 ensures tail[i].value != tail[j - 1].value {
        assert tail[i] == members[i + 1];
      }
      EnumNameFirst(tail, j - 1);
    }
  }

  // ---------------------------------------------------------------------
  // The wrapper the slash-command engine calls

  /** The argument of `CCommonResource.Get_Text( text_id )`: a member of a
      text-id enum, or a plain string key.  The wrapper has only the
      generic overloads, so a string key makes C# infer `T = string`. */
  datatype TextId = EnumTextId(members: seq<EnumMember>, value: int) | StringTextId(key: string)

  /** `CCommonResource.Get_Text< T >( text_id )` as written: it forwards to
      `CResourceManager.Get_Text< T >`, whose `Build_Resource_Key< T >`
      calls `Enum.GetName( typeof( T ), … )`, and that throws
      `ArgumentException` when `T` is `string`. */
  function CommonGetText(m: ResourceManager, id: TextId): Result<Option<string>, ResourceError> {
    match id
    case StringTextId(_) => Failure(NotAnEnum)
    case EnumTextId(members, value) => GetTextById(m, members, value)
  }

  /** The string-keyed wrapper call never reaches a loaded text: after a
      clean load, `Text_<name>` is there under `<name>` for the string
      overload `Get_Text( string )`, yet the wrapper call with the same key
      throws. */
  lemma StringKeyedWrapperThrows(m: ResourceManager, entries: seq<ResourceEntry>, k: nat, name: string)
    requires InitializeAssemblyResources(m, entries).thrown.None?
    requires k < |entries| && entries[k].name == "Text_" + name
    ensures var loaded := InitializeAssemblyResources(m, entries).manager;
      && GetText(loaded, name) == Some(Unescape(entries[k].value))
      && CommonGetText(loaded, StringTextId(name)) == Failure(NotAnEnum)
  {
    TextPrefixMatches();
    assert EqualsIgnoreCase(name, name);
    LoadThenGetText(m, entries, k, "Text", name, name);
  }

  /** Nothing is found before anything is loaded. */
  lemma EmptyManagerFindsNothing(key: string)
    ensures GetText(EmptyManager, key).None?
  {
  }

  // ---------------------------------------------------------------------
  // Verify_Resource_Enum(s)

  /** Enum entries that need no resource. */
  predicate Exempt(entry: string) {
    ToUpper(entry) == "INVALID" || ToUpper(entry) == "NONE"
  }

  /** The entry `names[i]` has its resource. */
  predicate HasResource(m: ResourceManager, prefix: string, entry: string) {
    BuildResourceKey(prefix, entry) in m.resources
  }

  /** `Verify_Resource_Enum` from entry `i`: every entry not named Invalid
      or None (in any case) must have a resource of the enum's type;
      `None` when all do. */
  function VerifyResourceEnumFrom(m: ResourceManager, enumName: string, names: seq<string>, t: ResourceType, i: nat)
    : Option<ResourceError>
    requires i <= |names|
    decreases |names| - i
  {
    if i == |names| then None
    else if Exempt(names[i]) then VerifyResourceEnumFrom(m, enumName, names, t, i + 1)
    else match PrefixOf(t)
      case None => Some(NoPrefix(t))
      case Some(prefix) =>
        if !HasResource(m, prefix, names[i]) then Some(MissingResource(TypeName(t), enumName, names[i]))
        else VerifyResourceEnumFrom(m, enumName, names, t, i + 1)
  }

  function VerifyResourceEnum(m: ResourceManager, enumName: string, names: seq<string>, t: ResourceType): Option<ResourceError> {
    VerifyResourceEnumFrom(m, enumName, names, t, 0)
  }

  /** An enum passes exactly when each of its non-exempt entries has a
      resource of the attributed type; a failure names the first entry that
      has none. */
  lemma {:induction false} VerifyResourceEnumSpec(m: ResourceManager, enumName: string, names: seq<string>, t: ResourceType, i: nat)
    requires i <= |names|
    ensures VerifyResourceEnumFrom(m, enumName, names, t, i).None? <==>
      forall j :: i <= j < |names| && !Exempt(names[j]) ==> PrefixOf(t).Some? && HasResource(m, PrefixOf(t).value, names[j])
    ensures VerifyResourceEnumFrom(m, enumName, names, t, i).Some? && t != InvalidResource ==>
      exists j :: i <= j < |names| && !Exempt(names[j]) && !HasResource(m, PrefixOf(t).value, names[j]) &&
        VerifyResourceEnumFrom(m, enumName, names, t, i) == Some(MissingResource(TypeName(t), enumName, names[j]))
    decreases |names| - i
  {
    if i < |names| {
      VerifyResourceEnumSpec(m, enumName, names, t, i + 1);
    }
  }

  /** A type of the scanned assembly: whether it is an enum, its entry
      names, and the type of its `[Resource]` attribute, if it has one. */
  datatype TypeDecl = TypeDecl(name: string, isEnum: bool, names: seq<string>, attribute: Option<ResourceType>)

  /** `Verify_Resource_Enums` as written: non-enum types are skipped, but
      the first enum without a `[Resource]` attribute ends the whole scan. */
  function VerifyResourceEnumsAsWritten(m: ResourceManager, types: seq<TypeDecl>): Option<ResourceError>
    decreases |types|
  {
    if types == [] then None
    else
      var ty := types[0];
      if !ty.isEnum then VerifyResourceEnumsAsWritten(m, types[1..])
      else if ty.attribute.None? then None
      else
        var failed := VerifyResourceEnum(m, ty.name, ty.names, ty.attribute.value);
        if failed.Some? then failed else VerifyResourceEnumsAsWritten(m, types[1..])
  }

  /** `Verify_Resource_Enums` with an unattributed enum skipped like a
      non-enum type. */
  function VerifyResourceEnums(m: ResourceManager, types: seq<TypeDecl>): Option<ResourceError>
    decreases |types|
  {
    if types == [] then None
    else
      var ty := types[0];
      if !ty.isEnum || ty.attribute.None? then VerifyResourceEnums(m, types[1..])
      else
        var failed := VerifyResourceEnum(m, ty.name, ty.names, ty.attribute.value);
        if failed.Some? then failed else VerifyResourceEnums(m, types[1..])
  }

  /** An attributed enum whose entries all have resources. */
  predicate EnumCovered(m: ResourceManager, ty: TypeDecl) {
    ty.isEnum && ty.attribute.Some? ==> VerifyResourceEnum(m, ty.name, ty.names, ty.attribute.value).None?
  }

  /** The scan passes exactly when every attributed enum of the assembly is
      covered. */
  lemma {:induction false} VerifyResourceEnumsSpec(m: ResourceManager, types: seq<TypeDecl>)
    ensures VerifyResourceEnums(m, types).None? <==> forall i :: 0 <= i < |types| ==> EnumCovered(m, types[i])
    decreases |types|
  {
    if types != [] {
      VerifyResourceEnumsSpec(m, types[1..]);
      assert forall i :: 1 <= i < |types| ==> types[i] == types[1..][i - 1];
    }
  }

  /** As written, an enum without the attribute hides every enum after it:
      here the second enum's entry `Greeting` has no resource, yet the scan
      passes. */
  lemma UnattributedEnumHidesTheRest()
    ensures var types := [TypeDecl("EPlain", true, ["A"], None), TypeDecl("ETextID", true, ["Greeting"], Some(TextResource))];
      && VerifyResourceEnumsAsWritten(EmptyManager, types).None?
      && VerifyResourceEnums(EmptyManager, types) == Some(MissingResource("Text", "ETextID", "Greeting"))
  {
    var types := [TypeDecl("EPlain", true, ["A"], None), TypeDecl("ETextID", true, ["Greeting"], Some(TextResource))];
    assert types[1..] == [TypeDecl("ETextID", true, ["Greeting"], Some(TextResource))];
    assert !Exempt("Greeting") by {
      assert ToUpper("Greeting")[0] == 'G';
    }
  }
}

=== FILE: resources_kolyma.dfy ===
/** The Kolyma `CResourceManager`: for each text-id enum `T`, a table from
    the enum's unsigned values to texts.  Loading a resource set for `T` and
    a resource type keeps only the names `<Type>_<member>` (case-sensitive
    type name), parses the member part as a `T` (ignoring case, or as a
    number), and rejects a second resource for the same value; lookup gives
    null when `T` has no table or the value no text.

    The enum `T` is given as its name and its members, listed in
    `Enum.GetNames` order (ascending unsigned value); its table is keyed by
    its name. */
module KolymaResources {
  import opened Base
  import opened Text
  import opened Escapes
  import opened SlashGrammar
  import opened ParamParsing

  /** `EResourceType`. */
  datatype ResourceKind = InvalidKind | TextKind | ImageKind

  function KindName(k: ResourceKind): string {
    match k
    case InvalidKind => "Invalid"
    case TextKind => "Text"
    case ImageKind => "Image"
  }

  /** The literal head of the name pattern `^<Type>_(.+)` the constructor
      compiles for every type but `Invalid`; `None` where the pattern table
      has no entry and its indexer throws. */
  function NamePrefix(k: ResourceKind): (r: Option<string>)
    ensures r.Some? <==> k != InvalidKind
    ensures r.Some? ==> r.value == KindName(k) + "_"
  {
    if k == InvalidKind then None else Some(KindName(k) + "_")
  }

  /** `typeof( T )`: the enum's name and members. */
  datatype EnumDecl = EnumDecl(name: string, members: seq<EnumMember>)

  datatype ResourceManager = ResourceManager(tables: map<string, map<nat, string>>)

  const EmptyManager := ResourceManager(map[])

  datatype ResourceEntry = ResourceEntry(name: string, value: string)

  /** The `CApplicationException`s of loading (a suffix that is not a
      member of `T`, a negative member value, a second resource for one
      value), the pattern lookup for `Invalid`, and `ToUInt32` of a negative
      id at lookup. */
  datatype ResourceError =
    | NoPattern(kind: ResourceKind)
    | CastFailure(name: string, enumType: string)
    | IndexOverflow(name: string, enumType: string)
    | DuplicateIndex(name: string, enumType: string)
    | NegativeId(id: int)

  // ---------------------------------------------------------------------
  // The name pattern

  /** What `.+` can take: the text up to the first newline. */
  function LineHead(s: string): (r: string)
    ensures |r| <= |s| && r == s[..|r|]
    ensures '\n' !in r
    ensures |r| < |s| ==> s[|r|] == '\n'
    decreases |s|
  {
    if s == [] || s[0] == '\n' then []
    else [s[0]] + LineHead(s[1..])
  }

  /** Group 1 of `^<Type>_(.+)`: the name must start with the prefix as
      written (case matters) and go on with at least one character that is
      not a newline; the capture runs to the first newline. */
  function Captured(name: string, prefix: string): (r: Option<string>)
    ensures r.Some? <==> IsPrefix(prefix, name) && |name| > |prefix| && name[|prefix|] != '\n'
    ensures r.Some? ==> r.value == LineHead(name[|prefix|..]) && r.value != []
  {
    if !IsPrefix(prefix, name) then None
    else
      var c := LineHead(name[|prefix|..]);
      if c == [] then None else Some(c)
  }

  /** A name is captured whole after its prefix when it has no newline. */
  lemma CapturedPlainName(prefix: string, member: string)
    requires member != [] && '\n' !in member
    ensures Captured(prefix + member, prefix) == Some(member)
  {
    var name := prefix + member;
    assert name[..|prefix|] == prefix;
    assert name[|prefix|..] == member;
    LineHeadPlain(member);
  }

  lemma {:induction false} LineHeadPlain(s: string)
    requires '\n' !in s
    ensures LineHead(s) == s
    decreases |s|
  {
    if s != [] {
      assert '\n' !in s[1..];
      LineHeadPlain(s[1..]);
      assert s == [s[0]] + s[1..];
    }
  }

  // ---------------------------------------------------------------------
  // Create_And_Add_Resource

  /** `(T) Enum.Parse( typeof( T ), suffix, true )` then `ToUInt32`. */
  function ResourceIndex(e: EnumDecl, suffix: string, name: string): (r: Result<nat, ResourceError>)
    ensures r.Success? <==> ParseEnum(e.members, suffix).Some? && ParseEnum(e.members, suffix).value >= 0
    ensures r.Success? ==> r.value == ParseEnum(e.members, suffix).value
  {
    match ParseEnum(e.members, suffix)
    case None => Failure(CastFailure(name, e.name))
    case Some(v) => if v < 0 then Failure(IndexOverflow(name, e.name)) else Success(v)
  }

  /** A numeric suffix is taken as the index even when no member of `T` has
      it, and a negative one fails the unsigned conversion. */
  lemma NumericResourceIndex(e: EnumDecl, n: int, name: string)
    requires Int32Min <= n <= Int32Max
    ensures ResourceIndex(e, IntegerText(n), name)
      == if n >= 0 then Success(n) else Failure(IndexOverflow(name, e.name))
  {
    EnumNumberRoundTrip(e.members, n);
  }

  /** `T`'s table, or the empty one the first resource of `T` creates. */
  function TableOf(m: ResourceManager, e: EnumDecl): map<nat, string> {
    if e.name in m.tables then m.tables[e.name] else map[]
  }

  /** `Create_And_Add_Resource< T >`: a name outside the pattern is passed
      over; otherwise its value goes into `T`'s table under the parsed
      index, and an index already there throws. */
  function AddResource(m: ResourceManager, e: EnumDecl, prefix: string, name: string, value: string)
    : (r: Result<ResourceManager, ResourceError>)
    ensures Captured(name, prefix).None? ==> r == Success(m)
    ensures r.Success? && Captured(name, prefix).Some? ==>
      var ri := ResourceIndex(e, Captured(name, prefix).value, name);
      && ri.Success? && ri.value !in TableOf(m, e)
      && r.value.tables == m.tables[e.name := TableOf(m, e)[ri.value := value]]
    ensures r.Failure? ==>
      && Captured(name, prefix).Some?
      && var ri := ResourceIndex(e, Captured(name, prefix).value, name);
      || (ri.Failure? && r.error == ri.error)
      || (ri.Success? && ri.value in TableOf(m, e) && r.error == DuplicateIndex(name, e.name))
  {
    match Captured(name, prefix)
    case None => Success(m)
    case Some(suffix) =>
      var i :- ResourceIndex(e, suffix, name);
      var table := TableOf(m, e);
      if i in table then Failure(DuplicateIndex(name, e.name))
      else Success(m.(tables := m.tables[e.name := table[i := value]]))
  }

  /** The table after loading, and the exception that ended the load, if
      any; resources stored before it stay stored. */
  datatype Loaded = Loaded(manager: ResourceManager, thrown: Option<ResourceError>)

  function LoadEntries(m: ResourceManager, e: EnumDecl, prefix: string, entries: seq<ResourceEntry>): Loaded
    decreases |entries|
  {
    if entries == [] then Loaded(m, None)
    else
      match AddResource(m, e, prefix, entries[0].name, Unescape(entries[0].value))
      case Failure(err) => Loaded(m, Some(err))
      case Success(m1) => LoadEntries(m1, e, prefix, entries[1..])
  }

  /** `Initialize_Assembly_Resources< T >`: the pattern of the resource
      type, then every entry with its escapes restored. */
  function InitializeAssemblyResources(m: ResourceManager, e: EnumDecl, kind: ResourceKind, entries: seq<ResourceEntry>): Loaded {
    match NamePrefix(kind)
    case None => Loaded(m, Some(NoPattern(kind)))
    case Some(prefix) => LoadEntries(m, e, prefix, entries)
  }

  // ---------------------------------------------------------------------
  // Get_Text

  /** `Get_Text< T >( text_id )`: null when `T` has no table or the id no
      text; the id is converted to unsigned only once `T`'s table is
      found, and a negative one throws. */
  function GetText(m: ResourceManager, e: EnumDecl, id: int): (r: Result<Option<string>, ResourceError>)
    ensures e.name !in m.tables ==> r == Success(None)
    ensures e.name in m.tables && id < 0 ==> r == Failure(NegativeId(id))
    ensures e.name in m.tables && id >= 0 ==>
      && r.Success?
      && (r.value.Some? <==> id in m.tables[e.name])
      && (r.value.Some? ==> r.value.value == m.tables[e.name][id])
  {
    if e.name !in m.tables then Success(None)
    else if id < 0 then Failure(NegativeId(id))
    else if id in m.tables[e.name] then Success(Some(m.tables[e.name][id]))
    else Success(None)
  }

  /** The first resource of `T` creates its table; after it, the resource
      is found under its index and every other lookup is as before. */
  lemma AddThenGet(m: ResourceManager, e: EnumDecl, prefix: string, name: string, value: string, other: EnumDecl, id: int)
    requires Captured(name, prefix).Some?
    requires AddResource(m, e, prefix, name, value).Success?
    ensures var i := ResourceIndex(e, Captured(name, prefix).value, name).value;
      var m' := AddResource(m, e, prefix, name, value).value;
      && e.name in m'.tables
      && (e.name !in m.tables ==> m'.tables[e.name] == map[i := value])
      && GetText(m', e, i) == Success(Some(value))
      && ((other.name != e.name || id != i) && (other.name != e.name || e.name in m.tables) ==>
            GetText(m', other, id) == GetText(m, other, id))
  {
  }

  /** A second resource for an index throws, and the text already stored
      for it is kept. */
  lemma DuplicateKeepsExisting(m: ResourceManager, e: EnumDecl, prefix: string, entry: ResourceEntry)
    requires Captured(entry.name, prefix).Some?
    requires ResourceIndex(e, Captured(entry.name, prefix).value, entry.name).Success?
    requires ResourceIndex(e, Captured(entry.name, prefix).value, entry.name).value in TableOf(m, e)
    ensures var r := LoadEntries(m, e, prefix, [entry]);
      && r.thrown == Some(DuplicateIndex(entry.name, e.name))
      && r.manager == m
      && GetText(r.manager, e, ResourceIndex(e, Captured(entry.name, prefix).value, entry.name).value)
         == Success(Some(TableOf(m, e)[ResourceIndex(e, Captured(entry.name, prefix).value, entry.name).value]))
  {
  }

  /** The pattern is case-sensitive: with the Text pattern, a name written
      `TEXT_...` is passed over. */
  lemma PatternIsCaseSensitive(m: ResourceManager, e: EnumDecl, rest: string, value: string)
    ensures AddResource(m, e, "Text_", "TEXT_" + rest, value) == Success(m)
  {
    assert ("TEXT_" + rest)[1] == 'E';
  }

  /** `n` keeps every text of `m`. */
  predicate Keeps(m: ResourceManager, n: ResourceManager) {
    forall t, i :: t in m.tables && i in m.tables[t] ==>
      t in n.tables && i in n.tables[t] && n.tables[t][i] == m.tables[t][i]
  }

  lemma AddKeeps(m: ResourceManager, e: EnumDecl, prefix: string, name: string, value: string)
    requires AddResource(m, e, prefix, name, value).Success?
    ensures Keeps(m, AddResource(m, e, prefix, name, value).value)
  {
  }

  lemma KeepsTransitive(a: ResourceManager, b: ResourceManager, c: ResourceManager)
    requires Keeps(a, b) && Keeps(b, c)
    ensures Keeps(a, c)
  {
  }

  /** Loading only adds, thrown or not. */
  lemma {:induction false} LoadingOnlyAdds(m: ResourceManager, e: EnumDecl, prefix: string, entries: seq<ResourceEntry>)
    ensures Keeps(m, LoadEntries(m, e, prefix, entries).manager)
    decreases |entries|
  {
    if entries != [] {
      var r := AddResource(m, e, prefix, entries[0].name, Unescape(entries[0].value));
      if r.Success? {
        LoadingOnlyAdds(r.value, e, prefix, entries[1..]);
        AddKeeps(m, e, prefix, entries[0].name, Unescape(entries[0].value));
        KeepsTransitive(m, r.value, LoadEntries(r.value, e, prefix, entries[1..]).manager);
      }
    }
  }

  /** A load that throws nothing has stored every resource that matches the
      pattern, under its index, with its escapes restored. */
  lemma {:induction false} LoadedEntriesStored(m: ResourceManager, e: EnumDecl, prefix: string, entries: seq<ResourceEntry>, k: nat)
    requires LoadEntries(m, e, prefix, entries).thrown.None?
    requires k < |entries| && Captured(entries[k].name, prefix).Some?
    ensures var i := ResourceIndex(e, Captured(entries[k].name, prefix).value, entries[k].name);
      && i.Success?
      && GetText(LoadEntries(m, e, prefix, entries).manager, e, i.value) == Success(Some(Unescape(entries[k].value)))
    decreases |entries|
  {
    var m1 := AddResource(m, e, prefix, entries[0].name, Unescape(entries[0].value)).value;
    if k == 0 {
      LoadingOnlyAdds(m1, e, prefix, entries[1..]);
    } else {
      assert entries[k] == entries[1..][k - 1];
      LoadedEntriesStored(m1, e, prefix, entries[1..], k - 1);
    }
  }

  /** Loading and lookup agree: after a load that throws nothing, the text
      of resource `<Type>_<member>` is found by that member's value, when
      the member's name is a plain identifier no earlier member shares
      ignoring case. */
  lemma LoadThenGetText(m: ResourceManager, e: EnumDecl, kind: ResourceKind, entries: seq<ResourceEntry>, j: nat, k: nat)
    requires InitializeAssemblyResources(m, e, kind, entries).thrown.None?
    requires k < |e.members| && j < |entries|
    requires entries[j].name == KindName(kind) + "_" + e.members[k].name
    requires var s := e.members[k].name;
      |s| > 0 && IsWordChar(s[0]) && !IsDigit(s[0]) && !IsSpaceChar(s[|s| - 1]) && '\n' !in s
    requires forall i :: 0 <= i < k ==> !EqualsIgnoreCase(e.members[i].name, e.members[k].name)
    ensures e.members[k].value >= 0
    ensures GetText(InitializeAssemblyResources(m, e, kind, entries).manager, e, e.members[k].value)
      == Success(Some(Unescape(entries[j].value)))
  {
    var prefix := NamePrefix(kind).value;
    var member := e.members[k].name;
    assert entries[j].name == prefix + member;
    CapturedPlainName(prefix, member);
    EqualsIgnoreCaseReflexive(member);
    EnumNameRoundTrip(e.members, k, member);
    LoadedEntriesStored(m, e, prefix, entries, j);
  }

  lemma EqualsIgnoreCaseReflexive(s: string)
    ensures EqualsIgnoreCase(s, s)
  {
  }

  /** Nothing is found before anything is loaded. */
  lemma EmptyManagerFindsNothing(e: EnumDecl, id: int)
    ensures GetText(EmptyManager, e, id) == Success(None)
  {
  }
}

=== FILE: string_list.dfy ===
/** `CCommonUtils` from the Kolyma common library: the ", "-joined list
    builder used for group and command listings, and the sequence helpers
    built on `Apply`.  A C# `null` delegate is `None`; an element's
    `ToString()` is the `show` parameter. */
module StringList {
  import opened Base

  const Separator: string := ", "

  /** Reference definition: the parts in order, with one separator between
      neighbours and none at either end. */
  function Join(parts: seq<string>): string {
    if parts == [] then ""
    else if |parts| == 1 then parts[0]
    else parts[0] + Separator + Join(parts[1..])
  }

  /** The text an element contributes: its rendering (the transformer, or
      `ToString()` when there is none), then its annotation when that is
      not null. */
  function Piece<T>(x: T, show: T -> string, transformer: Option<T -> string>,
                    annotater: Option<T -> Option<string>>): string
  {
    var rendered := if transformer.Some? then transformer.value(x) else show(x);
    var note := if annotater.Some? then annotater.value(x).GetOr("") else "";
    rendered + note
  }

  function Pieces<T>(xs: seq<T>, show: T -> string, transformer: Option<T -> string>,
                     annotater: Option<T -> Option<string>>): (r: seq<string>)
    ensures |r| == |xs|
    ensures forall i :: 0 <= i < |xs| ==> r[i] == Piece(xs[i], show, transformer, annotater)
  {
    seq(|xs|, i requires 0 <= i < |xs| => Piece(xs[i], show, transformer, annotater))
  }

  lemma {:induction false} JoinSnoc(parts: seq<string>, last: string)
    requires parts != []
    ensures Join(parts + [last]) == Join(parts) + Separator + last
    decreases |parts|
  {
    if |parts| == 1 {
      assert parts + [last] == [parts[0], last];
      assert [parts[0], last][1..] == [last];
    } else {
      assert (parts + [last])[1..] == parts[1..] + [last];
      JoinSnoc(parts[1..], last);
    }
  }

  /** The length of a join: every part once, plus one separator fewer than
      there are parts. */
  lemma {:induction false} JoinLength(parts: seq<string>)
    requires parts != []
    ensures |Join(parts)| == SumLengths(parts) + |Separator| * (|parts| - 1)
    decreases |parts|
  {
    if |parts| > 1 {
      JoinLength(parts[1..]);
    }
  }

  function SumLengths(parts: seq<string>): nat {
    if parts == [] then 0 else |parts[0]| + SumLengths(parts[1..])
  }

  /** A join starts with its first part and ends with its last one: there is
      no leading and no trailing separator. */
  lemma {:induction false} JoinEnds(parts: seq<string>)
    requires parts != []
    ensures IsPrefixOf(parts[0], Join(parts))
    ensures IsSuffixOf(parts[|parts| - 1], Join(parts))
    decreases |parts|
  {
    if |parts| > 1 {
      JoinEnds(parts[1..]);
      var j := Join(parts);
      assert j == parts[0] + (Separator + Join(parts[1..]));
      assert j[..|parts[0]|] == parts[0];
    }
  }

  predicate IsPrefixOf(p: string, s: string) {
    |p| <= |s| && s[..|p|] == p
  }

  predicate IsSuffixOf(p: string, s: string) {
    |p| <= |s| && s[|s| - |p|..] == p
  }

  /** `Build_String_List(t_list, transformer, annotater)`: the loop appends
      ", " before every element but the first. */
  method BuildStringListAnnotated<T>(xs: seq<T>, show: T -> string, transformer: Option<T -> string>,
                                     annotater: Option<T -> Option<string>>) returns (r: string)
    ensures r == Join(Pieces(xs, show, transformer, annotater))
  {
    ghost var parts := Pieces(xs, show, transformer, annotater);
    r := "";
    var isFirst := true;
    var i := 0;
    while i < |xs|
      invariant 0 <= i <= |xs|
      invariant isFirst <==> i == 0
      invariant r == Join(parts[..i])
    {
      if isFirst {
        isFirst := false;
      } else {
        r := r + Separator;
      }
      var piece := Piece(xs[i], show, transformer, annotater);
      if i > 0 {
        JoinSnoc(parts[..i], piece);
      }
      assert parts[..i + 1] == parts[..i] + [piece];
      r := r + piece;
      i := i + 1;
    }
    assert parts[..|xs|] == parts;
  }

  /** `Build_String_List(t_list, transformer)`: the three-argument overload
      with a null annotater. */
  method BuildStringListWith<T>(xs: seq<T>, show: T -> string, transformer: Option<T -> string>)
    returns (r: string)
    ensures r == Join(Pieces(xs, show, transformer, None))
  {
    r := BuildStringListAnnotated(xs, show, transformer, None);
  }

  /** `Build_String_List(t_list)`: its own loop over `ToString()`. */
  method BuildStringList<T>(xs: seq<T>, show: T -> string) returns (r: string)
    ensures r == Join(seq(|xs|, i requires 0 <= i < |xs| => show(xs[i])))
    ensures xs == [] ==> r == ""
  {
    ghost var parts := seq(|xs|, i requires 0 <= i < |xs| => show(xs[i]));
    r := "";
    var isFirst := true;
    var i := 0;
    while i < |xs|
      invariant 0 <= i <= |xs|
      invariant isFirst <==> i == 0
      invariant r == Join(parts[..i])
    {
      if isFirst {
        isFirst := false;
      } else {
        r := r + Separator;
      }
      if i > 0 {
        JoinSnoc(parts[..i], show(xs[i]));
      }
      assert parts[..i + 1] == parts[..i] + [show(xs[i])];
      r := r + show(xs[i]);
      i := i + 1;
    }
    assert parts[..|xs|] == parts;
  }

  /** The plain overload renders exactly like the annotated one with neither
      a transformer nor an annotater. */
  lemma PlainIsAnnotatedWithoutDelegates<T>(xs: seq<T>, show: T -> string)
    ensures seq(|xs|, i requires 0 <= i < |xs| => show(xs[i])) == Pieces(xs, show, None, None)
  {
    var plain := seq(|xs|, i requires 0 <= i < |xs| => show(xs[i]));
    var pieces := Pieces(xs, show, None, None);
    forall i | 0 <= i < |xs|
      ensures plain[i] == pieces[i]
    {
      assert show(xs[i]) + "" == show(xs[i]);
    }
  }

  /** A null annotation adds nothing after its element. */
  lemma NullAnnotationAddsNothing<T>(x: T, show: T -> string, transformer: Option<T -> string>,
                                     annotater: T -> Option<string>)
    requires annotater(x).None?
    ensures Piece(x, show, transformer, Some(annotater)) == Piece(x, show, transformer, None)
  {
  }

  /** `Apply(collection, action)`: the action runs once per element, in
      order; the model records what each run produced. */
  method Apply<T, U>(xs: seq<T>, action: T -> U) returns (trace: seq<U>)
    ensures |trace| == |xs|
    ensures forall i :: 0 <= i < |xs| ==> trace[i] == action(xs[i])
  {
    trace := [];
    var i := 0;
    while i < |xs|
      invariant 0 <= i <= |xs|
      invariant |trace| == i
      invariant forall k :: 0 <= k < i ==> trace[k] == action(xs[k])
    {
      trace := trace + [action(xs[i])];
      i := i + 1;
    }
  }

  /** `Duplicate_As_List`: a new list built by adding every element in turn. */
  method DuplicateAsList<T>(xs: seq<T>) returns (ys: seq<T>)
    ensures ys == xs
  {
    ys := Apply(xs, (x: T) => x);
  }
}

=== FILE: text.dfy ===
/** Character classes, ASCII case mapping and the integer parser that the
    slash-command engine relies on.

    The .NET runtime classes are Unicode-aware; this model restricts them to
    their ASCII members (`\w`, `\s`, `\p{S}`, `ToUpper`), and parses integers
    the way `Int32.TryParse` does under the invariant culture. */
module Text {
  import opened Base

  /** `\w` restricted to ASCII: letters, digits and the underscore. */
  predicate IsWordChar(c: char) {
    ('a' <= c <= 'z') || ('A' <= c <= 'Z') || ('0' <= c <= '9') || c == '_'
  }

  /** `\s` restricted to ASCII: space and the control characters TAB..CR.
      The same class is the white space `NumberStyles.Integer` lets
      surround a number. */
  predicate IsSpaceChar(c: char) {
    c == ' ' || ('\t' <= c <= '\r')
  }

  /** `\p{S}` restricted to ASCII: the math, currency and modifier symbols. */
  predicate IsSymbolChar(c: char) {
    c == '$' || c == '+' || c == '<' || c == '=' || c == '>' || c == '^' || c == '`' || c == '|' || c == '~'
  }

  predicate IsDigit(c: char) {
    '0' <= c <= '9'
  }

  predicate IsLineBreak(c: char) {
    c == '\r' || c == '\n'
  }

  function ToUpperChar(c: char): char {
    if 'a' <= c <= 'z' then (c as int - 32) as char else c
  }

  /** `String.ToUpper`, restricted to ASCII letters. */
  function ToUpper(s: string): (r: string)
    ensures |r| == |s|
    ensures forall i :: 0 <= i < |s| ==> r[i] == ToUpperChar(s[i])
  {
    seq(|s|, i requires 0 <= i < |s| => ToUpperChar(s[i]))
  }

  predicate IsUpper(s: string) {
    forall i :: 0 <= i < |s| ==> ToUpperChar(s[i]) == s[i]
  }

  lemma ToUpperIsUpper(s: string)
    ensures IsUpper(ToUpper(s))
    ensures ToUpper(ToUpper(s)) == ToUpper(s)
  {
  }

  /** Ordinal case-insensitive comparison (ASCII). */
  predicate EqualsIgnoreCase(a: string, b: string) {
    ToUpper(a) == ToUpper(b)
  }

  predicate IsPrefix(p: string, s: string) {
    |p| <= |s| && s[..|p|] == p
  }

  function TrimStart(s: string, strip: char -> bool): (r: string)
    ensures |r| <= |s| && r == s[|s| - |r|..]
    ensures r == [] || !strip(r[0])
    ensures forall i :: 0 <= i < |s| - |r| ==> strip(s[i])
  {
    if s != [] && strip(s[0]) then TrimStart(s[1..], strip) else s
  }

  function TrimEnd(s: string, strip: char -> bool): (r: string)
    ensures |r| <= |s| && r == s[..|r|]
    ensures r == [] || !strip(r[|r| - 1])
    ensures forall i :: |r| <= i < |s| ==> strip(s[i])
  {
    if s != [] && strip(s[|s| - 1]) then TrimEnd(s[..|s| - 1], strip) else s
  }

  function Trim(s: string, strip: char -> bool): string {
    TrimEnd(TrimStart(s, strip), strip)
  }

  function DigitsValue(ds: string): nat
    requires forall i :: 0 <= i < |ds| ==> IsDigit(ds[i])
  {
    if ds == [] then 0
    else
      assert IsDigit(ds[|ds| - 1]);
      DigitsValue(ds[..|ds| - 1]) * 10 + (ds[|ds| - 1] as int - '0' as int)
  }

  predicate AllDigits(ds: string) {
    forall i :: 0 <= i < |ds| ==> IsDigit(ds[i])
  }

  /** `[ws][+|-]digits[ws]`, accepted only when the value lies in `lo..hi`. */
  function ParseInteger(s: string, lo: int, hi: int): (r: Option<int>)
    ensures r.Some? ==> lo <= r.value <= hi
  {
    var t := Trim(s, IsSpaceChar);
    if t == [] then None
    else
      var negative := t[0] == '-';
      var digits := if t[0] == '-' || t[0] == '+' then t[1..] else t;
      if digits == [] || !AllDigits(digits) then None
      else
        var magnitude: int := DigitsValue(digits);
        var v: int := if negative then 0 - magnitude else magnitude;
        if lo <= v <= hi then Some(v) else None
  }

  const Int32Min: int := -0x8000_0000
  const Int32Max: int := 0x7FFF_FFFF

  /** `Int32.TryParse`: `Some` exactly when the text is a 32-bit integer. */
  function ParseInt32(s: string): Option<int> {
    ParseInteger(s, Int32Min, Int32Max)
  }

  /** A text holding a letter or an underscore is never numeric; this is what
      keeps ordinary command words away from the numeric fallback. */
  lemma WordWithLetterIsNotInt32(s: string, k: nat)
    requires k < |s| && IsWordChar(s[k]) && !IsDigit(s[k])
    ensures ParseInt32(s).None?
  {
    TrimKeepsInner(s, k);
    NonDigitRejected(s, Int32Min, Int32Max, k - (|s| - |TrimStart(s, IsSpaceChar)|));
  }

  /** A character that is not white space survives trimming, shifted left by
      the number of leading blanks. */
  lemma TrimKeepsInner(s: string, k: nat)
    requires k < |s| && !IsSpaceChar(s[k])
    ensures var a := |s| - |TrimStart(s, IsSpaceChar)|;
      a <= k && k - a < |Trim(s, IsSpaceChar)| && Trim(s, IsSpaceChar)[k - a] == s[k]
  {
    var u := TrimStart(s, IsSpaceChar);
    var a := |s| - |u|;
    assert u[k - a] == s[k];
  }

  lemma NonDigitRejected(s: string, lo: int, hi: int, j: nat)
    requires var t := Trim(s, IsSpaceChar);
      j < |t| && !IsDigit(t[j]) && !(j == 0 && (t[j] == '-' || t[j] == '+'))
    ensures ParseInteger(s, lo, hi).None?
  {
    if ParseInteger(s, lo, hi).Some? {
      ParsedIsSignedDigits(s, lo, hi);
    }
  }

  /** What the integer parser accepts is, after trimming, an optional sign
      followed by digits only. */
  lemma ParsedIsSignedDigits(s: string, lo: int, hi: int)
    requires ParseInteger(s, lo, hi).Some?
    ensures var t := Trim(s, IsSpaceChar);
      forall i :: 0 <= i < |t| ==> IsDigit(t[i]) || (i == 0 && (t[i] == '-' || t[i] == '+'))
  {
    var t := Trim(s, IsSpaceChar);
    var digits := if t[0] == '-' || t[0] == '+' then t[1..] else t;
    assert AllDigits(digits);
    forall i | 0 <= i < |t| && !(i == 0 && (t[i] == '-' || t[i] == '+'))
      ensures IsDigit(t[i])
    {
      if t[0] == '-' || t[0] == '+' {
        assert t[i] == digits[i - 1];
      }
    }
  }

  // ---------------------------------------------------------------------
  // What the integer parser accepts

  predicate Blanks(s: string) {
    forall i :: 0 <= i < |s| ==> IsSpaceChar(s[i])
  }

  predicate IsSign(sign: string) {
    sign == "" || sign == "+" || sign == "-"
  }

  /** `s` is white space, an optional sign, one or more digits, and white
      space again. */
  predicate IntegerLayout(s: string, pre: string, sign: string, ds: string, post: string) {
    && s == pre + sign + ds + post
    && Blanks(pre) && IsSign(sign) && |ds| > 0 && AllDigits(ds) && Blanks(post)
  }

  /** The value a sign gives a magnitude. */
  function Signed(sign: string, magnitude: nat): int {
    if sign == "-" then -(magnitude as int) else magnitude
  }

  /** Every text of the form `[ws][+|-]digits[ws]` is read as the signed
      value of its digits, leading zeros, a `+` and `-0` included, and is
      accepted exactly when that value is in range. */
  lemma ParseIntegerLayout(s: string, pre: string, sign: string, ds: string, post: string, lo: int, hi: int)
    requires IntegerLayout(s, pre, sign, ds, post)
    ensures var v := Signed(sign, DigitsValue(ds));
      ParseInteger(s, lo, hi) == if lo <= v <= hi then Some(v) else None
  {
    LayoutTrim(s, pre, sign, ds, post);
    ParseSignedDigits(s, sign, ds, lo, hi);
  }

  /** Trimming a text of that form leaves the sign and the digits. */
  lemma LayoutTrim(s: string, pre: string, sign: string, ds: string, post: string)
    requires IntegerLayout(s, pre, sign, ds, post)
    ensures Trim(s, IsSpaceChar) == sign + ds
  {
    var core := sign + ds;
    assert s == pre + (core + post);
    assert !IsSpaceChar(core[0]) by {
      if sign == "" { assert core[0] == ds[0]; }
    }
    TrimStartBlanks(s, pre, core + post);
    assert core[|core| - 1] == ds[|ds| - 1];
    TrimEndBlanks(core + post, core, post);
  }

  lemma ParseSignedDigits(s: string, sign: string, ds: string, lo: int, hi: int)
    requires IsSign(sign) && |ds| > 0 && AllDigits(ds) && Trim(s, IsSpaceChar) == sign + ds
    ensures var v := Signed(sign, DigitsValue(ds));
      ParseInteger(s, lo, hi) == if lo <= v <= hi then Some(v) else None
  {
    var t := sign + ds;
    if sign == "" {
      assert t == ds;
      assert t[0] != '-' && t[0] != '+';
    } else {
      assert t[0] == sign[0] && t[1..] == ds;
    }
  }

  /** Conversely, every accepted text has that form, and the result is the
      signed value of its digits. */
  lemma ParseIntegerAccepted(s: string, lo: int, hi: int)
    requires ParseInteger(s, lo, hi).Some?
    ensures exists pre, sign, ds, post ::
      IntegerLayout(s, pre, sign, ds, post) && ParseInteger(s, lo, hi).value == Signed(sign, DigitsValue(ds))
  {
    var t := Trim(s, IsSpaceChar);
    TrimSplit(s);
    var pre, post :| s == pre + t + post && Blanks(pre) && Blanks(post);
    AcceptedCore(s, lo, hi);
    var sign, ds :| IsSign(sign) && |ds| > 0 && AllDigits(ds) && t == sign + ds;
    ParseSignedDigits(s, sign, ds, lo, hi);
    Regroup(s, pre, t, post, sign, ds);
    assert IntegerLayout(s, pre, sign, ds, post);
  }

  /** What is left of an accepted text after trimming is an optional sign
      and one or more digits. */
  lemma AcceptedCore(s: string, lo: int, hi: int)
    requires ParseInteger(s, lo, hi).Some?
    ensures exists sign, ds :: IsSign(sign) && |ds| > 0 && AllDigits(ds) && Trim(s, IsSpaceChar) == sign + ds
  {
    var t := Trim(s, IsSpaceChar);
    var sign := if t[0] == '-' || t[0] == '+' then t[..1] else "";
    var ds := t[|sign|..];
    assert ds == if t[0] == '-' || t[0] == '+' then t[1..] else t;
    assert t == sign + ds;
    assert IsSign(sign) && |ds| > 0 && AllDigits(ds);
  }

  lemma Regroup(s: string, pre: string, t: string, post: string, sign: string, ds: string)
    requires s == pre + t + post && t == sign + ds
    ensures s == pre + sign + ds + post
  {
  }

  /** A text is leading white space, its trimmed core and trailing white
      space. */
  lemma TrimSplit(s: string)
    ensures exists pre, post :: s == pre + Trim(s, IsSpaceChar) + post && Blanks(pre) && Blanks(post)
  {
    var u := TrimStart(s, IsSpaceChar);
    var t := TrimEnd(u, IsSpaceChar);
    SplitAround(s, u, t);
  }

  /** `u` is a suffix of `s` after white space, and `t` a prefix of `u`
      before white space. */
  lemma SplitAround(s: string, u: string, t: string)
    requires |u| <= |s| && u == s[|s| - |u|..] && |t| <= |u| && t == u[..|t|]
    requires forall i :: 0 <= i < |s| - |u| ==> IsSpaceChar(s[i])
    requires forall i :: |t| <= i < |u| ==> IsSpaceChar(u[i])
    ensures exists pre, post :: s == pre + t + post && Blanks(pre) && Blanks(post)
  {
    var a := |s| - |u|;
    var b := a + |t|;
    assert t == s[a..b];
    assert s == s[..a] + s[a..b] + s[b..];
    forall i | 0 <= i < |s| - b ensures IsSpaceChar(s[b..][i]) {
      assert s[b..][i] == u[|t| + i];
    }
    assert Blanks(s[..a]) && Blanks(s[b..]);
  }

  /** Stripping leading white space removes exactly a blank prefix that is
      followed by a non-blank character or nothing. */
  lemma {:induction false} TrimStartBlanks(s: string, pre: string, rest: string)
    requires s == pre + rest && Blanks(pre) && (rest == [] || !IsSpaceChar(rest[0]))
    ensures TrimStart(s, IsSpaceChar) == rest
    decreases |pre|
  {
    if pre != [] {
      assert s[0] == pre[0];
      assert s[1..] == pre[1..] + rest;
      TrimStartBlanks(s[1..], pre[1..], rest);
    }
  }

  /** Likewise at the end. */
  lemma {:induction false} TrimEndBlanks(s: string, core: string, post: string)
    requires s == core + post && Blanks(post) && (core == [] || !IsSpaceChar(core[|core| - 1]))
    ensures TrimEnd(s, IsSpaceChar) == core
    decreases |post|
  {
    if post != [] {
      assert s[|s| - 1] == post[|post| - 1];
      assert s[..|s| - 1] == core + post[..|post| - 1];
      TrimEndBlanks(s[..|s| - 1], core, post[..|post| - 1]);
    }
  }

  // ---------------------------------------------------------------------
  // Decimal text, the partner of the integer parser

  function DigitChar(d: nat): char
    requires d < 10
  {
    ('0' as int + d) as char
  }

  /** The shortest decimal text of `n`, as `ToString()` writes it. */
  function DecimalText(n: nat): (r: string)
    ensures |r| > 0 && AllDigits(r)
  {
    if n < 10 then [DigitChar(n)] else DecimalText(n / 10) + [DigitChar(n % 10)]
  }

  /** `ToString()` of a signed integer under the invariant culture. */
  function IntegerText(n: int): string {
    if n < 0 then "-" + DecimalText(-n) else DecimalText(n)
  }

  lemma {:induction false} DecimalTextValue(n: nat)
    ensures DigitsValue(DecimalText(n)) == n
  {
    if n >= 10 {
      var r := DecimalText(n);
      assert r[..|r| - 1] == DecimalText(n / 10);
      DecimalTextValue(n / 10);
    }
  }

  lemma DecimalTextEnds(n: nat)
    ensures IsDigit(DecimalText(n)[0]) && IsDigit(DecimalText(n)[|DecimalText(n)| - 1])
  {
  }

  lemma DigitsUntrimmed(ds: string)
    requires |ds| > 0 && AllDigits(ds)
    ensures Trim(ds, IsSpaceChar) == ds
  {
    TrimKeeps(ds);
  }

  /** Trimming leaves a text alone when it neither starts nor ends with
      white space. */
  lemma TrimKeeps(s: string)
    requires |s| > 0 && !IsSpaceChar(s[0]) && !IsSpaceChar(s[|s| - 1])
    ensures Trim(s, IsSpaceChar) == s
  {
    assert TrimStart(s, IsSpaceChar) == s;
  }

  /** The integer parser reads back every in-range integer written in
      decimal. */
  lemma ParseIntegerRoundTrip(n: int, lo: int, hi: int)
    requires lo <= n <= hi
    ensures ParseInteger(IntegerText(n), lo, hi) == Some(n)
  {
    var t := IntegerText(n);
    if n < 0 {
      var d := DecimalText(-n);
      DecimalTextValue(-n);
      assert !IsSpaceChar(t[0]);
      assert TrimStart(t, IsSpaceChar) == t;
      assert t[|t| - 1] == d[|d| - 1];
      assert Trim(t, IsSpaceChar) == t;
      assert t[1..] == d;
    } else {
      DecimalTextValue(n);
      DigitsUntrimmed(t);
    }
  }
}
